=== FILE: README.md ===
# Ascend core logic in Dafny

Ascend is an interview-practice application. It has a FastAPI backend and a
Next.js frontend. This project models the sequential logic at the heart of
both halves, with the I/O beneath it replaced by values:

- **Backend request path.**
  - The sliding-window rate limiter, where a Redis sorted set becomes a set of timestamps per key.
  - The request-logging middleware.
  - The Redis token cache, where the server is a value handed in and out.
  - The JWT helpers and the `get_current_user` dependency, where JWT decoding is a function parameter.
  - The `create_or_get_user` upsert over the `users` table.
- **Validation rules.**
  - The settings validators and the CORS origin list.
  - The pydantic user schemas, where the library's e-mail and URL normalisers are function parameters.
  - The check constraints and column defaults of the session, interview-session and resume tables.
- **Frontend logic.**
  - The UI store, as a state machine.
  - The active-link rules of the navigation item, the sidebar and the header.
  - The breadcrumb trail.
  - The avatar initials.
  - The animated particle field: one `animate()` frame as a function from particles to particles, with every random draw and every distance to the mouse supplied as input.

Most modules model one source file each. Five shared modules support them:

- `Wrappers`: `Option` and `Result`.
- `Strings`: Python/JavaScript `split`, `strip`, `startswith`, `in` and ASCII `toUpperCase`.
- `Requests`: the request record and the client-address rule that both middlewares use.
- `Numbers`: truncation toward zero, which Python's `int()` and JavaScript's `%` share.
- `Tables`: how PostgreSQL refuses an INSERT: a value that does not fit its column type, else the first broken check constraint in name order.

Three further modules stand for pieces the source spreads or borrows:

- `Users`: the `users` table with its two lookups.
- `JobStatus`: the processing status two tables share.
- `HexDigest`: a stand-in for SHA-256 in the cache keys.

## Model

| member | source | states |
|---|---|---|
| RateLimit.QuotaFor | backend/app/middleware/rate_limit.py:156-176 | every window is 60 s; the limit is 5 exactly when the path contains `/api/v1/auth`, 60 exactly when it does not but starts with `/api/`, and 100 otherwise |
| RateLimit.AuthMarkerAnywhere | backend/app/middleware/rate_limit.py:168-169 | the auth marker anywhere in a path gives (5, 60), even after an `/api/` prefix |
| RateLimit.AuthLoginQuota | backend/app/middleware/rate_limit.py:168-169 | `/api/v1/auth/login` gets (5, 60) |
| RateLimit.ResumesQuota | backend/app/middleware/rate_limit.py:172-173 | `/api/v1/resumes` gets (60, 60) |
| RateLimit.OtherQuota | backend/app/middleware/rate_limit.py:176 | `/other` gets (100, 60) |
| RateLimit.CheckRateLimit | backend/app/middleware/rate_limit.py:193-219 | allowed iff the stamps left after pruning those at or before `now - window` number fewer than the limit; `now` is recorded and the expiry reset to the window whether or not the request is allowed; other keys are untouched |
| RateLimit.SameInstantCollapses | backend/app/middleware/rate_limit.py:207 | a second request at the same instant adds no member to the sorted set |
| RateLimit.QuietWindowReadmits | backend/app/middleware/rate_limit.py:207-219 | once every stamp is a full window old, the next request is allowed |
| RateLimit.Remaining | backend/app/middleware/rate_limit.py:236-243 | never negative; zero iff the count in [now - window, now] reaches the limit, and otherwise remaining plus that count is the limit |
| RateLimit.RemainingAfterAdmit | backend/app/middleware/rate_limit.py:201-243 | right after an admitted request at a fresh instant, remaining is the limit less the requests the check counted and less this one |
| Numbers.Trunc | backend/app/middleware/rate_limit.py:145 | truncation toward zero: the integer part of a non-negative value, and the value rounded up for a negative one |
| RateLimit.Dispatch | backend/app/middleware/rate_limit.py:77-154 | no Redis client or an exempt path runs the handler once, outside any guard, so its exception leaves the middleware; a failing check forwards once without quota headers; the 429 `HTTPException` is raised exactly when the check refuses, carrying Retry-After and window 60 and the path's limit, with the handler not run; otherwise Redis holds the store after the check; quota headers appear exactly on an admitted request with no fault, and then carry the limit, the remaining count at the query's clock over that store, and reset = trunc of the header's own later clock reading + 60; a failing handler or remaining query runs the handler twice |
| RateLimit.ExemptNeverLimited | backend/app/middleware/rate_limit.py:105-106 | the five exempt paths are never answered with 429 and leave Redis unchanged |
| RateLimit.RemainingFaultRunsHandlerTwice | backend/app/middleware/rate_limit.py:136-154 | as written, a failing remaining-count query runs the handler a second time, shown on a client's first request |
| RateLimit.HandlerFaultRunsHandlerTwice | backend/app/middleware/rate_limit.py:136-154 | as written, a handler that raises is run a second time and the retry's response replaces the error |
| RateLimit.DispatchOnce | backend/app/middleware/rate_limit.py:136-154 | corrected fail-open: the handler runs once for every forwarded request and never for a 429; a handler's exception leaves the middleware; store and all other replies are as in `Dispatch` |
| RateLimit.IncreasingElementsCount | backend/app/middleware/rate_limit.py:207 | distinct timestamps are all kept as distinct sorted-set members |
| RateLimit.BurstWithinWindow | backend/app/middleware/rate_limit.py:193-219 | requests at increasing instants within one window on a fresh key: exactly the first `limit` are allowed, and all are recorded |
| RateLimit.BurstStep | backend/app/middleware/rate_limit.py:201-219 | the last request of such a run is allowed iff fewer than `limit` came before, and is recorded |
| RateLimit.AuthBurstOfSix | backend/app/middleware/rate_limit.py:193-219 | six requests inside a minute on a 5-per-minute endpoint give five allows and then one refusal |
| Requests.ClientIp | backend/app/middleware/rate_limit.py:259-265 | with `X-Forwarded-For` set, a comma-free, whitespace-trimmed address; otherwise the direct peer, or `unknown` |
| Requests.FirstEntryUnique | backend/app/middleware/rate_limit.py:263 | a header has exactly one text before its first comma |
| Requests.ClientIpForwarded | backend/app/middleware/rate_limit.py:261-263 | with `X-Forwarded-For` set, the address is exactly its first comma-separated entry, stripped |
| Requests.ClientIpFirstHop | backend/app/middleware/rate_limit.py:261-263 | an unpadded first entry is the address itself |
| Requests.ClientIpDirectExamples | backend/app/middleware/rate_limit.py:265 | with no forwarding header: the peer `192.168.1.100`, or `unknown` when there is no peer |
| Requests.ClientIpProxyExample | backend/app/middleware/rate_limit.py:261-263 | `203.0.113.1, 198.51.100.1` yields `203.0.113.1` |
| RequestLogging.IsAuthenticated | backend/app/middleware/logging.py:59-60 | a request counts as authenticated when its `authorization` header starts with `Bearer ` |
| RequestLogging.PeerHost | backend/app/middleware/logging.py:55 | the logged client is the direct peer, or `unknown` |
| RequestLogging.LevelFor | backend/app/middleware/logging.py:77-83 | Error iff status >= 500; Warning iff 400 <= status < 500; Info iff status < 400 |
| RequestLogging.LevelMonotone | backend/app/middleware/logging.py:77-83 | a higher status is never logged at a milder level |
| RequestLogging.Dispatch | backend/app/middleware/logging.py:59-115 | an arrival entry carrying the bearer flag comes first; then the answer at its level, or the error entry alone when the handler raised; the outcome is handed back unchanged; an answer gives three entries exactly when the status is 401 and the request carries `Bearer `, two otherwise, and the third is the security entry with the path, the peer and the user agent or `unknown` |
| RequestLogging.AnsweredLevelMatchesStatus | backend/app/middleware/logging.py:77-83 | the answer entry is above Info exactly for statuses of 400 or more |
| RequestLogging.NoBearerNoSecurityEntry | backend/app/middleware/logging.py:59-60 | a request without a `Bearer ` authorization never yields the security entry |
| HexDigest.Hex | backend/app/core/cache.py:226 | a fixed-width lower-case hex rendering |
| HexDigest.HexInjective | backend/app/core/cache.py:226 | numbers that fit the width have equal renderings only if equal |
| HexDigest.Digest | backend/app/core/cache.py:226 | the digest is lower-case hex, six digits per character |
| HexDigest.DigestInjective | backend/app/core/cache.py:226 | different tokens have different digests |
| TokenCache.CacheKey | backend/app/core/cache.py:209-227 | the key is `token_cache:` followed by hex digits |
| TokenCache.CacheKeyInjective | backend/app/core/cache.py:209-227 | distinct tokens never share a key |
| TokenCache.EnsureConnection | backend/app/core/cache.py:46-67 | the first call settles the connection as connected iff the server answers; later calls keep it |
| TokenCache.ConnectionSettlesOnce | backend/app/core/cache.py:51-67 | a second probe changes nothing, and a failed first connection is never retried into a connected one |
| TokenCache.GetUser | backend/app/core/cache.py:69-100 | a record comes back iff connected, the GET does not fail, and the key holds a JSON record; JSON that is not a dict comes back too, as its truthiness; text that does not parse is a miss; the store is unchanged, and a hit or a miss is counted only when the GET is answered |
| TokenCache.PutUser | backend/app/core/cache.py:102-141 | succeeds iff connected, the command does not fail, the record serializes and the TTL is positive; success stores exactly that record under the token's key, and failure changes nothing |
| TokenCache.PutThenGet | backend/app/core/cache.py:126-137 | a successful put is read back unchanged |
| TokenCache.PutLeavesOtherTokens | backend/app/core/cache.py:126-137 | a put leaves every other token's lookup as it was |
| TokenCache.InvalidateToken | backend/app/core/cache.py:143-169 | true iff connected, the command does not fail and the key existed; the key is gone afterwards |
| TokenCache.PutInvalidateGet | backend/app/core/cache.py:143-169 | after put then invalidate, the invalidation reports true and the next get misses |
| TokenCache.UserKeys | backend/app/core/cache.py:190-194 | the keys matching `token_cache:user:<id>:*`: the stored keys that start with that prefix |
| TokenCache.InvalidateUserTokens | backend/app/core/cache.py:171-207 | deletes exactly the keys under `token_cache:user:<id>:`, reports how many, and keeps the rest unchanged; 0 and no change when unavailable or failing |
| TokenCache.UserSweepMissesTokenKeys | backend/app/core/cache.py:190-203 | a per-user sweep never removes a key written by `_get_cache_key` |
| TokenCache.GetStats | backend/app/core/cache.py:229-260 | unavailable and error statuses as the connection and fault dictate; total = hits + misses; the rate lies in [0, 100], is 0 iff there are no hits, is 100 iff there are no misses and total > 0, and rate * total = 100 * hits |
| TokenCache.LookupCounted | backend/app/core/cache.py:86-93 | each answered get raises the total by one, and a hit raises the hits |
| Security.Subject | backend/app/core/security.py:108 | the `sub` claim when present and non-null |
| Security.VerifyTokenSignature | backend/app/core/security.py:59-85 | true exactly when the decoder accepts the token |
| Security.ExtractUserId | backend/app/core/security.py:88-110 | None on a decode failure, else the subject (None when absent) |
| Security.ExtractedImpliesVerified | backend/app/core/security.py:59-110 | an extractable id implies the signature verifies |
| Security.SubjectNotRequired | backend/app/core/security.py:51-56 | a token without `sub` still verifies, and extraction yields None |
| Auth.AsWrittenRecord | backend/app/core/auth.py:155-165 | the cache dict as built: eight fields, with `id` holding a UUID object, so it does not serialize |
| Auth.UserRecord | backend/app/core/auth.py:155-165 | the dict with the id as text: eight fields, serializable |
| Auth.FromRecord | backend/app/core/auth.py:88-95 | a rebuilt user has its id from the record's eight fields |
| Auth.RecordRoundTrip | backend/app/core/auth.py:88-95 | rebuilding a user from its cache record gives the same user |
| Auth.Authenticate | backend/app/core/auth.py:83-171 | a cache hit answers from the record, and a truthy cached value that is not a dict answers 500; otherwise decode failure, missing subject and unknown user each give their 401 detail; success returns the user whose id is the subject; every 401 carries `WWW-Authenticate: Bearer` |
| Auth.GetCurrentUser | backend/app/core/auth.py:83-171 | as written, a cache-miss success leaves the cache server as the lookup left it |
| Auth.GetCurrentUserFixed | backend/app/core/auth.py:155-167 | with the id cached as text, a connected cache-miss success stores the user's record under the token's key with TTL 900 |
| Auth.NonRecordJsonFails | backend/app/core/auth.py:83-94 | cached truthy JSON that is not a dict gives a 500 whatever the token; falsy JSON falls through to token validation |
| Auth.HitIgnoresDecoder | backend/app/core/auth.py:83-97 | on a hit the outcome is the same whatever the decoder says |
| Auth.AsWrittenNeverFillsCache | backend/app/core/auth.py:155-167 | as written, a token absent from the cache is still absent after any request |
| Auth.FixedSecondRequestHits | backend/app/core/auth.py:83-97 | after the corrected fill, the next request with the token hits the cache and yields the same user, even under a decoder that now refuses it |
| Users.EmailIndex | backend/app/api/v1/users.py:101-104 | the position of a row with that e-mail, or none iff no row has it |
| Users.FindByEmail | backend/app/api/v1/users.py:101-104 | a row with that e-mail iff one exists |
| Users.FindById | backend/app/core/auth.py:141-142 | a row with that id iff one exists |
| Users.FindByEmailUnique | backend/app/db/models/user.py:31 | with unique e-mails the lookup finds the one row |
| UserUpsert.Refreshed | backend/app/api/v1/users.py:105-119 | id, e-mail, provider, provider id and creation time are kept; the name is replaced only by a non-empty different name, and the avatar only by a supplied different one; `updated_at` moves iff something changed |
| UserUpsert.CreateOrGetUser | backend/app/api/v1/users.py:99-143 | a database failure answers 500 and changes nothing; an existing user is refreshed in place, with a commit iff something changed; otherwise exactly one row with the given fields is appended, or the duplicate id is refused |
| UserUpsert.GrowsByAtMostOne | backend/app/api/v1/users.py:101-136 | the table grows by at most one row, and by one exactly when a new user is created |
| UserUpsert.KeepsWellKeyed | backend/app/db/models/user.py:31 | e-mail and id stay unique |
| UserUpsert.ExistingKeepsIdentity | backend/app/api/v1/users.py:105-121 | an existing user keeps its row, id, e-mail, provider, provider id and creation time; other rows are untouched |
| UserUpsert.SecondCallIsQuiet | backend/app/api/v1/users.py:101-121 | signing in again with the same data commits nothing and gives the same answer |
| UserUpsert.RowAfterPlaced | backend/app/api/v1/users.py:101-136 | after a successful call the e-mail's row is the refreshed or created user |
| UserSchemas.ParseUserCreate | backend/app/schemas/user.py:19-30 | accepted iff every field meets its rule; the e-mail and avatar are the library's normal forms of the body's text, the other fields the body's own; with settled normalisers the value is valid; a refusal names exactly the failing fields |
| UserSchemas.SpellingsShareAddress | backend/app/schemas/user.py:19 | two e-mail spellings that normalise alike give the same address |
| UserSchemas.ParseDump | backend/app/schemas/user.py:19-30 | every valid value, with e-mail and avatar in normal form, survives the trip through its JSON body |
| UserSchemas.OtherProviderRejected | backend/app/schemas/user.py:29 | `facebook` is refused |
| UserSchemas.EmailOnlyRejected | backend/app/schemas/user.py:29-30 | an e-mail-only body is refused for both OAuth fields |
| UserSchemas.OptionalFieldsDefaultToNone | backend/app/schemas/user.py:19-21 | an omitted name or avatar becomes None; the e-mail is kept normalised |
| UserSchemas.IntTextRoundTrip | backend/app/schemas/user.py:82-83 | the text of any integer, with or without surrounding white space, reads back as that integer |
| UserSchemas.DecimalZerosRoundTrip | backend/app/schemas/user.py:82-83 | integer text followed by a decimal point and only zeros (`5.`, `5.0`) reads back as that integer |
| UserSchemas.LaxInt | backend/app/schemas/user.py:82-83 | an integer is itself, a boolean 0 or 1, a float only when whole and then its value, text by the integer-text rule (sign, digits, optional decimal point with only zeros after it); absent or null is refused |
| UserSchemas.ParseTokenPayload | backend/app/schemas/user.py:81-83 | accepted iff `sub` is text and `exp` and `iat` read as lax integers, which they then are; a refusal names exactly the bad fields |
| UserSchemas.ParseDumpPayload | backend/app/schemas/user.py:81-83 | every payload survives the trip through its claims, also with the timestamps as text or as whole floats |
| UserSchemas.DecimalZeroTimestampsAccepted | backend/app/schemas/user.py:81-83 | timestamps sent as text such as `"1700000000.0"` or `"5."` are accepted as the integers they spell |
| UserSchemas.FractionalTimestampRejected | backend/app/schemas/user.py:82 | an `exp` with a fractional part is refused, and only `exp` |
| UserSchemas.SubjectOnlyPayloadRejected | backend/app/schemas/user.py:81-83 | a subject-only payload is refused for `exp` and `iat` |
| UserSchemas.ValidateResponse | backend/app/schemas/user.py:50-58 | accepted iff the row meets the response rules, with the same provider pair; e-mail and avatar come out normalised, every other field as stored, the id as text |
| UserSchemas.CreatedRowValidates | backend/app/schemas/user.py:19-58 | a row built from a valid create request validates as a response with every field as stored |
| Config.SecretValidator | backend/app/core/config.py:49-60 | the validator alone: accepted, unchanged, iff at least 32 characters and not the placeholder; every refusal is a `ValueError` |
| Config.ValidateSecret | backend/app/core/config.py:42-60 | the field: accepted, unchanged, iff at least 32 characters and not the placeholder; a short secret fails the `min_length` constraint before the validator runs; the placeholder gets the full two-sentence default-value message |
| Config.ShortSecretMessageUnreachable | backend/app/core/config.py:42-54 | the validator's own length message never reaches a caller |
| Config.OnlyPlaceholderRefusedWhenLong | backend/app/core/config.py:42-60 | among secrets of 32 or more characters only the placeholder is refused; an accepted secret is accepted again unchanged |
| Config.PlaceholderRefusedAsDefault | backend/app/core/config.py:55-59 | the placeholder is long enough, and it is refused with the full default-value message |
| Config.ValidateOpenAiKey | backend/app/core/config.py:84-87 | accepted, unchanged, iff absent, empty or starting with `sk-`; otherwise the format message |
| Config.OpenAiKeyByCharacters | backend/app/core/config.py:84-87 | a present non-empty key is accepted exactly when its first three characters are `s`, `k`, `-` |
| Config.CorsOrigins | backend/app/core/config.py:110-113 | one more origin than commas; no origin holds a comma or surrounding whitespace |
| Config.CorsOriginsArePieces | backend/app/core/config.py:110-113 | each origin is the corresponding comma-separated piece, stripped |
| Config.TwoOrigins | backend/app/core/config.py:110-113 | two clean origins joined by a comma come back as themselves |
| Config.DefaultOrigins | backend/app/core/config.py:106-113 | the default gives the two localhost origins |
| SessionModel.Violations | backend/app/db/models/session.py:63-74 | each constraint is named iff its check fails |
| SessionModel.Insert | backend/app/db/models/session.py:50-74 | a row is stored iff status, count and job-description length are all valid; a count beyond 32 bits, then a status over 50 characters, is refused for its column; otherwise the refusal names the broken constraint whose name sorts first |
| SessionModel.FirstCheckReported | backend/app/db/models/session.py:63-74 | a row with status `done` and 11 questions breaks two checks and is refused for the count's alone |
| SessionModel.NewSession | backend/app/db/models/session.py:47-51 | new rows have no questions, count 0, status `pending` |
| SessionModel.DefaultsAdmissible | backend/app/db/models/session.py:47-74 | the defaults pass their checks, so a new row is refused only for its job-description length |
| SessionModel.CountBounds | backend/app/db/models/session.py:67-74 | counts 0 and 10 pass, -1 and 11 fail; descriptions of 49 and 5001 characters fail |
| InterviewSessionModel.Violations | backend/app/db/models/interview_session.py:60-70 | each constraint is named iff its check fails |
| InterviewSessionModel.Insert | backend/app/db/models/interview_session.py:51-70 | a row is stored iff it breaks no constraint; column-type refusals come first, then the broken constraint whose name sorts first |
| InterviewSessionModel.NewInterviewSession | backend/app/db/models/interview_session.py:50-52 | new rows have an empty question list, count 5, status `pending` |
| InterviewSessionModel.DefaultsAdmissible | backend/app/db/models/interview_session.py:50-70 | a new row is refused only for its job-description length |
| InterviewSessionModel.SameConstraints | backend/app/db/models/interview_session.py:51-70 | the two models of the table break exactly the same constraints and refuse a row for the same reason |
| InterviewSessionModel.DefaultsDiffer | backend/app/db/models/interview_session.py:51 | the two models give a new row different question counts |
| ResumeModel.Violations | backend/app/db/models/resume.py:54-63 | each constraint is named iff its check fails |
| ResumeModel.Conversion | backend/app/db/models/resume.py:39-45 | a file name over 255, a size beyond 32 bits, a MIME type over 100 and a status over 50 characters are refused for their column, in that order |
| ResumeModel.Insert | backend/app/db/models/resume.py:39-63 | stored iff the file name and MIME type fit their columns, 0 < size <= 5242880 and the status is valid; a column refusal comes first, then the broken constraint whose name sorts first |
| ResumeModel.LongFilenameRefused | backend/app/db/models/resume.py:39 | a 256-character file name is refused for its column even when the row is otherwise valid |
| ResumeModel.NewResume | backend/app/db/models/resume.py:43-45 | a new row is unparsed, with status `pending` |
| ResumeModel.NewResumeAdmissible | backend/app/db/models/resume.py:39-63 | with the default status only the size and the two text lengths decide, and a fitting row is refused only by the size check |
| ResumeModel.SizeBoundaries | backend/app/db/models/resume.py:55-58 | 5242880 passes; 0 and 5242881 fail |
| JobStatus.DefaultStatusValid | backend/app/db/models/session.py:51-66 | `pending` is a valid status, and `done` and the empty string are not |
| UiStore.Apply | frontend/src/stores/ui-store.ts:23-28 | each action sets or flips its own field, and the other three are unchanged |
| UiStore.InitialState | frontend/src/stores/ui-store.ts:18-21 | sidebar open, chat closed, not recording, no session |
| UiStore.ToggleTwice | frontend/src/stores/ui-store.ts:23-25 | toggling twice restores the state |
| UiStore.SettersIdempotent | frontend/src/stores/ui-store.ts:24-28 | every setter is idempotent |
| UiStore.DifferentFieldsCommute | frontend/src/stores/ui-store.ts:23-28 | actions on different fields commute |
| UiStore.SidebarParity | frontend/src/stores/ui-store.ts:23 | without explicit sets, the sidebar state after a run follows the parity of its toggles |
| UiStore.ChatUntouched | frontend/src/stores/ui-store.ts:23-28 | actions that do not touch the chat leave it as it was |
| NavItem.IsActive | frontend/src/components/layout/nav-item.tsx:17 | active on the item's own path; an active path starts with the href and continues, if at all, with `/` |
| NavItem.IsActiveIffBelow | frontend/src/components/layout/nav-item.tsx:17 | active iff the path is the item's path followed by nothing or by a `/` segment |
| NavItem.DeeperPathsActive | frontend/src/components/layout/nav-item.tsx:17 | any depth below keeps the item active |
| NavItem.SiblingNotActive | frontend/src/components/layout/nav-item.tsx:17 | a sibling sharing only the raw prefix is not active |
| NavItem.ShorterNotActive | frontend/src/components/layout/nav-item.tsx:17 | a shorter path is never active |
| SidebarNav.Render | frontend/src/components/layout/sidebar-nav.tsx:17-24 | one entry per link, in order, each active by the item rule |
| SidebarNav.FiveLinks | frontend/src/components/layout/sidebar-nav.tsx:6-12 | five links: Dashboard, Resumes, Sessions, Progress, Settings |
| SidebarNav.NestedUnderDashboard | frontend/src/components/layout/sidebar-nav.tsx:6-12 | every later link lies under `/dashboard/` |
| SidebarNav.NestedActiveImpliesDashboard | frontend/src/components/layout/sidebar-nav.tsx:6-24 | wherever a later link is active, so is Dashboard |
| SidebarNav.OnlyDashboardAtDashboard | frontend/src/components/layout/sidebar-nav.tsx:6-24 | at `/dashboard` only Dashboard is active |
| SidebarNav.ResumesAndDashboard | frontend/src/components/layout/sidebar-nav.tsx:6-24 | at or below `/dashboard/resumes` both Dashboard and Resumes are active |
| Header.HasSidebar | frontend/src/components/layout/header.tsx:45-48 | the sidebar applies under any of the four raw prefixes, so only to absolute paths of at least eight characters |
| Header.IsScrolled | frontend/src/components/layout/header.tsx:36-37 | scrolled exactly when the offset is above 10 |
| Header.Render | frontend/src/components/layout/header.tsx:36-111 | translucent iff scrolled past 10; toggle and user menu iff the sidebar applies; public links and the sign-in pair otherwise |
| Header.ExactlyOneRightSlot | frontend/src/components/layout/header.tsx:100-111 | exactly one of the user menu and the sign-in pair; the toggle iff no public links |
| Header.RawPrefix | frontend/src/components/layout/header.tsx:45-48 | `/dashboards` counts as a sidebar page |
| Header.PublicPagesHaveNoSidebar | frontend/src/components/layout/header.tsx:45-48 | `/` and `/features` have no sidebar |
| Header.SidebarPagesHaveToggle | frontend/src/components/layout/header.tsx:45-74 | every page where a sidebar link is active shows the toggle |
| Breadcrumbs.RenderOne | frontend/src/components/layout/breadcrumbs.tsx:36-51 | a separator iff not first; a link iff a non-empty href and not last; a span is current iff last |
| Breadcrumbs.Render | frontend/src/components/layout/breadcrumbs.tsx:32-53 | one entry per item, in order |
| Breadcrumbs.EntriesFollowItems | frontend/src/components/layout/breadcrumbs.tsx:36-51 | labels kept in order; links exactly for non-last items with an href, pointing to it |
| Breadcrumbs.OnlyLastIsCurrent | frontend/src/components/layout/breadcrumbs.tsx:45-50 | the last entry is the only current one |
| Breadcrumbs.SeparatorCount | frontend/src/components/layout/breadcrumbs.tsx:38 | n items give n - 1 separators |
| Breadcrumbs.EmptyTrail | frontend/src/components/layout/breadcrumbs.tsx:32-33 | no items, no entries |
| UserMenu.FirstChars | frontend/src/components/layout/user-menu.tsx:30-33 | at most one character per segment, each the first of a non-empty segment; a non-empty first segment gives the first character |
| UserMenu.Initials | frontend/src/components/layout/user-menu.tsx:30-34 | at most one letter per space-separated segment; no lower-case letters and no spaces; a name not starting with a space gives its first character upper-cased first |
| UserMenu.FirstCharsAppend | frontend/src/components/layout/user-menu.tsx:32-33 | the characters of two lists of segments are those of each, in order |
| UserMenu.FirstCharsOne | frontend/src/components/layout/user-menu.tsx:32 | one segment gives its first character, or nothing when empty; with `FirstCharsAppend` this determines the result on every list |
| UserMenu.FirstCharsOfWords | frontend/src/components/layout/user-menu.tsx:32-33 | non-empty segments give exactly their first characters, one each, in order |
| UserMenu.InitialsOfWords | frontend/src/components/layout/user-menu.tsx:30-34 | words joined by single spaces give the upper-cased first letter of every word, in order |
| UserMenu.EmptySegmentsIgnored | frontend/src/components/layout/user-menu.tsx:32 | an empty segment contributes nothing |
| UserMenu.TwoNames | frontend/src/components/layout/user-menu.tsx:30-34 | a first and a last name give their upper-cased first letters, as a case of `InitialsOfWords` |
| UserMenu.JohnDoe | frontend/src/components/layout/user-menu.tsx:24-34 | `John Doe` gives `JD` |
| Strings.Split | backend/app/core/config.py:113 | one more piece than separators; pieces are separator-free and join back to the input |
| Strings.SplitJoin | frontend/src/components/layout/user-menu.tsx:31 | separator-free pieces joined by the separator split back into themselves |
| Strings.SplitTwo | backend/app/core/config.py:113 | two separator-free pieces split back into themselves |
| Strings.Strip | backend/app/core/config.py:113 | the result is the input minus its leading and trailing whitespace, and it is unpadded |
| Strings.StripUnpadded | backend/app/core/config.py:113 | stripping an unpadded string changes nothing |
| Strings.ContainsIffOccurs | backend/app/middleware/rate_limit.py:168 | Python `in` holds iff the part occurs at some position |
| Strings.UpperAscii | frontend/src/components/layout/user-menu.tsx:34 | same length; ASCII lower-case letters are raised, and everything else is kept |
| Particles.JsMod | frontend/src/components/ui/particle-background.tsx:54 | the dividend less a whole number of divisors, in [0, divisor) for a non-negative dividend and in (-divisor, 0] for a negative one |
| Particles.CreateParticle | frontend/src/components/ui/particle-background.tsx:38-70 | the next id, drifting; with draws in [0, 1): inside the canvas, speed at most 0.25 per axis, size in [1, 3), opacity in [0.2, 0.7), pulse at most 0.01 |
| Particles.SpawnX | frontend/src/components/ui/particle-background.tsx:44-56 | the spawn x stays within [0, width); far from the mouse it is the drawn point, near it the drawn point plus 500 less a whole number of widths |
| Particles.SpawnShiftWraps | frontend/src/components/ui/particle-background.tsx:52-54 | on a width that divides 500 the shift leaves the drawn point where it was |
| Particles.Scale | frontend/src/components/ui/particle-background.tsx:44-45 | a draw in [0, 1) scales into [0, extent) |
| Particles.WrapOnce | frontend/src/components/ui/particle-background.tsx:105-108 | a coordinate wraps at most once, to the opposite edge, and ends within the margins |
| Particles.Step | frontend/src/components/ui/particle-background.tsx:95-141 | the id and size are kept; sucking once captured, never back; drifting keeps velocity and wraps; sucking moves by the pulled velocity, damps it by 0.92, and sets a non-negative opacity |
| Particles.DriftKeepsOpacity | frontend/src/components/ui/particle-background.tsx:101-102 | a drifting particle's opacity stays within [0.19, 0.71] and its bounding invariant is kept |
| Particles.CaptureInsideKillRadius | frontend/src/components/ui/particle-background.tsx:111-156 | a drift captured within 15 is replaced and removed in the same frame; a sucking particle is never replaced |
| Particles.Walk | frontend/src/components/ui/particle-background.tsx:95-156 | one spawn per capture; the counter advances by the spawns; there are no more survivors than particles |
| Particles.WalkSpawns | frontend/src/components/ui/particle-background.tsx:111-115 | spawns are created under the consecutive ids after the counter |
| Particles.WalkSurvivors | frontend/src/components/ui/particle-background.tsx:149-156 | every survivor is a stepped particle that was not killed |
| Particles.NotKilledSurvives | frontend/src/components/ui/particle-background.tsx:149-156 | every particle its step did not kill is among the survivors, so only sucking particles within 15 of the mouse are dropped |
| Particles.WalkKeepsDrifting | frontend/src/components/ui/particle-background.tsx:110-156 | drifting survivors plus spawns equal the drifting particles before |
| Particles.Frame | frontend/src/components/ui/particle-background.tsx:80-163 | the counter advances by the captures, and the drifting count is unchanged |
| Particles.PopulationSplit | frontend/src/components/ui/particle-background.tsx:149-160 | population = the previous drifting count + sucking particles |
| Particles.SurvivorsInOrder | frontend/src/components/ui/particle-background.tsx:149-156 | survivors keep their relative order |
| Particles.FrameKeepsHealthy | frontend/src/components/ui/particle-background.tsx:80-163 | a frame keeps ids increasing and bounded by the counter, and drifting opacities bounded |
| Particles.Ceil | frontend/src/components/ui/particle-background.tsx:73-75 | the least integer at or above a non-negative real |
| Particles.InitialCount | frontend/src/components/ui/particle-background.tsx:72-78 | the loop count is ceil(min(width / 15, 80)), at most 80 |
| Particles.InitialCountExamples | frontend/src/components/ui/particle-background.tsx:72-78 | 1920 px gives 80, 100 px gives 7, 0 px gives 0 |
| Particles.InitParticles | frontend/src/components/ui/particle-background.tsx:72-78 | that many drifting particles with consecutive ids after the counter, healthy under valid draws |
| Particles.DriftingPopulationKept | frontend/src/components/ui/particle-background.tsx:72-160 | from an all-drifting field, the population is the initial count plus the sucking particles |

## Left out

- I/O is left out throughout. Redis and PostgreSQL are values, and connection pools, pipelines, `scan_iter` and async/await are not modelled. Concurrent requests are not modelled either; each operation runs alone.
- Clock readings, random draws, distances to the mouse and the spiral force's velocity change are parameters. Trigonometry, colours, canvas drawing, `requestAnimationFrame`, resize and mouse handlers are not modelled.
- Floating point: JavaScript numbers and Python floats are modelled as exact reals, so rounding is not modelled. The particle bounds (the [0.19, 0.71] opacity band, `RemainderBounds`, `ScaleBounds`) and the rate limiter's timestamps rely on exact arithmetic.
- UserMenu.Initials: JavaScript strings are UTF-16 code units, so `n[0]` of a name starting with a character outside the Basic Multilingual Plane is half a surrogate pair; the model's strings are sequences of code points.
- Particles.SpawnX: the comment's intent, a new particle placed away from the mouse, is not what the shift does and is not promised; `SpawnShiftWraps` shows that on a width dividing 500 the particle stays where it was drawn.
- Particles: a zero-width canvas gives NaN in JavaScript and is excluded by `width > 0`.
- Particles: the initial id counter is a parameter, because the component never resets it.
- HexDigest.Digest: SHA-256 is replaced by an injective hex encoding. Collision freedom is assumed of SHA-256 and proved of the stand-in.
- TokenCache.GetStats: the hit rate is exact; rounding to two decimals is not modelled.
- TokenCache: TTLs are recorded but never expire, since time does not pass.
- TokenCache.UserKeys: glob metacharacters inside a user id are not interpreted.
- TokenCache.GetUser: a stored record holds null, booleans, integers and text. A stored dict holding a float, a list or a nested dict is not represented; `json.loads` would return it and `User(**…)` would store such values unchecked.
- Tables: an integer outside 32 bits and a text too long for its `varchar` are reported in column order. Which of the two the database driver reports first, when a row has both, is not modelled; neither is a NOT NULL violation, since the model has no null text or number columns.
- Auth.FromRecord: `datetime.fromisoformat` failures on cached timestamps are not modelled, because timestamps are text.
- Auth.FromRecord: a record rebuilds iff it has exactly the eight fields with text values (null allowed for name and avatar). `User(**data)` is the SQLAlchemy model's constructor, which does no coercion: it stores values of any type unchecked, leaves a missing attribute unset (a missing `created_at` or `updated_at` raises `KeyError` first) and raises `TypeError` on an unknown key. The model refuses every other record.
- RateLimit.Dispatch: the 429 is an `HTTPException` raised inside `BaseHTTPMiddleware`; how the framework renders it (Starlette's middleware stack may turn it into a 500 without the headers) is not modelled. A Redis failure and a handler failure in the same request are not combined, and a handler's second failure under `HandlerFault(true)` is reported as leaving the middleware, without its own message.
- Auth.GetCurrentUserFixed: the corrected fill only changes the cached id. The cache-hit branch's `session.add(user)` and the commit in `get_db` are not modelled; with the cache filled they would try to insert the rebuilt user as a new row, so the fix also needs `session.merge` or no `add`.
- Auth.Authenticate: the token's subject is compared with the stored ids as canonical UUID text. `session.get` on the UUID key also finds upper-case or hyphen-less spellings of an id, and a subject that is not UUID text makes the driver raise, a 500; neither is modelled, and such subjects answer 401 "User not found" here.
- Security: HS256 signature checking, expiry and token parsing belong to the JWT library and enter as the decoder parameter.
- UserSchemas: what `EmailStr` and `HttpUrl` accept and how they normalise belong to the validation library and enter as normaliser parameters. Malformed UUIDs are not checked.
- UserSchemas.ParseUserCreate: that the value is valid is promised only for settled normalisers, ones whose output normalises to itself.
- UserSchemas.LaxInt: integer text is read as optional white space, an optional sign, decimal digits and an optional decimal point followed only by zeros; the library's finer points (digit-group underscores, length limits, which characters count as white space) are not modelled. Decimal and bytes inputs are not modelled, since token claims are JSON.
- Config.ValidateOpenAiKey: the message is the one the validator raises; pydantic's `Value error, ` prefix and error wrapping are not modelled.
- Config.ValidateSecret: pydantic's exact `string_too_short` message text is not modelled; the error carries its bound.
- UserUpsert.CreateOrGetUser: the new row's UUID, the clock and a database failure are parameters. Varchar length limits of the table are not enforced.
- RequestLogging: request ids, durations and log formatting are left out. The middleware logs the direct peer (`PeerHost`), not `get_client_ip`; `get_client_ip` is the shared `Requests.ClientIp`.
- Strings.UpperAscii: JavaScript `toUpperCase` is modelled for ASCII letters only.
- Particles.DriftKeepsOpacity: the bound is [0.19, 0.71], not [0.2, 0.7]. The code reverses the pulse only after the step that crosses 0.2 or 0.7, so opacity can overshoot by one pulse of at most 0.01.
- Particles.InitialCount: the loop `i < min(width / 15, 80)` runs the ceiling of that bound. A 100-pixel screen therefore gets 7 particles, not 6.

## Findings

| source | as written | input that shows it | evidently intended | confidence | as-written member | corrected member |
|---|---|---|---|---|---|---|
| backend/app/middleware/rate_limit.py:136-154 | `call_next` and the remaining-count query run inside the guarded block; an exception from either falls into the generic fail-open branch, which calls `call_next` again | the first request of a client on `/api/v1/resumes` while the ZCOUNT after the handler raises, or while the handler raises a `ValueError` | fail open without running the handler twice: answer with the response already produced | not executed | RateLimit.RemainingFaultRunsHandlerTwice | RateLimit.DispatchOnce |
| backend/app/core/auth.py:155-167 | the cache dict holds `user.id` itself, a `uuid.UUID`; `json.dumps` raises, `cache_user_data` swallows it and returns False, so the cache is never filled | any valid token for an existing user, with the cache connected and empty | cache the id as its text, as `UserResponse` serializes it; the cache-hit branch then also needs `session.merge` instead of `add` | not executed | Auth.AsWrittenNeverFillsCache | Auth.FixedSecondRequestHits |

=== FILE: auth.dfy ===
/** The `get_current_user` dependency (backend/app/core/auth.py): token cache
    first, then JWT decoding, the subject claim, the user table, and finally
    a cache fill. */
module Auth {
  import opened Wrappers
  import opened Users
  import opened Security
  import opened TokenCache
  import opened Requests

  const BearerChallenge: map<string, string> := map["WWW-Authenticate" := "Bearer"]
  const CacheTtl := 900

  function Unauthorized(detail: string): HttpError {
    HttpError(401, detail, BearerChallenge)
  }

  /** The names of the eight cached user fields. */
  const FieldNames: set<string> :=
    {"id", "email", "name", "avatar_url", "oauth_provider", "oauth_id", "created_at", "updated_at"}

  function NullableText(v: Option<string>): Json {
    match v
    case Some(s) => JStr(s)
    case None => JNull
  }

  /** The dict the source builds for the cache: `id` is the row's
      `uuid.UUID` object itself. */
  function AsWrittenRecord(u: User): (r: Record)
    ensures r.Keys == FieldNames
    ensures r["id"] == JOpaque("UUID")
    ensures !Serializable(r)
  {
    map["id" := JOpaque("UUID"), "email" := JStr(u.email), "name" := NullableText(u.name),
        "avatar_url" := NullableText(u.avatarUrl), "oauth_provider" := JStr(u.oauthProvider),
        "oauth_id" := JStr(u.oauthId), "created_at" := JStr(u.createdAt),
        "updated_at" := JStr(u.updatedAt)]
  }

  /** The same dict with the id written as its text, as `UserResponse`
      does. */
  function UserRecord(u: User): (r: Record)
    ensures r.Keys == FieldNames
    ensures Serializable(r)
    ensures r["id"] == JStr(u.id)
  {
    map["id" := JStr(u.id), "email" := JStr(u.email), "name" := NullableText(u.name),
        "avatar_url" := NullableText(u.avatarUrl), "oauth_provider" := JStr(u.oauthProvider),
        "oauth_id" := JStr(u.oauthId), "created_at" := JStr(u.createdAt),
        "updated_at" := JStr(u.updatedAt)]
  }

  function TextField(r: Record, k: string): Option<string> {
    if k in r && r[k].JStr? then Some(r[k].s) else None
  }

  function NullableField(r: Record, k: string): Option<Option<string>> {
    if k in r && r[k].JStr? then Some(Some(r[k].s))
    else if k in r && r[k].JNull? then Some(None)
    else None
  }

  /** `User(**cached_user_data)` after re-parsing both timestamps: a user
      when the record has exactly the eight fields with text (or null for
      name and avatar) values, an error otherwise. */
  function FromRecord(r: Record): (res: Result<User, string>)
    ensures res.Ok? ==> r.Keys == FieldNames && r["id"] == JStr(res.value.id)
  {
    if r.Keys != FieldNames then Err("unexpected or missing user field")
    else
      var id := TextField(r, "id");
      var email := TextField(r, "email");
      var name := NullableField(r, "name");
      var avatar := NullableField(r, "avatar_url");
      var provider := TextField(r, "oauth_provider");
      var oauthId := TextField(r, "oauth_id");
      var created := TextField(r, "created_at");
      var updated := TextField(r, "updated_at");
      if id.None? || email.None? || name.None? || avatar.None? || provider.None?
         || oauthId.None? || created.None? || updated.None?
      then Err("user field of the wrong type")
      else Ok(User(id.value, email.value, name.value, avatar.value, provider.value,
                   oauthId.value, created.value, updated.value))
  }

  /** Rebuilding a user from its cache record gives the same user back. */
  lemma RecordRoundTrip(u: User)
    ensures FromRecord(UserRecord(u)) == Ok(u)
  {
    var r := UserRecord(u);
    assert NullableField(r, "name") == Some(u.name);
    assert NullableField(r, "avatar_url") == Some(u.avatarUrl);
  }

  /** What the cache looks like to one request: the connection state, the
      server, whether the first ping would succeed, and whether the GET or
      the SETEX raises. */
  datatype CacheEnv = CacheEnv(conn: Connection, server: Server, reachable: bool, getFault: bool, putFault: bool)

  /** The outcome, and the cache afterwards. */
  datatype Authenticated = Authenticated(user: Result<User, HttpError>, conn: Connection, server: Server)

  function Lookup(env: CacheEnv, token: string): Got {
    GetUser(env.conn, env.server, env.reachable, env.getFault, token)
  }

  /** The cache answered with a truthy value: a non-empty record, or JSON
      of a non-empty list, a non-zero number, a non-empty string or `true`.
      An empty dict and the falsy JSON values count as a miss. */
  predicate Hit(env: CacheEnv, token: string) {
    var g := Lookup(env, token);
    (g.record.Some? && |g.record.value| > 0) || g.other == Some(true)
  }

  /** The `TypeError` that indexing a cached list, number or string by
      `"created_at"` raises, answered as a server error. */
  const NotARecord := "cached value is not a user record"

  /** The pipeline, for a given way of building the cache record. */
  function Authenticate(build: User -> Record, decode: Decoder, users: Table,
                        env: CacheEnv, token: string): (a: Authenticated)
    ensures Hit(env, token) ==> a.server == Lookup(env, token).server
    ensures Hit(env, token) && Lookup(env, token).record.Some? ==>
      match FromRecord(Lookup(env, token).record.value)
      case Ok(u) => a.user == Ok(u)
      case Err(msg) => a.user == Err(HttpError(500, msg, map[]))
    ensures Hit(env, token) && Lookup(env, token).other.Some? ==> a.user == Err(HttpError(500, NotARecord, map[]))
    ensures !Hit(env, token) && decode(token).Err? ==>
      a.user == Err(Unauthorized("Invalid authentication token: " + decode(token).error))
    ensures !Hit(env, token) && decode(token).Ok? && Subject(decode(token).value).None? ==>
      a.user == Err(Unauthorized("Invalid authentication token: missing subject claim"))
    ensures !Hit(env, token) && decode(token).Ok? && Subject(decode(token).value).Some? ==>
      var sub := Subject(decode(token).value).value;
      (FindById(users, sub).None? ==> a.user == Err(Unauthorized("User not found")))
      && (FindById(users, sub).Some? ==> a.user == Ok(FindById(users, sub).value) && a.user.value.id == sub)
    ensures a.user.Err? && a.user.error.status == 401 ==> a.user.error.headers == BearerChallenge
    ensures a.user.Err? ==> a.server == Lookup(env, token).server
  {
    var g := Lookup(env, token);
    if g.record.Some? && |g.record.value| > 0 then
      match FromRecord(g.record.value)
      case Ok(u) => Authenticated(Ok(u), g.conn, g.server)
      case Err(msg) => Authenticated(Err(HttpError(500, msg, map[])), g.conn, g.server)
    else if g.other == Some(true) then
      Authenticated(Err(HttpError(500, NotARecord, map[])), g.conn, g.server)
    else
      match decode(token)
      case Err(msg) => Authenticated(Err(Unauthorized("Invalid authentication token: " + msg)), g.conn, g.server)
      case Ok(claims) =>
        match Subject(claims)
        case None => Authenticated(Err(Unauthorized("Invalid authentication token: missing subject claim")), g.conn, g.server)
        case Some(sub) =>
          match FindById(users, sub)
          case None => Authenticated(Err(Unauthorized("User not found")), g.conn, g.server)
          case Some(u) =>
            var p := PutUser(g.conn, g.server, env.reachable, env.putFault, token, build(u), CacheTtl);
            Authenticated(Ok(u), p.conn, p.server)
  }

  /** `get_current_user` as written. */
  function GetCurrentUser(decode: Decoder, users: Table, env: CacheEnv, token: string): (a: Authenticated)
    ensures a.user.Ok? && !Hit(env, token) ==> a.server == Lookup(env, token).server
  {
    Authenticate(AsWrittenRecord, decode, users, env, token)
  }

  /** `get_current_user` with the id cached as text. */
  function GetCurrentUserFixed(decode: Decoder, users: Table, env: CacheEnv, token: string): (a: Authenticated)
    ensures a.user.Ok? && !Hit(env, token) && Lookup(env, token).conn == Connected && !env.putFault ==>
      a.server.store == Lookup(env, token).server.store[CacheKey(token) := Entry(Serialized(UserRecord(a.user.value)), CacheTtl)]
  {
    Authenticate(UserRecord, decode, users, env, token)
  }

  /** On a cache hit the decoder is never consulted: the same cached record
      authenticates whether the token still verifies or not. */
  lemma HitIgnoresDecoder(build: User -> Record, d1: Decoder, d2: Decoder, users: Table,
                          env: CacheEnv, token: string)
    requires Hit(env, token)
    ensures Authenticate(build, d1, users, env, token) == Authenticate(build, d2, users, env, token)
  {
  }

  /** A key holding truthy JSON that is not a dict fails the request with a
      server error, whatever the token and the users table; falsy JSON
      falls through to token validation like a miss. */
  lemma NonRecordJsonFails(build: User -> Record, decode: Decoder, users: Table, env: CacheEnv, token: string)
    requires env.conn == Connected && !env.getFault && CacheKey(token) in env.server.store
    requires env.server.store[CacheKey(token)].value.OtherJson?
    ensures var truthy := env.server.store[CacheKey(token)].value.truthy;
      (truthy ==> Authenticate(build, decode, users, env, token).user == Err(HttpError(500, NotARecord, map[])))
      && (!truthy && decode(token).Err? ==>
            Authenticate(build, decode, users, env, token).user.Err?
            && Authenticate(build, decode, users, env, token).user.error.status == 401)
  {
  }

  /** As written, a successful lookup never fills the cache: the record
      holds a UUID object, `json.dumps` raises, and the put fails quietly.
      A token absent from the cache is still absent afterwards. */
  lemma AsWrittenNeverFillsCache(decode: Decoder, users: Table, env: CacheEnv, token: string)
    requires CacheKey(token) !in env.server.store
    ensures CacheKey(token) !in GetCurrentUser(decode, users, env, token).server.store
  {
  }

  /** With the id cached as text, a successful lookup is remembered: the
      next request with the same token is answered from the cache, with the
      same user, whatever the decoder now says (an expired token
      included). */
  lemma FixedSecondRequestHits(decode: Decoder, later: Decoder, users: Table, env: CacheEnv, token: string)
    requires env.conn == Connected && !env.getFault && !env.putFault
    requires CacheKey(token) !in env.server.store
    requires GetCurrentUserFixed(decode, users, env, token).user.Ok?
    ensures var a := GetCurrentUserFixed(decode, users, env, token);
      var env2 := CacheEnv(a.conn, a.server, env.reachable, false, false);
      Hit(env2, token)
      && GetCurrentUserFixed(later, users, env2, token).user == a.user
  {
    var a := GetCurrentUserFixed(decode, users, env, token);
    var env2 := CacheEnv(a.conn, a.server, env.reachable, false, false);
    var u := a.user.value;
    RecordRoundTrip(u);
    assert "id" in UserRecord(u);
    assert Lookup(env2, token).record == Some(UserRecord(u));
  }
}

=== FILE: breadcrumbs.dfy ===
/** The breadcrumb trail (frontend/src/components/layout/breadcrumbs.tsx):
    each item becomes one list entry. A separator comes before every entry
    but the first, a link is used for every item with a non-empty href
    except the last, and the last item is marked as the current page. */
module Breadcrumbs {
  import opened Wrappers

  datatype Crumb = Crumb(text: string, href: Option<string>)

  /** The body of an entry: a link, or a plain span that may carry the
      current-page marking. */
  datatype Content = LinkTo(href: string, text: string) | Span(text: string, current: bool)

  datatype ListEntry = ListEntry(separator: bool, content: Content)

  /** `item.href && !isLast`: an empty href is falsy. */
  predicate Linked(c: Crumb, isLast: bool) {
    c.href.Some? && c.href.value != "" && !isLast
  }

  function RenderOne(c: Crumb, index: nat, count: nat): (e: ListEntry)
    ensures e.separator <==> index > 0
    ensures e.content.text == c.text
    ensures e.content.LinkTo? <==> Linked(c, index == count - 1)
    ensures e.content.Span? ==> (e.content.current <==> index == count - 1)
  {
    var isLast := index == count - 1;
    ListEntry(index > 0, if Linked(c, isLast) then LinkTo(c.href.value, c.text) else Span(c.text, isLast))
  }

  function Render(items: seq<Crumb>): (entries: seq<ListEntry>)
    ensures |entries| == |items|
    ensures forall i :: 0 <= i < |items| ==> entries[i] == RenderOne(items[i], i, |items|)
  {
    seq(|items|, i requires 0 <= i < |items| => RenderOne(items[i], i, |items|))
  }

  /** Whether an entry is marked as the current page. */
  predicate Current(e: ListEntry) {
    e.content.Span? && e.content.current
  }

  /** The entries keep the items' labels, in order, and link exactly the
      items with an href that are not last. */
  lemma EntriesFollowItems(items: seq<Crumb>)
    ensures var r := Render(items);
      forall i :: 0 <= i < |items| ==>
        r[i].content.text == items[i].text
        && (r[i].content.LinkTo? <==> items[i].href.Some? && items[i].href.value != "" && i < |items| - 1)
        && (r[i].content.LinkTo? ==> r[i].content.href == items[i].href.value)
  {
  }

  /** The last entry is a span marked current, and it is the only one so
      marked. */
  lemma OnlyLastIsCurrent(items: seq<Crumb>)
    requires |items| > 0
    ensures var r := Render(items);
      Current(r[|r| - 1]) && forall i :: 0 <= i < |r| - 1 ==> !Current(r[i])
  {
  }

  function Separators(entries: seq<ListEntry>): nat
    decreases |entries|
  {
    if |entries| == 0 then 0
    else Separators(entries[..|entries| - 1]) + (if entries[|entries| - 1].separator then 1 else 0)
  }

  /** n items give n - 1 separators, and an empty trail none. */
  lemma SeparatorCount(items: seq<Crumb>)
    ensures Separators(Render(items)) == if |items| == 0 then 0 else |items| - 1
  {
    SeparatorsWhenFirstBare(Render(items));
  }

  lemma {:induction false} SeparatorsWhenFirstBare(entries: seq<ListEntry>)
    requires forall i :: 0 <= i < |entries| ==> (entries[i].separator <==> i > 0)
    ensures Separators(entries) == if |entries| == 0 then 0 else |entries| - 1
    decreases |entries|
  {
    if |entries| > 0 {
      var init := entries[..|entries| - 1];
      assert forall i :: 0 <= i < |init| ==> init[i] == entries[i];
      SeparatorsWhenFirstBare(init);
    }
  }

  /** An empty trail renders an empty list. */
  lemma EmptyTrail()
    ensures Render([]) == []
  {
  }
}

=== FILE: config.dfy ===
/** The validated settings (backend/app/core/config.py): the two field
    validators and the CORS origin list. Reading the environment is left
    out; each validator is a function from the raw value to the accepted
    value or the validation message. */
module Config {
  import opened Wrappers
  import opened Strings

  const MinSecretLength := 32
  const PlaceholderSecret := "your-secret-key-min-32-chars-CHANGE-THIS"
  const LocalFrontend := "http://localhost:3000"
  const LocalBackend := "http://localhost:8000"
  /** The default `CORS_ORIGINS`, the two local origins joined by a comma. */
  const DefaultCorsOrigins := LocalFrontend + "," + LocalBackend

  /** The validator's own message for a short secret. */
  const ShortSecretMessage := "NEXTAUTH_SECRET must be at least 32 characters"
  /** The validator's message for the placeholder, both sentences of it. */
  const DefaultSecretMessage :=
    "NEXTAUTH_SECRET is using default value. Generate a secure secret with: openssl rand -base64 32"
  const OpenAiKeyMessage := "Invalid OPENAI_API_KEY format (should start with 'sk-')"

  /** Why a secret is refused: the field's `min_length` constraint (pydantic's
      `string_too_short` error, which carries the bound), or a `ValueError`
      raised by the validator, with its message. */
  datatype SecretError = StringTooShort(minLength: int) | ValueError(message: string)

  /** `validate_nextauth_secret` on its own: the length test, then the
      placeholder test. */
  function SecretValidator(v: string): (r: Result<string, SecretError>)
    ensures r.Ok? <==> |v| >= MinSecretLength && v != PlaceholderSecret
    ensures r.Ok? ==> r.value == v
    ensures r.Err? ==> r.error.ValueError?
  {
    if |v| < MinSecretLength then Err(ValueError(ShortSecretMessage))
    else if v == PlaceholderSecret then Err(ValueError(DefaultSecretMessage))
    else Ok(v)
  }

  /** The field `nextauth_secret` as pydantic checks it: the `min_length`
      constraint first, then the validator, which runs after it. */
  function ValidateSecret(v: string): (r: Result<string, SecretError>)
    ensures r.Ok? <==> |v| >= MinSecretLength && v != PlaceholderSecret
    ensures r.Ok? ==> r.value == v
    ensures |v| < MinSecretLength ==> r == Err(StringTooShort(MinSecretLength))
    ensures v == PlaceholderSecret ==> r == Err(ValueError(DefaultSecretMessage))
  {
    if |v| < MinSecretLength then Err(StringTooShort(MinSecretLength))
    else SecretValidator(v)
  }

  /** The validator's own length message is never what a caller sees: every
      secret it would catch has already failed the field constraint. */
  lemma ShortSecretMessageUnreachable(v: string)
    ensures ValidateSecret(v) != Err(ValueError(ShortSecretMessage))
  {
  }

  /** Among secrets of at least 32 characters exactly one is refused, the
      placeholder, and a secret that passes passes again unchanged. */
  lemma OnlyPlaceholderRefusedWhenLong(v: string)
    requires |v| >= 32
    ensures ValidateSecret(v).Err? <==> v == "your-secret-key-min-32-chars-CHANGE-THIS"
    ensures ValidateSecret(v).Ok? ==> ValidateSecret(ValidateSecret(v).value) == ValidateSecret(v)
  {
  }

  /** The placeholder is long enough, so it is the equality test, not the
      length constraint, that refuses it, with the full default-value
      message. */
  lemma PlaceholderRefusedAsDefault()
    ensures |PlaceholderSecret| >= MinSecretLength
    ensures ValidateSecret(PlaceholderSecret) == Err(ValueError(DefaultSecretMessage))
  {
  }

  /** `validate_openai_api_key`: no key, or an empty one, passes; any other
      key must start with `sk-`. */
  function ValidateOpenAiKey(v: Option<string>): (r: Result<Option<string>, string>)
    ensures r.Ok? <==> v.None? || v.value == "" || StartsWith(v.value, "sk-")
    ensures r.Ok? ==> r.value == v
    ensures r.Err? ==> r.error == OpenAiKeyMessage
  {
    if v.Some? && v.value != "" && !StartsWith(v.value, "sk-") then Err(OpenAiKeyMessage)
    else Ok(v)
  }

  /** Spelled out character by character: a present, non-empty key is
      accepted exactly when its first three characters are `s`, `k`, `-`;
      so `sk-` followed by anything passes and a bare `sk` does not. */
  lemma OpenAiKeyByCharacters(v: Option<string>)
    ensures ValidateOpenAiKey(v).Ok? <==>
      v.None? || |v.value| == 0
      || (|v.value| >= 3 && v.value[0] == 's' && v.value[1] == 'k' && v.value[2] == '-')
  {
    if v.Some? && |v.value| >= 3 {
      var k := v.value;
      assert k[..3] == "sk-" <==> k[0] == 's' && k[1] == 'k' && k[2] == '-';
    }
  }

  /** `cors_origins_list`: the comma-separated entries, each stripped. */
  function CorsOrigins(s: string): (origins: seq<string>)
    ensures |origins| == Occurrences(s, ',') + 1
    ensures forall i :: 0 <= i < |origins| ==> ',' !in origins[i]
    ensures forall i :: 0 <= i < |origins| ==> Unpadded(origins[i])
  {
    var parts := Split(s, ',');
    StripEachInside(parts, ',');
    StripEach(parts)
  }

  /** Each piece stripped, in order. */
  function StripEach(parts: seq<string>): (r: seq<string>)
    ensures |r| == |parts|
    ensures forall i :: 0 <= i < |parts| ==> r[i] == Strip(parts[i])
  {
    seq(|parts|, i requires 0 <= i < |parts| => Strip(parts[i]))
  }

  /** A character absent from every piece is absent from every stripped piece. */
  lemma StripEachInside(parts: seq<string>, c: char)
    requires forall i :: 0 <= i < |parts| ==> c !in parts[i]
    ensures forall i :: 0 <= i < |parts| ==> c !in StripEach(parts)[i]
  {
    forall i | 0 <= i < |parts|
      ensures c !in StripEach(parts)[i]
    {
      StripInside(parts[i], c);
    }
  }

  /** Stripping only removes characters. */
  lemma StripInside(s: string, c: char)
    requires c !in s
    ensures c !in Strip(s)
  {
    var r := Strip(s);
    var i := LeadingSpace(s);
    forall k | 0 <= k < |r|
      ensures r[k] != c
    {
      assert r[k] == s[i + k];
    }
  }

  /** The entries are the stripped pieces between commas, in order. */
  lemma CorsOriginsArePieces(s: string)
    ensures |CorsOrigins(s)| == |Split(s, ',')|
    ensures forall i :: 0 <= i < |CorsOrigins(s)| ==> CorsOrigins(s)[i] == Strip(Split(s, ',')[i])
  {
  }

  /** Two comma-free, unpadded origins separated by a comma come back as
      themselves. */
  lemma TwoOrigins(a: string, b: string)
    requires ',' !in a && ',' !in b
    requires Strip(a) == a && Strip(b) == b
    ensures CorsOrigins(a + [','] + b) == [a, b]
  {
    SplitTwo(a, b, ',');
    OriginsOfTwoPieces(a + [','] + b, a, b);
  }

  /** When the two pieces are already stripped, the origins are the pieces. */
  lemma OriginsOfTwoPieces(s: string, a: string, b: string)
    requires Split(s, ',') == [a, b]
    requires Strip(a) == a && Strip(b) == b
    ensures CorsOrigins(s) == [a, b]
  {
    var o := StripEach([a, b]);
    assert CorsOrigins(s) == o;
    assert o[0] == a && o[1] == b;
  }

  /** The default setting names the two local origins. */
  lemma DefaultOrigins()
    ensures CorsOrigins(DefaultCorsOrigins) == [LocalFrontend, LocalBackend]
  {
    LocalOriginsUnpadded();
    TwoOrigins(LocalFrontend, LocalBackend);
  }

  lemma LocalOriginsUnpadded()
    ensures ',' !in LocalFrontend && ',' !in LocalBackend
    ensures Strip(LocalFrontend) == LocalFrontend && Strip(LocalBackend) == LocalBackend
  {
    OriginUnpadded(LocalFrontend);
    OriginUnpadded(LocalBackend);
  }

  /** A local origin has no comma and no surrounding space. */
  lemma OriginUnpadded(o: string)
    requires |o| == 21 && o == "http://localhost:" + o[17..]
    requires forall k :: 17 <= k < |o| ==> '0' <= o[k] <= '9'
    ensures ',' !in o && Strip(o) == o
  {
    assert forall k :: 0 <= k < |o| ==> o[k] != ',';
    StripUnpadded(o);
  }
}

=== FILE: header.dfy ===
/** The top bar (frontend/src/components/layout/header.tsx): which of its
    parts are rendered for a path and a scroll offset. */
module Header {
  import opened Strings
  import NavItem
  import SidebarNav

  const ScrollThreshold := 10.0

  /** The raw prefix test of `hasSidebar`. */
  predicate HasSidebar(pathname: string): (b: bool)
    ensures b ==> 8 <= |pathname| && pathname[0] == '/'
  {
    StartsWith(pathname, "/dashboard") || StartsWith(pathname, "/resumes")
    || StartsWith(pathname, "/sessions") || StartsWith(pathname, "/settings")
  }

  /** The scroll handler's flag. `scrollY` is the offset the handler saw at
      the last scroll event, or 0 before any: `isScrolled` is state that
      starts false and changes only in that handler. */
  predicate IsScrolled(scrollY: real) {
    scrollY > ScrollThreshold
  }

  /** What the bar shows: the translucent background, the sidebar toggle,
      the public links, the user menu, and the sign-in links. */
  datatype View = View(
    translucent: bool,
    sidebarToggle: bool,
    publicLinks: seq<string>,
    userMenu: bool,
    authLinks: seq<string>)

  const PublicLinks: seq<string> := ["/features", "/pricing", "/about"]
  const AuthLinks: seq<string> := ["/login", "/register"]

  /** The bar for a path, with `scrollY` the offset the scroll handler last
      saw (0 before the first scroll event). */
  function Render(pathname: string, scrollY: real): (v: View)
    ensures v.translucent <==> scrollY > ScrollThreshold
    ensures v.sidebarToggle <==> HasSidebar(pathname)
    ensures v.publicLinks != [] <==> !HasSidebar(pathname)
    ensures v.userMenu <==> HasSidebar(pathname)
    ensures v.userMenu <==> v.authLinks == []
    ensures v.publicLinks == [] || v.publicLinks == PublicLinks
    ensures v.authLinks == [] || v.authLinks == AuthLinks
  {
    var side := HasSidebar(pathname);
    View(IsScrolled(scrollY), side, if side then [] else PublicLinks, side, if side then [] else AuthLinks)
  }

  /** The right-hand slot holds exactly one of the user menu and the sign-in
      pair, and the toggle and the public links never appear together. */
  lemma ExactlyOneRightSlot(pathname: string, scrollY: real)
    ensures var v := Render(pathname, scrollY);
      (v.userMenu || v.authLinks != []) && !(v.userMenu && v.authLinks != [])
      && (v.sidebarToggle <==> v.publicLinks == [])
  {
  }

  /** The test is on raw prefixes: `/dashboards` counts as a dashboard
      page. */
  lemma RawPrefix(pathname: string)
    requires pathname == "/dashboards"
    ensures HasSidebar(pathname)
  {
    assert pathname[..10] == "/dashboard";
  }

  /** The landing page and the public pages have no sidebar. */
  lemma PublicPagesHaveNoSidebar(pathname: string)
    requires pathname == "/" || pathname == "/features"
    ensures !HasSidebar(pathname)
  {
    if pathname == "/features" {
      assert pathname[1] == 'f';
    }
  }

  /** Every page on which the sidebar highlights a link gets the toggle: the
      sidebar's links all lie under `/dashboard`. */
  lemma SidebarPagesHaveToggle(pathname: string, i: int)
    requires 0 <= i < |SidebarNav.Navigation| && NavItem.IsActive(pathname, SidebarNav.Navigation[i].href)
    ensures Render(pathname, 0.0).sidebarToggle
  {
    if i > 0 {
      SidebarNav.NestedActiveImpliesDashboard(pathname, i);
    }
    var d := "/dashboard";
    assert NavItem.IsActive(pathname, d);
    if pathname != d {
      StartsWithPrefix(pathname, d, "/");
    }
  }
}

=== FILE: hex_digest.dfy ===
/** The token digest behind the cache keys (backend/app/core/cache.py,
    `_get_cache_key`). SHA-256 is replaced by an encoding with the two
    properties the cache depends on: the digest is written in lower-case
    hexadecimal, and different tokens give different digests. Each
    character becomes the six hex digits of its code point. */
module HexDigest {

  predicate IsHexDigit(c: char) {
    '0' <= c <= '9' || 'a' <= c <= 'f'
  }

  predicate IsHex(s: string) {
    forall i :: 0 <= i < |s| ==> IsHexDigit(s[i])
  }

  /** The lower-case hex digit of a value below 16. */
  function Digit(k: int): (c: char)
    requires 0 <= k < 16
    ensures IsHexDigit(c)
    ensures k < 10 ==> c as int == '0' as int + k
    ensures k >= 10 ==> c as int == 'a' as int + (k - 10)
  {
    if k < 10 then ('0' as int + k) as char else ('a' as int + (k - 10)) as char
  }

  function Pow16(w: nat): nat {
    if w == 0 then 1 else 16 * Pow16(w - 1)
  }

  /** `n` written with exactly `w` hex digits, most significant first. */
  function Hex(n: nat, w: nat): (h: string)
    ensures |h| == w && IsHex(h)
  {
    if w == 0 then "" else Hex(n / 16, w - 1) + [Digit(n % 16)]
  }

  /** Two numbers that fit in `w` digits have the same digits only if they
      are equal. */
  lemma {:induction false} HexInjective(n: nat, m: nat, w: nat)
    requires n < Pow16(w) && m < Pow16(w)
    requires Hex(n, w) == Hex(m, w)
    ensures n == m
  {
    if w > 0 {
      var hn := Hex(n, w);
      var hm := Hex(m, w);
      assert hn[w - 1] == Digit(n % 16) && hm[w - 1] == Digit(m % 16);
      assert n % 16 == m % 16;
      assert hn[..w - 1] == Hex(n / 16, w - 1) && hm[..w - 1] == Hex(m / 16, w - 1);
      HexInjective(n / 16, m / 16, w - 1);
    }
  }

  /** Every code point fits in six hex digits. */
  lemma CodePointFits(c: char)
    ensures c as int < Pow16(6)
  {
    assert Pow16(6) == 0x100_0000;
  }

  /** The digest of a token: six hex digits per character. */
  function Digest(token: string): (d: string)
    ensures |d| == 6 * |token|
    ensures IsHex(d)
  {
    if |token| == 0 then "" else Hex(token[0] as int, 6) + Digest(token[1..])
  }

  /** Different tokens never share a digest. */
  lemma {:induction false} DigestInjective(s: string, t: string)
    requires Digest(s) == Digest(t)
    ensures s == t
  {
    if |s| > 0 {
      var ds := Digest(s);
      assert |t| == |s|;
      assert ds[..6] == Hex(s[0] as int, 6);
      assert Digest(t)[..6] == Hex(t[0] as int, 6);
      CodePointFits(s[0]);
      CodePointFits(t[0]);
      HexInjective(s[0] as int, t[0] as int, 6);
      assert ds[6..] == Digest(s[1..]);
      assert Digest(t)[6..] == Digest(t[1..]);
      DigestInjective(s[1..], t[1..]);
      assert s == [s[0]] + s[1..];
      assert t == [t[0]] + t[1..];
    }
  }
}

=== FILE: interview_session_model.dfy ===
/** The second `InterviewSession` model, backend/app/db/models/interview_session.py.
    It maps the same `interview_sessions` table under the same three
    constraint names. The differences are in the columns: the question list
    is nullable with a client-side default of `[]`, and the question count
    defaults to 5.

    Only one of the two mappings is live. The package of models imports
    `session.py` and never this file, and a second class mapping the same
    table on the same declarative base would fail when imported. So the
    defaults the running application gives a new row are those of
    `SessionModel`; this module, and `DefaultsDiffer` below, record what
    the unused file would do. */
module InterviewSessionModel {
  import opened Wrappers
  import opened JobStatus
  import opened Tables
  import SessionModel

  const DefaultQuestionCount := 5

  datatype InterviewSession = InterviewSession(
    userId: string,
    resumeId: Option<string>,
    jobDescription: string,
    generatedQuestions: Option<seq<string>>,
    questionCount: int,
    status: string)

  /** The names of the check constraints a row breaks. */
  function Violations(s: InterviewSession): (names: set<string>)
    ensures SessionModel.StatusCheck in names <==> !ValidStatus(s.status)
    ensures SessionModel.JdLengthCheck in names <==>
      !(SessionModel.MinJobDescription <= |s.jobDescription| <= SessionModel.MaxJobDescription)
    ensures SessionModel.QuestionCountCheck in names <==> !(0 <= s.questionCount <= SessionModel.MaxQuestions)
    ensures names <= {SessionModel.StatusCheck, SessionModel.QuestionCountCheck, SessionModel.JdLengthCheck}
  {
    (if ValidStatus(s.status) then {} else {SessionModel.StatusCheck})
    + (if SessionModel.MinJobDescription <= |s.jobDescription| <= SessionModel.MaxJobDescription
       then {} else {SessionModel.JdLengthCheck})
    + (if 0 <= s.questionCount <= SessionModel.MaxQuestions then {} else {SessionModel.QuestionCountCheck})
  }

  /** An INSERT, with the same column types as the other mapping: the count
      is an `integer` and the status a `varchar(50)`, converted in that
      order before the checks are tested in name order. */
  function Insert(s: InterviewSession): (r: Result<InterviewSession, Refusal>)
    ensures r.Ok? <==> Violations(s) == {}
    ensures r.Ok? ==> r.value == s
    ensures r.Err? && r.error.OutOfRange? ==> r.error.column == "question_count" && !FitsInteger(s.questionCount)
    ensures r.Err? && r.error.ValueTooLong? ==>
      r.error == ValueTooLong("status", SessionModel.MaxStatusLength)
      && FitsInteger(s.questionCount) && |s.status| > SessionModel.MaxStatusLength
    ensures r.Err? ==> (r.error.CheckViolation? <==> FitsInteger(s.questionCount) && |s.status| <= SessionModel.MaxStatusLength)
    ensures r.Err? && r.error.CheckViolation? ==> Least(r.error.constraint, Violations(s))
  {
    SessionModel.NamesOrdered();
    if !FitsInteger(s.questionCount) then Err(OutOfRange("question_count"))
    else if |s.status| > SessionModel.MaxStatusLength then Err(ValueTooLong("status", SessionModel.MaxStatusLength))
    else if !(SessionModel.MinJobDescription <= |s.jobDescription| <= SessionModel.MaxJobDescription)
    then Err(CheckViolation(SessionModel.JdLengthCheck))
    else if !(0 <= s.questionCount <= SessionModel.MaxQuestions) then Err(CheckViolation(SessionModel.QuestionCountCheck))
    else if !ValidStatus(s.status) then Err(CheckViolation(SessionModel.StatusCheck))
    else Ok(s)
  }

  /** A row built from the required fields only. */
  function NewInterviewSession(userId: string, resumeId: Option<string>, jobDescription: string): (s: InterviewSession)
    ensures s.generatedQuestions == Some([]) && s.questionCount == DefaultQuestionCount && s.status == DefaultStatus
    ensures s.userId == userId && s.resumeId == resumeId && s.jobDescription == jobDescription
  {
    InterviewSession(userId, resumeId, jobDescription, Some([]), DefaultQuestionCount, DefaultStatus)
  }

  /** The default count of 5 lies inside [0, 10], so only the job
      description can make a new row fail. */
  lemma DefaultsAdmissible(userId: string, resumeId: Option<string>, jobDescription: string)
    ensures var s := NewInterviewSession(userId, resumeId, jobDescription);
      (Insert(s).Ok? <==> SessionModel.MinJobDescription <= |jobDescription| <= SessionModel.MaxJobDescription)
      && (Insert(s).Err? ==> Insert(s).error == CheckViolation(SessionModel.JdLengthCheck))
  {
    DefaultStatusValid();
  }

  /** The view of a row in the other model: a null question list reads as
      the empty list there. */
  function AsSession(s: InterviewSession): SessionModel.Session {
    SessionModel.Session(s.userId, s.resumeId, s.jobDescription,
                         if s.generatedQuestions.Some? then s.generatedQuestions.value else [],
                         s.questionCount, s.status)
  }

  /** The two models guard the table with the same constraints: a row breaks
      exactly the same checks under either. */
  lemma SameConstraints(s: InterviewSession)
    ensures Violations(s) == SessionModel.Violations(AsSession(s))
    ensures Insert(s).Ok? <==> SessionModel.Insert(AsSession(s)).Ok?
    ensures Insert(s).Err? ==> SessionModel.Insert(AsSession(s)) == Err(Insert(s).error)
  {
  }

  /** The two models disagree on the defaults: a new row counts 0 questions
      in one and 5 in the other. */
  lemma DefaultsDiffer(userId: string, resumeId: Option<string>, jobDescription: string)
    ensures AsSession(NewInterviewSession(userId, resumeId, jobDescription)).questionCount
         != SessionModel.NewSession(userId, resumeId, jobDescription).questionCount
  {
  }
}

=== FILE: job_status.dfy ===
/** The processing status shared by the `interview_sessions` and `resumes`
    tables: four values, enforced by a check constraint, with `pending` as
    the column default. */
module JobStatus {
  const Statuses: set<string> := {"pending", "processing", "complete", "failed"}
  const DefaultStatus := "pending"

  predicate ValidStatus(s: string) {
    s in Statuses
  }

  /** The column default satisfies the status check, and nothing outside
      the four values does. */
  lemma DefaultStatusValid()
    ensures ValidStatus(DefaultStatus)
    ensures !ValidStatus("done") && !ValidStatus("")
  {
  }
}

=== FILE: nav_item.dfy ===
/** The active-link rule of `NavItem` (frontend/src/components/layout/nav-item.tsx):
    an item is active on its own page and on every page below it. */
module NavItem {
  import opened Strings

  /** `pathname === href || pathname.startsWith(href + '/')`. */
  predicate IsActive(pathname: string, href: string): (active: bool)
    ensures pathname == href ==> active
    ensures active ==> |href| <= |pathname| && pathname[..|href|] == href
    ensures active && |href| < |pathname| ==> pathname[|href|] == '/'
  {
    assert StartsWith(pathname, href + "/") ==> pathname[..|href|] == (href + "/")[..|href|] == href;
    pathname == href || StartsWith(pathname, href + "/")
  }

  /** The page itself, or a path that continues it with a new segment: this
      is what being active means, independently of how it is tested. */
  lemma {:induction false} IsActiveIffBelow(pathname: string, href: string)
    ensures IsActive(pathname, href) <==>
      exists rest :: pathname == href + rest && (rest == [] || rest[0] == '/')
  {
    if IsActive(pathname, href) {
      var rest := pathname[|href|..];
      if pathname != href {
        assert pathname[..|href| + 1] == href + "/";
        assert pathname[..|href|] == href;
        assert rest[0] == pathname[|href|] == '/';
      }
      assert pathname == pathname[..|href|] + rest;
      assert pathname == href + rest;
    }
    if exists rest :: pathname == href + rest && (rest == [] || rest[0] == '/') {
      var rest :| pathname == href + rest && (rest == [] || rest[0] == '/');
      if rest != [] {
        assert pathname[..|href| + 1] == href + "/";
      }
    }
  }

  /** Any depth below the item keeps it active. */
  lemma DeeperPathsActive(href: string, below: string)
    ensures IsActive(href + "/" + below, href)
  {
    assert (href + "/" + below)[..|href| + 1] == href + "/";
  }

  /** A sibling that only shares the raw prefix is not active: after the
      item's path there must be a `/`. */
  lemma SiblingNotActive(href: string, rest: string)
    requires rest != [] && rest[0] != '/'
    ensures !IsActive(href + rest, href)
  {
    var p := href + rest;
    assert p[|href|] == rest[0];
    assert p != href;
    assert (href + "/")[|href|] == '/' != p[|href|];
  }

  /** A path shorter than the item's is never active. */
  lemma ShorterNotActive(pathname: string, href: string)
    requires |pathname| < |href|
    ensures !IsActive(pathname, href)
  {
  }
}

=== FILE: numbers.dfy ===
/** Numeric conversions the backend and the frontend share. */
module Numbers {

  /** Truncation toward zero: Python's `int()` of a float, and the quotient
      JavaScript's `%` rounds its division to. */
  function Trunc(x: real): (n: int)
    ensures x >= 0.0 ==> 0 <= n && n as real <= x < n as real + 1.0
    ensures x < 0.0 ==> n <= 0 && x <= n as real < x + 1.0
  {
    if x >= 0.0 then x.Floor else -((-x).Floor)
  }
}

=== FILE: particles.dfy ===
/** The particle field of frontend/src/components/ui/particle-background.tsx,
    as a state machine over a sequence of particles. Everything the
    component takes from the browser enters as an input:
    - each `Math.random()` value a new particle consumes (a `Draw`);
    - each particle's distance to the mouse at the start of a frame;
    - the velocity change the spiral force gives a captured particle (a
      `Pull`; its trigonometry stays outside).
    The draws for the particle with id `n` are `draw(n)`, and `spawnDist(n)`
    is the distance from its first drawn position to the mouse. */
module Particles {
  import opened Numbers

  const InteractionRadius := 300.0
  const CaptureRadius := 15.0
  const Damping := 0.92
  const Margin := 50.0
  const MaxParticles := 80
  const Spacing := 15.0
  const SpawnShift := 500.0

  datatype Mode = Drifting | Sucking

  /** A particle, without its colour (used only for drawing). */
  datatype Particle = Particle(
    id: int,
    x: real,
    y: real,
    vx: real,
    vy: real,
    size: real,
    mode: Mode,
    opacity: real,
    pulseSpeed: real)

  /** The `Math.random()` values one `createParticle` call consumes. */
  datatype Draw = Draw(x: real, y: real, vx: real, vy: real, size: real, opacity: real, pulse: real)

  predicate Unit(r: real) {
    0.0 <= r < 1.0
  }

  predicate ValidDraw(d: Draw) {
    Unit(d.x) && Unit(d.y) && Unit(d.vx) && Unit(d.vy) && Unit(d.size) && Unit(d.opacity) && Unit(d.pulse)
  }

  /** What the mouse does to one particle in a frame. */
  datatype Pull = Pull(dist: real, ax: real, ay: real)

  function Abs(r: real): real {
    if r < 0.0 then -r else r
  }

  function Max(a: real, b: real): real {
    if a < b then b else a
  }

  /** `d` is `k` whole multiples of `b`. */
  predicate Multiple(d: real, b: real, k: int) {
    d == b * k as real
  }

  /** JavaScript's `a % b` for a positive divisor: `a` less a whole number
      of divisors, with the sign of the dividend. */
  function JsMod(a: real, b: real): (r: real)
    requires b > 0.0
    ensures exists k: int {:trigger Multiple(a - r, b, k)} :: Multiple(a - r, b, k)
    ensures a >= 0.0 ==> 0.0 <= r < b
    ensures a < 0.0 ==> -b < r <= 0.0
  {
    var n := Trunc(a / b);
    RemainderBounds(a, b, n);
    assert Multiple(a - (a - b * n as real), b, n);
    a - b * n as real
  }

  lemma RemainderBounds(a: real, b: real, n: int)
    requires b > 0.0 && n == Trunc(a / b)
    ensures a >= 0.0 ==> 0.0 <= a - b * n as real < b
    ensures a < 0.0 ==> -b < a - b * n as real <= 0.0
  {
    var q := a / b;
    var m := n as real;
    DivideBack(a, b);
    if a >= 0.0 {
      assert m <= q < m + 1.0;
      ScaleBounds(a, b, q, m);
    } else {
      assert q < 0.0;
      assert q <= m < q + 1.0;
      ScaleBounds(-a, b, -q, -m);
    }
  }

  /** Scaling `m <= q < m + 1` by `b` brackets `a = b * q`. */
  lemma ScaleBounds(a: real, b: real, q: real, m: real)
    requires b > 0.0 && b * q == a && m <= q < m + 1.0
    ensures 0.0 <= a - b * m < b
  {
    var d := q - m;
    MulSub(b, q, m);
    FractionScaled(b, d);
    assert b * q - b * m == b * d;
    assert a - b * m == b * d;
    assert 0.0 <= b * d < b;
  }

  lemma MulSub(b: real, q: real, m: real)
    ensures b * q - b * m == b * (q - m)
  {
  }

  lemma FractionScaled(b: real, d: real)
    requires b > 0.0 && 0.0 <= d < 1.0
    ensures 0.0 <= b * d < b
  {
  }

  lemma DivideBack(a: real, b: real)
    requires b > 0.0
    ensures b * (a / b) == a
    ensures a >= 0.0 ==> a / b >= 0.0
    ensures a < 0.0 ==> a / b < 0.0
  {
  }

  lemma MulMonotone(b: real, u: real, v: real)
    requires b > 0.0 && u <= v
    ensures b * u <= b * v
    ensures u < v ==> b * u < b * v
  {
  }

  lemma UnitScaled(r: real, w: real)
    requires Unit(r) && w >= 0.0
    ensures 0.0 <= r * w <= w
    ensures w > 0.0 ==> r * w < w
  {
    if w > 0.0 {
      MulMonotone(w, 0.0, r);
      MulMonotone(w, r, 1.0);
    }
  }

  /** The two conditions that keep a drifting particle's opacity bounded:
      the pulse speed is at most 0.01 in size, and the opacity is within one
      pulse of [0.2, 0.7], heading back in when it is outside. */
  predicate PulseOk(p: Particle) {
    Abs(p.pulseSpeed) <= 0.01
  }

  predicate OpacityOk(p: Particle) {
    0.2 - Abs(p.pulseSpeed) <= p.opacity <= 0.7 + Abs(p.pulseSpeed)
    && (p.opacity > 0.7 ==> p.pulseSpeed <= 0.0)
    && (p.opacity < 0.2 ==> p.pulseSpeed >= 0.0)
  }

  /** `createParticle()`: the next id, a random position (moved 500 pixels
      along x, modulo the width, when it falls within the interaction radius
      of the mouse), a slow random velocity, and the drifting mode. */
  function CreateParticle(counter: int, width: nat, height: nat, d: Draw, dist: real): (p: Particle)
    requires width > 0
    ensures p.id == counter + 1 && p.mode == Drifting
    ensures ValidDraw(d) ==> 0.0 <= p.x < width as real && 0.0 <= p.y <= height as real
    ensures ValidDraw(d) ==> PulseOk(p) && OpacityOk(p) && 0.2 <= p.opacity < 0.7
    ensures ValidDraw(d) ==> Abs(p.vx) <= 0.25 && Abs(p.vy) <= 0.25 && 1.0 <= p.size < 3.0
  {
    Particle(counter + 1, SpawnX(d.x, width as real, dist), Scale(d.y, height as real),
             (d.vx - 0.5) * 0.5, (d.vy - 0.5) * 0.5,
             d.size * 2.0 + 1.0, Drifting, d.opacity * 0.5 + 0.2, (d.pulse - 0.5) * 0.02)
  }

  /** A random coordinate across an extent. */
  function Scale(r: real, extent: real): (v: real)
    requires extent >= 0.0
    ensures Unit(r) ==> 0.0 <= v <= extent
    ensures Unit(r) && extent > 0.0 ==> v < extent
  {
    if Unit(r) then UnitScaled(r, extent); r * extent else r * extent
  }

  /** The spawn x: a random point across the width, shifted by 500 modulo
      the width when the drawn point lies within the interaction radius. */
  function SpawnX(r: real, w: real, dist: real): (x: real)
    requires w > 0.0
    ensures Unit(r) ==> 0.0 <= x < w
    ensures dist >= InteractionRadius ==> x == Scale(r, w)
    ensures dist < InteractionRadius ==>
      exists k: int {:trigger Multiple(Scale(r, w) + SpawnShift - x, w, k)} :: Multiple(Scale(r, w) + SpawnShift - x, w, k)
  {
    var x0 := Scale(r, w);
    if dist < InteractionRadius then JsMod(x0 + SpawnShift, w) else x0
  }

  /** The shift is no move at all when the width divides 500: a 500-pixel
      canvas (or 250, 125, 100, ...) spawns the particle exactly where it
      was drawn, inside the mouse radius. */
  lemma SpawnShiftWraps(r: real, w: real, m: int, dist: real)
    requires Unit(r) && w > 0.0 && w * m as real == SpawnShift
    ensures SpawnX(r, w, dist) == Scale(r, w)
  {
    var x0 := Scale(r, w);
    var x := SpawnX(r, w, dist);
    if dist < InteractionRadius {
      var k :| Multiple(x0 + SpawnShift - x, w, k);
      assert x - x0 == w * (m - k) as real;
      SingleMultiple(w, m - k, x - x0);
    }
  }

  /** The only multiple of a positive `w` strictly between `-w` and `w` is 0. */
  lemma SingleMultiple(w: real, j: int, d: real)
    requires w > 0.0 && d == w * j as real && -w < d < w
    ensures j == 0
  {
    if j >= 1 {
      MulMonotone(w, 1.0, j as real);
    } else if j <= -1 {
      MulMonotone(w, j as real, -1.0);
    }
  }

  /** Edge wrapping along one axis: first the low edge, then the high one. */
  function Wrap(v: real, extent: real): real {
    var a := if v < -Margin then extent + Margin else v;
    if a > extent + Margin then -Margin else a
  }

  /** A coordinate is moved at most once: past the low edge it goes to the
      high edge and stays there, past the high edge to the low edge, and
      otherwise it is kept. */
  lemma WrapOnce(v: real, extent: real)
    requires extent >= 0.0
    ensures Wrap(v, extent) == if v < -Margin then extent + Margin else if v > extent + Margin then -Margin else v
    ensures -Margin <= Wrap(v, extent) <= extent + Margin
  {
  }

  /** One particle's update in a frame, before the keep-or-kill decision. */
  function Step(p: Particle, pull: Pull, width: nat, height: nat): (q: Particle)
    ensures q.id == p.id && q.size == p.size
    ensures q.mode == Sucking <==> p.mode == Sucking || pull.dist < InteractionRadius
    ensures p.mode == Drifting ==>
      q.vx == p.vx && q.vy == p.vy && Abs(q.pulseSpeed) == Abs(p.pulseSpeed)
      && -Margin <= q.x <= width as real + Margin && -Margin <= q.y <= height as real + Margin
    ensures p.mode == Sucking ==>
      q.x - p.x == p.vx + pull.ax && q.y - p.y == p.vy + pull.ay
      && q.vx == Damping * (q.x - p.x) && q.vy == Damping * (q.y - p.y)
      && q.opacity >= 0.0 && q.pulseSpeed == p.pulseSpeed
  {
    match p.mode
    case Drifting =>
      var o := p.opacity + p.pulseSpeed;
      var pulse := if o > 0.7 || o < 0.2 then -p.pulseSpeed else p.pulseSpeed;
      WrapOnce(p.x + p.vx, width as real);
      WrapOnce(p.y + p.vy, height as real);
      var mode := if pull.dist < InteractionRadius then Sucking else Drifting;
      p.(x := Wrap(p.x + p.vx, width as real), y := Wrap(p.y + p.vy, height as real),
         opacity := o, pulseSpeed := pulse, mode := mode)
    case Sucking =>
      var vx := p.vx + pull.ax;
      var vy := p.vy + pull.ay;
      p.(x := p.x + vx, y := p.y + vy, vx := vx * Damping, vy := vy * Damping,
         opacity := Max(0.0, pull.dist / InteractionRadius * 0.8))
  }

  /** A drifting particle keeps its opacity bounded. The bound is not
      [0.2, 0.7]: the pulse is reversed only after the step that crosses an
      edge, so the opacity can overshoot by one pulse. */
  lemma {:induction false} DriftKeepsOpacity(p: Particle, pull: Pull, width: nat, height: nat)
    requires p.mode == Drifting && PulseOk(p) && OpacityOk(p)
    ensures var q := Step(p, pull, width, height);
      PulseOk(q) && OpacityOk(q) && 0.19 <= q.opacity <= 0.71
  {
    var q := Step(p, pull, width, height);
    var a := Abs(p.pulseSpeed);
    assert Abs(q.pulseSpeed) == a;
    if p.pulseSpeed > 0.0 {
      assert p.opacity <= 0.7;
      assert q.opacity == p.opacity + a;
      assert 0.2 <= q.opacity <= 0.7 + a;
    } else if p.pulseSpeed < 0.0 {
      assert p.opacity >= 0.2;
      assert q.opacity == p.opacity - a;
      assert 0.2 - a <= q.opacity <= 0.7;
    } else {
      assert q.opacity == p.opacity;
    }
  }

  /** A captured particle whose distance is under 15 disappears. */
  predicate Killed(q: Particle, pull: Pull) {
    q.mode == Sucking && pull.dist < CaptureRadius
  }

  predicate Captured(p: Particle, pull: Pull) {
    p.mode == Drifting && pull.dist < InteractionRadius
  }

  function Captures(ps: seq<Particle>, pulls: seq<Pull>): nat
    requires |pulls| == |ps|
    decreases |ps|
  {
    if |ps| == 0 then 0
    else (if Captured(ps[0], pulls[0]) then 1 else 0) + Captures(ps[1..], pulls[1..])
  }

  function DriftingCount(ps: seq<Particle>): nat
    decreases |ps|
  {
    if |ps| == 0 then 0
    else (if ps[0].mode == Drifting then 1 else 0) + DriftingCount(ps[1..])
  }

  function SuckingCount(ps: seq<Particle>): nat
    decreases |ps|
  {
    if |ps| == 0 then 0
    else (if ps[0].mode == Sucking then 1 else 0) + SuckingCount(ps[1..])
  }

  /** The particles kept from this frame, the replacements spawned in it,
      and the id counter afterwards. */
  datatype Walked = Walked(survivors: seq<Particle>, spawns: seq<Particle>, counter: int)

  /** The particle `createParticle` builds once the id counter has reached
      `n`: the draws for that id, and the id itself. */
  function Replacements(width: nat, height: nat, draw: int -> Draw, spawnDist: int -> real): (renew: int -> Particle)
    requires width > 0
  {
    n => CreateParticle(n - 1, width, height, draw(n), spawnDist(n))
  }

  lemma ReplacementAt(width: nat, height: nat, draw: int -> Draw, spawnDist: int -> real, n: int)
    requires width > 0
    ensures Replacements(width, height, draw, spawnDist)(n) == CreateParticle(n - 1, width, height, draw(n), spawnDist(n))
  {
  }

  /** Replacements numbered on from `counter` are the particles
      `createParticle` builds for those ids. */
  lemma ReplacementsFrom(width: nat, height: nat, draw: int -> Draw, spawnDist: int -> real,
                         spawns: seq<Particle>, counter: int)
    requires width > 0
    requires forall k :: 0 <= k < |spawns| ==> spawns[k] == Replacements(width, height, draw, spawnDist)(counter + 1 + k)
    ensures forall k :: 0 <= k < |spawns| ==>
      spawns[k] == CreateParticle(counter + k, width, height, draw(counter + 1 + k), spawnDist(counter + 1 + k))
  {
    forall k | 0 <= k < |spawns|
      ensures spawns[k] == CreateParticle(counter + k, width, height, draw(counter + 1 + k), spawnDist(counter + 1 + k))
    {
      ReplacementAt(width, height, draw, spawnDist, counter + 1 + k);
    }
  }

  /** The `forEach` over the particles, in order. A captured particle's
      replacement takes the next id. */
  function Walk(ps: seq<Particle>, pulls: seq<Pull>, counter: int, width: nat, height: nat,
                renew: int -> Particle): (w: Walked)
    requires |pulls| == |ps| && width > 0
    ensures |w.spawns| == Captures(ps, pulls) && w.counter == counter + |w.spawns|
    ensures |w.survivors| <= |ps|
    decreases |ps|
  {
    if |ps| == 0 then Walked([], [], counter)
    else
      var q := Step(ps[0], pulls[0], width, height);
      var kept := if Killed(q, pulls[0]) then [] else [q];
      if Captured(ps[0], pulls[0]) then
        var rest := Walk(ps[1..], pulls[1..], counter + 1, width, height, renew);
        var spawns := [renew(counter + 1)] + rest.spawns;
        Walked(kept + rest.survivors, spawns, rest.counter)
      else
        var rest := Walk(ps[1..], pulls[1..], counter, width, height, renew);
        Walked(kept + rest.survivors, rest.spawns, rest.counter)
  }

  /** `q` is what some particle became in this frame, and it was not
      killed. */
  predicate SurvivorOf(q: Particle, ps: seq<Particle>, pulls: seq<Pull>, width: nat, height: nat)
    requires |pulls| == |ps|
  {
    exists i :: 0 <= i < |ps| && q == Step(ps[i], pulls[i], width, height) && !Killed(q, pulls[i])
  }

  /** What one particle leaves among the survivors: itself after the step,
      unless the step killed it. */
  function Kept(p: Particle, pull: Pull, width: nat, height: nat): seq<Particle>
    requires width > 0
  {
    var q := Step(p, pull, width, height);
    if Killed(q, pull) then [] else [q]
  }

  /** The number of replacements one particle spawns. */
  function Spawned(p: Particle, pull: Pull): nat {
    if Captured(p, pull) then 1 else 0
  }

  /** A drifting particle captured inside the kill radius is both replaced
      and removed in the same frame; a sucking particle is never replaced. */
  lemma CaptureInsideKillRadius(p: Particle, pull: Pull, width: nat, height: nat)
    requires width > 0
    ensures Captured(p, pull) && pull.dist < CaptureRadius ==>
      Kept(p, pull, width, height) == [] && Spawned(p, pull) == 1
    ensures p.mode == Sucking ==> Spawned(p, pull) == 0
  {
  }

  /** The replacements are fresh particles numbered on from the counter, in
      the order of the captures. */
  lemma {:induction false} WalkSpawns(ps: seq<Particle>, pulls: seq<Pull>, counter: int, width: nat, height: nat,
                                     renew: int -> Particle)
    requires |pulls| == |ps| && width > 0
    ensures forall k :: 0 <= k < |Walk(ps, pulls, counter, width, height, renew).spawns| ==>
      Walk(ps, pulls, counter, width, height, renew).spawns[k] == renew(counter + 1 + k)
    decreases |ps|
  {
    if |ps| > 0 {
      var w := Walk(ps, pulls, counter, width, height, renew);
      if Captured(ps[0], pulls[0]) {
        var rest := Walk(ps[1..], pulls[1..], counter + 1, width, height, renew);
        WalkSpawns(ps[1..], pulls[1..], counter + 1, width, height, renew);
        assert w.spawns == [renew(counter + 1)] + rest.spawns;
        forall k | 1 <= k < |w.spawns|
          ensures w.spawns[k] == renew(counter + 1 + k)
        {
          assert w.spawns[k] == rest.spawns[k - 1] == renew(counter + 1 + 1 + (k - 1));
        }
      } else {
        var rest := Walk(ps[1..], pulls[1..], counter, width, height, renew);
        WalkSpawns(ps[1..], pulls[1..], counter, width, height, renew);
        assert w.spawns == rest.spawns;
      }
    }
  }

  /** One step of the walk: the first particle's survivor comes first, the
      rest of the walk follows with the counter moved past its spawn. */
  lemma WalkUnfold(ps: seq<Particle>, pulls: seq<Pull>, counter: int, width: nat, height: nat,
                   renew: int -> Particle)
    requires |pulls| == |ps| && |ps| > 0 && width > 0
    ensures var w := Walk(ps, pulls, counter, width, height, renew);
      var rest := Walk(ps[1..], pulls[1..], counter + Spawned(ps[0], pulls[0]), width, height, renew);
      w.survivors == Kept(ps[0], pulls[0], width, height) + rest.survivors
      && |w.spawns| == Spawned(ps[0], pulls[0]) + |rest.spawns|
  {
  }

  /** Every survivor is a stepped particle that was not killed. */
  lemma {:induction false} WalkSurvivors(ps: seq<Particle>, pulls: seq<Pull>, counter: int, width: nat, height: nat,
                                        renew: int -> Particle)
    requires |pulls| == |ps| && width > 0
    ensures forall q :: q in Walk(ps, pulls, counter, width, height, renew).survivors ==> SurvivorOf(q, ps, pulls, width, height)
    decreases |ps|
  {
    if |ps| > 0 {
      var w := Walk(ps, pulls, counter, width, height, renew);
      var n := Spawned(ps[0], pulls[0]);
      var rest := Walk(ps[1..], pulls[1..], counter + n, width, height, renew);
      var kept := Kept(ps[0], pulls[0], width, height);
      WalkUnfold(ps, pulls, counter, width, height, renew);
      WalkSurvivors(ps[1..], pulls[1..], counter + n, width, height, renew);
      forall q | q in w.survivors
        ensures SurvivorOf(q, ps, pulls, width, height)
      {
        if q in kept {
          assert q == Step(ps[0], pulls[0], width, height);
        } else {
          assert q in rest.survivors;
          assert SurvivorOf(q, ps[1..], pulls[1..], width, height);
          var i :| 0 <= i < |ps[1..]| && q == Step(ps[1..][i], pulls[1..][i], width, height) && !Killed(q, pulls[1..][i]);
          assert ps[1..][i] == ps[i + 1] && pulls[1..][i] == pulls[i + 1];
        }
      }
    }
  }

  /** The converse of `WalkSurvivors`: a particle is dropped only when its
      step killed it, so every particle the step did not kill survives. */
  lemma {:induction false} NotKilledSurvives(ps: seq<Particle>, pulls: seq<Pull>, counter: int, width: nat, height: nat,
                                            renew: int -> Particle, i: nat)
    requires |pulls| == |ps| && width > 0
    requires i < |ps| && !Killed(Step(ps[i], pulls[i], width, height), pulls[i])
    ensures Step(ps[i], pulls[i], width, height) in Walk(ps, pulls, counter, width, height, renew).survivors
    decreases i
  {
    WalkUnfold(ps, pulls, counter, width, height, renew);
    if i > 0 {
      assert ps[1..][i - 1] == ps[i] && pulls[1..][i - 1] == pulls[i];
      NotKilledSurvives(ps[1..], pulls[1..], counter + Spawned(ps[0], pulls[0]), width, height, renew, i - 1);
    }
  }

  /** The drifting survivors plus the spawns are as many as the drifting
      particles before: a capture moves one particle out of drifting and
      spawns one, and a drifting particle is never killed. */
  lemma {:induction false} WalkKeepsDrifting(ps: seq<Particle>, pulls: seq<Pull>, counter: int, width: nat, height: nat,
                                            renew: int -> Particle)
    requires |pulls| == |ps| && width > 0
    ensures var w := Walk(ps, pulls, counter, width, height, renew);
      DriftingCount(w.survivors) + |w.spawns| == DriftingCount(ps)
    decreases |ps|
  {
    if |ps| > 0 {
      var n := Spawned(ps[0], pulls[0]);
      var rest := Walk(ps[1..], pulls[1..], counter + n, width, height, renew);
      var kept := Kept(ps[0], pulls[0], width, height);
      WalkUnfold(ps, pulls, counter, width, height, renew);
      WalkKeepsDrifting(ps[1..], pulls[1..], counter + n, width, height, renew);
      DriftingCountAppend(kept, rest.survivors);
    }
  }

  lemma {:induction false} DriftingCountAppend(a: seq<Particle>, b: seq<Particle>)
    ensures DriftingCount(a + b) == DriftingCount(a) + DriftingCount(b)
    decreases |a|
  {
    if |a| > 0 {
      assert (a + b)[0] == a[0];
      assert (a + b)[1..] == a[1..] + b;
      DriftingCountAppend(a[1..], b);
    } else {
      assert a + b == b;
    }
  }

  lemma {:induction false} SuckingCountAppend(a: seq<Particle>, b: seq<Particle>)
    ensures SuckingCount(a + b) == SuckingCount(a) + SuckingCount(b)
    decreases |a|
  {
    if |a| > 0 {
      assert (a + b)[0] == a[0];
      assert (a + b)[1..] == a[1..] + b;
      SuckingCountAppend(a[1..], b);
    } else {
      assert a + b == b;
    }
  }

  /** Every particle is drifting or sucking. */
  lemma {:induction false} ModesPartition(ps: seq<Particle>)
    ensures DriftingCount(ps) + SuckingCount(ps) == |ps|
    decreases |ps|
  {
    if |ps| > 0 {
      ModesPartition(ps[1..]);
    }
  }

  /** The field after a frame, and the id counter. */
  datatype Field = Field(particles: seq<Particle>, counter: int)

  /** One `animate()` frame: the survivors in their original order, then the
      replacements. */
  function Frame(f: Field, pulls: seq<Pull>, width: nat, height: nat,
                 draw: int -> Draw, spawnDist: int -> real): (g: Field)
    requires |pulls| == |f.particles| && width > 0
    ensures g.counter == f.counter + Captures(f.particles, pulls)
    ensures DriftingCount(g.particles) == DriftingCount(f.particles)
  {
    var renew := Replacements(width, height, draw, spawnDist);
    var w := Walk(f.particles, pulls, f.counter, width, height, renew);
    WalkKeepsDrifting(f.particles, pulls, f.counter, width, height, renew);
    WalkSpawns(f.particles, pulls, f.counter, width, height, renew);
    ReplacementsFrom(width, height, draw, spawnDist, w.spawns, f.counter);
    DriftingCountAppend(w.survivors, w.spawns);
    AllDrifting(w.spawns);
    Field(w.survivors + w.spawns, w.counter)
  }

  lemma {:induction false} AllDrifting(ps: seq<Particle>)
    requires forall k :: 0 <= k < |ps| ==> ps[k].mode == Drifting
    ensures DriftingCount(ps) == |ps|
    decreases |ps|
  {
    if |ps| > 0 {
      AllDrifting(ps[1..]);
    }
  }

  /** Each capture spawns exactly one replacement, and only sucking
      particles die, so the drifting population never changes and every
      particle beyond it is one being sucked in. */
  lemma PopulationSplit(f: Field, pulls: seq<Pull>, width: nat, height: nat,
                        draw: int -> Draw, spawnDist: int -> real)
    requires |pulls| == |f.particles| && width > 0
    ensures var g := Frame(f, pulls, width, height, draw, spawnDist);
      |g.particles| == DriftingCount(f.particles) + SuckingCount(g.particles)
  {
    var g := Frame(f, pulls, width, height, draw, spawnDist);
    ModesPartition(g.particles);
  }

  /** The ids strictly increase along the sequence. */
  predicate IdsIncreasing(ps: seq<Particle>) {
    forall i, j :: 0 <= i < j < |ps| ==> ps[i].id < ps[j].id
  }

  /** The field's standing invariant: ids increase and none exceeds the
      counter, and every drifting particle keeps its opacity bounded. */
  predicate Healthy(f: Field) {
    IdsIncreasing(f.particles)
    && (forall k :: 0 <= k < |f.particles| ==> f.particles[k].id <= f.counter)
    && (forall k :: 0 <= k < |f.particles| && f.particles[k].mode == Drifting ==>
          PulseOk(f.particles[k]) && OpacityOk(f.particles[k]))
  }

  /** Survivors keep their relative order. */
  lemma {:induction false} SurvivorsInOrder(ps: seq<Particle>, pulls: seq<Pull>, counter: int, width: nat, height: nat,
                                           renew: int -> Particle)
    requires |pulls| == |ps| && width > 0 && IdsIncreasing(ps)
    ensures IdsIncreasing(Walk(ps, pulls, counter, width, height, renew).survivors)
    decreases |ps|
  {
    if |ps| > 0 {
      var n := Spawned(ps[0], pulls[0]);
      var rest := Walk(ps[1..], pulls[1..], counter + n, width, height, renew);
      var kept := Kept(ps[0], pulls[0], width, height);
      WalkUnfold(ps, pulls, counter, width, height, renew);
      IdsIncreasingTail(ps);
      SurvivorsInOrder(ps[1..], pulls[1..], counter + n, width, height, renew);
      var first := ps[0].id;
      SurvivorIds(ps[1..], pulls[1..], counter + n, width, height, renew, x => first < x);
      KeptId(ps[0], pulls[0], width, height);
      PrependIncreasing(kept, rest.survivors);
    }
  }

  lemma IdsIncreasingTail(ps: seq<Particle>)
    requires |ps| > 0 && IdsIncreasing(ps)
    ensures IdsIncreasing(ps[1..])
    ensures forall i :: 0 <= i < |ps[1..]| ==> ps[0].id < ps[1..][i].id
  {
    forall i, j | 0 <= i < j < |ps[1..]|
      ensures ps[1..][i].id < ps[1..][j].id
    {
      assert ps[1..][i] == ps[i + 1] && ps[1..][j] == ps[j + 1];
    }
  }

  /** The particle kept from a step is the stepped particle, under its own id. */
  lemma KeptId(p: Particle, pull: Pull, width: nat, height: nat)
    requires width > 0
    ensures |Kept(p, pull, width, height)| <= 1
    ensures forall k :: 0 <= k < |Kept(p, pull, width, height)| ==> Kept(p, pull, width, height)[k].id == p.id
  {
  }

  /** A property every particle's id has, every survivor's id has: the step
      keeps the id. */
  lemma SurvivorIds(ps: seq<Particle>, pulls: seq<Pull>, counter: int, width: nat, height: nat,
                    renew: int -> Particle, p: int -> bool)
    requires |pulls| == |ps| && width > 0
    requires forall i :: 0 <= i < |ps| ==> p(ps[i].id)
    ensures forall k :: 0 <= k < |Walk(ps, pulls, counter, width, height, renew).survivors| ==>
      p(Walk(ps, pulls, counter, width, height, renew).survivors[k].id)
  {
    var w := Walk(ps, pulls, counter, width, height, renew);
    WalkSurvivors(ps, pulls, counter, width, height, renew);
    forall k | 0 <= k < |w.survivors|
      ensures p(w.survivors[k].id)
    {
      assert w.survivors[k] in w.survivors;
      var i :| 0 <= i < |ps| && w.survivors[k] == Step(ps[i], pulls[i], width, height) && !Killed(w.survivors[k], pulls[i]);
    }
  }

  /** At most one particle placed before increasing ones with larger ids
      keeps the ids increasing. */
  lemma PrependIncreasing(a: seq<Particle>, b: seq<Particle>)
    requires |a| <= 1 && IdsIncreasing(b)
    requires forall k :: 0 <= k < |a| ==> forall m :: 0 <= m < |b| ==> a[k].id < b[m].id
    ensures IdsIncreasing(a + b)
  {
    var s := a + b;
    forall i, j | 0 <= i < j < |s|
      ensures s[i].id < s[j].id
    {
      if i < |a| {
        assert s[j] == b[j - |a|];
      } else {
        assert s[i] == b[i - |a|] && s[j] == b[j - |a|];
      }
    }
  }

  /** A frame keeps the field healthy, given well-formed random draws. */
  lemma FrameKeepsHealthy(f: Field, pulls: seq<Pull>, width: nat, height: nat,
                          draw: int -> Draw, spawnDist: int -> real)
    requires |pulls| == |f.particles| && width > 0 && Healthy(f)
    requires forall n :: n > f.counter ==> ValidDraw(draw(n))
    ensures Healthy(Frame(f, pulls, width, height, draw, spawnDist))
  {
    var ps := f.particles;
    var renew := Replacements(width, height, draw, spawnDist);
    var w := Walk(ps, pulls, f.counter, width, height, renew);
    var g := Frame(f, pulls, width, height, draw, spawnDist);
    assert g.particles == w.survivors + w.spawns;
    SurvivorsInOrder(ps, pulls, f.counter, width, height, renew);
    WalkSurvivors(ps, pulls, f.counter, width, height, renew);
    WalkSpawns(ps, pulls, f.counter, width, height, renew);
    ReplacementsFrom(width, height, draw, spawnDist, w.spawns, f.counter);
    forall k | 0 <= k < |w.survivors|
      ensures w.survivors[k].id <= f.counter
      ensures w.survivors[k].mode == Drifting ==> PulseOk(w.survivors[k]) && OpacityOk(w.survivors[k])
    {
      assert w.survivors[k] in w.survivors;
      var i :| 0 <= i < |ps| && w.survivors[k] == Step(ps[i], pulls[i], width, height) && !Killed(w.survivors[k], pulls[i]);
      if w.survivors[k].mode == Drifting {
        DriftKeepsOpacity(ps[i], pulls[i], width, height);
      }
    }
    forall k | 0 <= k < |w.spawns|
      ensures PulseOk(w.spawns[k]) && OpacityOk(w.spawns[k])
    {
      assert ValidDraw(draw(f.counter + 1 + k));
    }
    HealthyConcat(w.survivors, w.spawns, f.counter, g.counter);
  }

  /** Gluing the survivors (ids up to the old counter) to the spawns (ids
      counting up from it) gives increasing ids. */
  lemma HealthyConcat(a: seq<Particle>, b: seq<Particle>, counter: int, next: int)
    requires IdsIncreasing(a) && forall k :: 0 <= k < |a| ==> a[k].id <= counter
    requires forall k :: 0 <= k < |b| ==> b[k].id == counter + 1 + k
    requires next == counter + |b|
    requires forall k :: 0 <= k < |a| && a[k].mode == Drifting ==> PulseOk(a[k]) && OpacityOk(a[k])
    requires forall k :: 0 <= k < |b| ==> PulseOk(b[k]) && OpacityOk(b[k])
    ensures Healthy(Field(a + b, next))
  {
    var s := a + b;
    forall i, j | 0 <= i < j < |s|
      ensures s[i].id < s[j].id
    {
      if j < |a| {
      } else if i < |a| {
        assert s[j] == b[j - |a|];
      } else {
        assert s[i] == b[i - |a|] && s[j] == b[j - |a|];
      }
    }
    forall k | 0 <= k < |s|
      ensures s[k].id <= next
      ensures s[k].mode == Drifting ==> PulseOk(s[k]) && OpacityOk(s[k])
    {
      if k >= |a| {
        assert s[k] == b[k - |a|];
      }
    }
  }

  /** `Math.ceil` for a non-negative real. */
  function Ceil(r: real): (n: nat)
    requires r >= 0.0
    ensures r <= n as real < r + 1.0
  {
    var f := r.Floor;
    if f as real == r then f else f + 1
  }

  function Min(a: real, b: real): real {
    if a < b then a else b
  }

  /** The number of iterations of `for (i = 0; i < min(width / 15, 80); i++)`. */
  function InitialCount(width: nat): (n: nat)
    ensures n <= MaxParticles
    ensures n as real >= Min(width as real / Spacing, MaxParticles as real)
    ensures n > 0 ==> (n - 1) as real < Min(width as real / Spacing, MaxParticles as real)
  {
    Ceil(Min(width as real / Spacing, MaxParticles as real))
  }

  /** A wide screen is capped at 80 particles; a 100-pixel one gets 7. */
  lemma InitialCountExamples()
    ensures InitialCount(1920) == 80
    ensures InitialCount(100) == 7
    ensures InitialCount(0) == 0
  {
    assert 1920 as real / Spacing == 128.0;
    assert 6.0 < 100 as real / Spacing < 7.0;
  }

  /** `initParticles()`: a fresh field of drifting particles with
      consecutive ids. */
  method InitParticles(width: nat, height: nat, counter: int, draw: int -> Draw, spawnDist: int -> real)
    returns (f: Field)
    requires width > 0
    ensures |f.particles| == InitialCount(width) && f.counter == counter + |f.particles|
    ensures forall k :: 0 <= k < |f.particles| ==> f.particles[k].id == counter + 1 + k && f.particles[k].mode == Drifting
    ensures (forall n :: n > counter ==> ValidDraw(draw(n))) ==> Healthy(f)
  {
    var limit := Min(width as real / Spacing, MaxParticles as real);
    var ps: seq<Particle> := [];
    var c := counter;
    var i := 0;
    while (i as real) < limit
      invariant 0 <= i <= InitialCount(width)
      invariant |ps| == i && c == counter + i
      invariant forall k :: 0 <= k < i ==> ps[k] == CreateParticle(counter + k, width, height, draw(counter + k + 1), spawnDist(counter + k + 1))
      decreases InitialCount(width) - i
    {
      ps := ps + [CreateParticle(c, width, height, draw(c + 1), spawnDist(c + 1))];
      c := c + 1;
      i := i + 1;
    }
    f := Field(ps, c);
    if forall n :: n > counter ==> ValidDraw(draw(n)) {
      forall k | 0 <= k < |ps|
        ensures PulseOk(ps[k]) && OpacityOk(ps[k])
      {
        assert ValidDraw(draw(counter + k + 1));
      }
    }
  }

  /** From a fresh field on, the number of drifting particles stays the
      initial count: the population is that count plus the particles
      being sucked in. */
  lemma DriftingPopulationKept(f: Field, pulls: seq<Pull>, width: nat, height: nat,
                               draw: int -> Draw, spawnDist: int -> real)
    requires |pulls| == |f.particles| && width > 0
    requires forall k :: 0 <= k < |f.particles| ==> f.particles[k].mode == Drifting
    ensures var g := Frame(f, pulls, width, height, draw, spawnDist);
      DriftingCount(g.particles) == |f.particles|
      && |g.particles| == |f.particles| + SuckingCount(g.particles)
  {
    AllDrifting(f.particles);
    PopulationSplit(f, pulls, width, height, draw, spawnDist);
  }
}

=== FILE: rate_limit.dfy ===
/** The sliding-window rate limiter in front of the API
    (backend/app/middleware/rate_limit.py). Redis is replaced by a map from
    key to the sorted set of request timestamps kept under that key; wall
    clock readings are parameters. */
module RateLimit {
  import opened Wrappers
  import opened Strings
  import opened Requests
  import opened Numbers

  /** Requests allowed per window, and the window length in seconds. */
  datatype Quota = Quota(limit: int, window: int)

  /** Paths that are never counted. */
  const ExemptPaths: set<string> := {"/health", "/", "/docs", "/redoc", "/openapi.json"}

  /** `_get_rate_limit`: authentication endpoints (the marker anywhere in the
      path) are strictest, other `/api/` paths moderate, the rest generous;
      every window is a minute. The method plays no part. */
  function QuotaFor(path: string): (q: Quota)
    ensures q.window == 60
    ensures q.limit == 5 <==> Contains(path, "/api/v1/auth")
    ensures q.limit == 60 <==> !Contains(path, "/api/v1/auth") && StartsWith(path, "/api/")
    ensures q.limit == 100 <==> !Contains(path, "/api/v1/auth") && !StartsWith(path, "/api/")
  {
    if Contains(path, "/api/v1/auth") then Quota(5, 60)
    else if StartsWith(path, "/api/") then Quota(60, 60)
    else Quota(100, 60)
  }

  /** The authentication marker wins wherever it occurs, even inside a path
      that also starts with `/api/`. */
  lemma AuthMarkerAnywhere(before: string, after: string)
    ensures QuotaFor(before + "/api/v1/auth" + after) == Quota(5, 60)
  {
    var path := before + "/api/v1/auth" + after;
    assert path[|before|..|before| + |"/api/v1/auth"|] == "/api/v1/auth";
    assert OccursAt(path, "/api/v1/auth", |before|);
    ContainsIffOccurs(path, "/api/v1/auth");
  }

  /** Three classifications: a login path, a resource path, any other path. */
  lemma AuthLoginQuota(path: string)
    requires path == "/api/v1/auth/login"
    ensures QuotaFor(path) == Quota(5, 60)
  {
    AuthMarkerAnywhere("", path[12..]);
    assert path == "" + "/api/v1/auth" + path[12..];
  }

  lemma ResumesQuota(path: string)
    requires path == "/api/v1/resumes"
    ensures QuotaFor(path) == Quota(60, 60)
  {
    var marker := "/api/v1/auth";
    ContainsIffOccurs(path, marker);
    forall i | 0 <= i <= |path| - |marker|
      ensures !OccursAt(path, marker, i)
    {
      if i == 0 {
        assert path[8] != marker[8];
      } else {
        assert path[i] != marker[0];
      }
    }
    assert path[..5] == "/api/";
  }

  lemma OtherQuota(path: string)
    requires path == "/other"
    ensures QuotaFor(path) == Quota(100, 60)
  {
    ContainsIffOccurs(path, "/api/v1/auth");
    assert path[..5][1] != "/api/"[1];
  }

  /** One Redis sorted set of request timestamps. The member written for a
      request is the text of its timestamp and its score the timestamp, so
      two requests at the same instant are a single member. `ttl` is the
      expiry EXPIRE last set. */
  datatype Log = Log(stamps: set<real>, ttl: int)

  type Store = map<string, Log>

  function Stamps(store: Store, key: string): set<real> {
    if key in store then store[key].stamps else {}
  }

  /** `rate_limit:<client ip>:<method>:<path>`. */
  function Key(clientIp: string, verb: string, path: string): string {
    "rate_limit:" + clientIp + ":" + verb + ":" + path
  }

  /** What ZREMRANGEBYSCORE key 0 windowStart leaves: the scores outside
      [0, windowStart]. */
  function Pruned(stamps: set<real>, windowStart: real): set<real> {
    set t | t in stamps && (t < 0.0 || t > windowStart)
  }

  /** What ZCOUNT key lo hi counts: the scores in [lo, hi]. */
  function Between(stamps: set<real>, lo: real, hi: real): set<real> {
    set t | t in stamps && lo <= t <= hi
  }

  datatype Checked = Checked(allowed: bool, store: Store)

  /** `_check_rate_limit`: prune the entries at or before `now - window`,
      count the rest, record `now`, reset the expiry; the request is
      allowed iff the count taken before recording is below the limit.
      EXPIRE with a non-positive time deletes the key. */
  function CheckRateLimit(store: Store, key: string, limit: int, window: int, now: real): (c: Checked)
    ensures c.allowed <==> |Pruned(Stamps(store, key), now - window as real)| < limit
    ensures window > 0 ==> key in c.store && now in c.store[key].stamps && c.store[key].ttl == window
    ensures window > 0 ==> c.store[key].stamps == Pruned(Stamps(store, key), now - window as real) + {now}
    ensures window <= 0 ==> key !in c.store
    ensures c.store - {key} == store - {key}
  {
    var kept := Pruned(Stamps(store, key), now - window as real);
    var allowed := |kept| < limit;
    if window > 0 then Checked(allowed, store[key := Log(kept + {now}, window)])
    else Checked(allowed, store - {key})
  }

  /** A request at the same instant as the previous one adds no member: the
      sorted set collapses equal timestamps. */
  lemma SameInstantCollapses(store: Store, key: string, limit: int, window: int, now: real)
    requires window > 0
    ensures var c1 := CheckRateLimit(store, key, limit, window, now);
      var c2 := CheckRateLimit(c1.store, key, limit, window, now);
      Stamps(c2.store, key) == Stamps(c1.store, key)
  {
    var c1 := CheckRateLimit(store, key, limit, window, now);
    var s1 := Stamps(c1.store, key);
    assert Pruned(s1, now - window as real) + {now} == s1;
  }

  /** Once every recorded request lies a full window in the past, the next
      request is allowed again. */
  lemma QuietWindowReadmits(store: Store, key: string, limit: int, window: int, now: real)
    requires limit > 0
    requires forall t :: t in Stamps(store, key) ==> 0.0 <= t <= now - window as real
    ensures CheckRateLimit(store, key, limit, window, now).allowed
  {
    assert Pruned(Stamps(store, key), now - window as real) == {};
  }

  /** `_get_remaining_requests`: the limit minus the requests in
      [now - window, now], never below zero. */
  function Remaining(store: Store, key: string, limit: int, window: int, now: real): (r: int)
    ensures r >= 0
    ensures var n := |Between(Stamps(store, key), now - window as real, now)|;
      (r == 0 <==> n >= limit) && (r > 0 ==> r + n == limit)
  {
    var n := |Between(Stamps(store, key), now - window as real, now)|;
    if limit - n > 0 then limit - n else 0
  }

  /** After an admitted request at an instant later than every earlier
      stamp, the remaining count taken at that same instant is the limit
      less the requests the check counted and less this one. */
  lemma RemainingAfterAdmit(store: Store, key: string, limit: int, window: int, now: real)
    requires window > 0
    requires forall t :: t in Stamps(store, key) ==> 0.0 <= t < now
    ensures var c := CheckRateLimit(store, key, limit, window, now);
      c.allowed ==>
        Remaining(c.store, key, limit, window, now)
          == limit - |Pruned(Stamps(store, key), now - window as real)| - 1
  {
    var kept := Pruned(Stamps(store, key), now - window as real);
    var c := CheckRateLimit(store, key, limit, window, now);
    assert Between(Stamps(c.store, key), now - window as real, now) == kept + {now};
    assert now !in kept;
  }

  /** The quota headers attached to a forwarded response. */
  datatype QuotaHeaders = QuotaHeaders(limit: int, remaining: int, reset: int)

  datatype Reply =
    | Passed(quotaHeaders: Option<QuotaHeaders>)   // the downstream response
    | HandlerRaised   // the handler's exception leaves the middleware
    | TooManyRequests(retryAfter: int, limitHeader: int, windowHeader: int)   // raises HTTPException(429)

  /** What fails during one request, if anything: the admission pipeline,
      the handler (with an exception other than `HTTPException`; `again`
      when a second run raises too), or the remaining-count query made
      after the handler ran. */
  datatype Fault = NoFault | CheckFault | HandlerFault(again: bool) | RemainingFault

  /** The reply, the Redis contents afterwards (`None` when there is no
      client), and how many times the downstream handler ran. */
  datatype Dispatched = Dispatched(reply: Reply, store: Option<Store>, handlerCalls: nat)

  /** A handler run outside the guarded block: its exception, if any,
      leaves the middleware. */
  function Unguarded(fault: Fault): Reply {
    if fault.HandlerFault? then HandlerRaised else Passed(None)
  }

  /** `dispatch` as written. `redis` is the outcome of the lazy connection
      (`None` when it failed); `now` is the clock at the admission check and
      `later` the clock the remaining-count query reads once the handler has
      answered; `resetAt` the separate reading the reset header takes after
      that query returns. */
  function Dispatch(redis: Option<Store>, req: Request, fault: Fault, now: real, later: real, resetAt: real): (d: Dispatched)
    ensures redis.None? ==> d == Dispatched(Unguarded(fault), None, 1)
    ensures req.path in ExemptPaths ==> d == Dispatched(Unguarded(fault), redis, 1)
    ensures fault == CheckFault ==> d.reply == Passed(None) && d.handlerCalls == 1 && d.store == redis
    ensures d.reply.TooManyRequests? <==>
      redis.Some? && req.path !in ExemptPaths && fault != CheckFault
      && !CheckRateLimit(redis.value, Key(ClientIp(req), req.verb, req.path),
                         QuotaFor(req.path).limit, QuotaFor(req.path).window, now).allowed
    ensures d.reply.TooManyRequests? ==>
      d.handlerCalls == 0 && d.reply.retryAfter == 60 && d.reply.windowHeader == 60
      && d.reply.limitHeader == QuotaFor(req.path).limit
    ensures redis.Some? && req.path !in ExemptPaths && fault != CheckFault ==>
      d.store == Some(CheckRateLimit(redis.value, Key(ClientIp(req), req.verb, req.path),
                                     QuotaFor(req.path).limit, QuotaFor(req.path).window, now).store)
    ensures d.reply.Passed? && d.reply.quotaHeaders.Some? <==>
      redis.Some? && req.path !in ExemptPaths && fault == NoFault
      && CheckRateLimit(redis.value, Key(ClientIp(req), req.verb, req.path),
                        QuotaFor(req.path).limit, QuotaFor(req.path).window, now).allowed
    ensures d.reply.Passed? && d.reply.quotaHeaders.Some? ==>
      d.handlerCalls == 1
      && d.reply.quotaHeaders.value == QuotaHeaders(
           QuotaFor(req.path).limit,
           Remaining(d.store.value, Key(ClientIp(req), req.verb, req.path),
                     QuotaFor(req.path).limit, QuotaFor(req.path).window, later),
           Trunc(resetAt) + 60)
    ensures redis.Some? && req.path !in ExemptPaths && (fault.HandlerFault? || fault == RemainingFault) && !d.reply.TooManyRequests?
      ==> d.handlerCalls == 2 && d.reply == (if fault == HandlerFault(true) then HandlerRaised else Passed(None))
  {
    if redis.None? then Dispatched(Unguarded(fault), None, 1)
    else if req.path in ExemptPaths then Dispatched(Unguarded(fault), redis, 1)
    else
      var q := QuotaFor(req.path);
      var key := Key(ClientIp(req), req.verb, req.path);
      if fault == CheckFault then Dispatched(Passed(None), redis, 1)
      else
        var c := CheckRateLimit(redis.value, key, q.limit, q.window, now);
        if !c.allowed then Dispatched(TooManyRequests(q.window, q.limit, q.window), Some(c.store), 0)
        else if fault == HandlerFault(true) then Dispatched(HandlerRaised, Some(c.store), 2)
        else if fault != NoFault then Dispatched(Passed(None), Some(c.store), 2)
        else
          var remaining := Remaining(c.store, key, q.limit, q.window, later);
          Dispatched(Passed(Some(QuotaHeaders(q.limit, remaining, Trunc(resetAt) + q.window))), Some(c.store), 1)
  }

  /** Exempt paths are never answered with 429, whatever the counters say. */
  lemma ExemptNeverLimited(redis: Option<Store>, req: Request, fault: Fault, now: real, later: real, resetAt: real)
    requires req.path in ExemptPaths
    ensures !Dispatch(redis, req, fault, now, later, resetAt).reply.TooManyRequests?
    ensures Dispatch(redis, req, fault, now, later, resetAt).store == redis
  {
  }

  /** As written, a failure of the remaining-count query after an admitted
      request sends the same request to the handler a second time: the
      generic exception branch "fails open" by calling the handler again.
      The first request of any client on any counted path shows it. */
  lemma RemainingFaultRunsHandlerTwice(store: Store, req: Request, now: real, later: real, resetAt: real)
    requires req.path !in ExemptPaths
    requires Key(ClientIp(req), req.verb, req.path) !in store
    ensures Dispatch(Some(store), req, RemainingFault, now, later, resetAt).handlerCalls == 2
  {
    var q := QuotaFor(req.path);
    var key := Key(ClientIp(req), req.verb, req.path);
    assert Pruned(Stamps(store, key), now - q.window as real) == {};
    assert CheckRateLimit(store, key, q.limit, q.window, now).allowed;
  }

  /** Likewise a handler that raises on a counted path is run a second time,
      and when the retry succeeds its response replaces the error. */
  lemma HandlerFaultRunsHandlerTwice(store: Store, req: Request, now: real, later: real, resetAt: real)
    requires req.path !in ExemptPaths
    requires Key(ClientIp(req), req.verb, req.path) !in store
    ensures Dispatch(Some(store), req, HandlerFault(false), now, later, resetAt).handlerCalls == 2
    ensures Dispatch(Some(store), req, HandlerFault(false), now, later, resetAt).reply == Passed(None)
  {
    var q := QuotaFor(req.path);
    var key := Key(ClientIp(req), req.verb, req.path);
    assert Pruned(Stamps(store, key), now - q.window as real) == {};
    assert CheckRateLimit(store, key, q.limit, q.window, now).allowed;
  }

  /** `dispatch` with the evident intent of its fail-open branch, which is
      meant for Redis failures only: a response the handler already produced
      is returned without quota headers, a handler's own exception leaves the
      middleware, and nothing runs the handler twice. */
  function DispatchOnce(redis: Option<Store>, req: Request, fault: Fault, now: real, later: real, resetAt: real): (d: Dispatched)
    ensures d.handlerCalls == (if d.reply.TooManyRequests? then 0 else 1)
    ensures d.store == Dispatch(redis, req, fault, now, later, resetAt).store
    ensures !fault.HandlerFault? ==> d.reply == Dispatch(redis, req, fault, now, later, resetAt).reply
    ensures fault.HandlerFault? ==>
      d.reply == (if Dispatch(redis, req, fault, now, later, resetAt).reply.TooManyRequests?
                  then Dispatch(redis, req, fault, now, later, resetAt).reply else HandlerRaised)
  {
    var d := Dispatch(redis, req, fault, now, later, resetAt);
    if d.handlerCalls == 2 then Dispatched(Unguarded(fault), d.store, 1) else d
  }

  /** Every timestamp of `ts`. */
  function Elements(ts: seq<real>): set<real> {
    set i | 0 <= i < |ts| :: ts[i]
  }

  predicate Increasing(ts: seq<real>) {
    forall i, j :: 0 <= i < j < |ts| ==> ts[i] < ts[j]
  }

  lemma {:induction false} IncreasingElementsCount(ts: seq<real>)
    requires Increasing(ts)
    ensures |Elements(ts)| == |ts|
  {
    if |ts| > 0 {
      var p := ts[..|ts| - 1];
      IncreasingElementsCount(p);
      assert Elements(ts) == Elements(p) + {ts[|ts| - 1]};
      assert ts[|ts| - 1] !in Elements(p);
    }
  }

  /** The admission decisions of a run of requests on one key, in order, and
      the store after the last one. */
  datatype Run = Run(decisions: seq<bool>, store: Store)

  function Burst(store: Store, key: string, limit: int, window: int, times: seq<real>): (r: Run)
    ensures |r.decisions| == |times|
  {
    if |times| == 0 then Run([], store)
    else
      var before := Burst(store, key, limit, window, times[..|times| - 1]);
      var c := CheckRateLimit(before.store, key, limit, window, times[|times| - 1]);
      Run(before.decisions + [c.allowed], c.store)
  }

  /** Requests at distinct instants that all fit in one window, starting
      from an empty key: exactly the first `limit` are allowed, and every
      request, admitted or not, is recorded. */
  lemma {:induction false} BurstWithinWindow(store: Store, key: string, limit: int, window: int, times: seq<real>)
    requires key !in store
    requires window > 0
    requires Increasing(times)
    requires |times| > 0 ==> times[|times| - 1] - window as real < times[0]
    ensures forall i :: 0 <= i < |times| ==> (Burst(store, key, limit, window, times).decisions[i] <==> i < limit)
    ensures Stamps(Burst(store, key, limit, window, times).store, key) == Elements(times)
  {
    var n := |times|;
    if n > 0 {
      var p := times[..n - 1];
      PrefixWithinWindow(times, window);
      BurstWithinWindow(store, key, limit, window, p);
      BurstStep(store, key, limit, window, times);
      var r := Burst(store, key, limit, window, times);
      var before := Burst(store, key, limit, window, p);
      forall i | 0 <= i < n
        ensures r.decisions[i] <==> i < limit
      {
        if i < n - 1 {
          assert r.decisions[i] == before.decisions[i];
        }
      }
    }
  }

  /** Dropping the last request keeps a run increasing and within one window. */
  lemma PrefixWithinWindow(times: seq<real>, window: int)
    requires |times| > 0 && Increasing(times)
    requires times[|times| - 1] - window as real < times[0]
    ensures var p := times[..|times| - 1];
      Increasing(p) && (|p| > 0 ==> p[|p| - 1] - window as real < p[0])
  {
    var p := times[..|times| - 1];
    if |p| > 0 {
      assert p[|p| - 1] < times[|times| - 1];
    }
  }

  /** The last request of a run within one window, checked against the
      stamps of the earlier ones: allowed exactly while fewer than `limit`
      came before, and recorded either way. */
  lemma BurstStep(store: Store, key: string, limit: int, window: int, times: seq<real>)
    requires window > 0 && |times| > 0 && Increasing(times)
    requires times[|times| - 1] - window as real < times[0]
    requires Stamps(Burst(store, key, limit, window, times[..|times| - 1]).store, key) == Elements(times[..|times| - 1])
    ensures var r := Burst(store, key, limit, window, times);
      var before := Burst(store, key, limit, window, times[..|times| - 1]);
      r.decisions == before.decisions + [|times| - 1 < limit]
      && Stamps(r.store, key) == Elements(times)
  {
    var p := times[..|times| - 1];
    var before := Burst(store, key, limit, window, p);
    PrefixWithinWindow(times, window);
    RecentSurvivePruning(times, window);
    IncreasingElementsCount(p);
    ElementsSnoc(times);
    CheckUnpruned(before.store, key, limit, window, times[|times| - 1], Elements(p));
  }

  /** A check on a key none of whose entries is pruned counts them all and
      adds `now`. */
  lemma CheckUnpruned(store: Store, key: string, limit: int, window: int, now: real, s: set<real>)
    requires window > 0
    requires Stamps(store, key) == s && Pruned(s, now - window as real) == s
    ensures var c := CheckRateLimit(store, key, limit, window, now);
      (c.allowed <==> |s| < limit) && Stamps(c.store, key) == s + {now}
  {
  }

  lemma ElementsSnoc(ts: seq<real>)
    requires |ts| > 0
    ensures Elements(ts) == Elements(ts[..|ts| - 1]) + {ts[|ts| - 1]}
  {
    var p := ts[..|ts| - 1];
    forall t | t in Elements(ts)
      ensures t in Elements(p) + {ts[|ts| - 1]}
    {
      var i :| 0 <= i < |ts| && ts[i] == t;
      if i < |ts| - 1 {
        assert p[i] == t;
      }
    }
  }

  /** Timestamps newer than the start of the window are not pruned. */
  lemma RecentSurvivePruning(ts: seq<real>, window: int)
    requires |ts| > 0 && Increasing(ts)
    requires ts[|ts| - 1] - window as real < ts[0]
    ensures var p := ts[..|ts| - 1];
      Pruned(Elements(p), ts[|ts| - 1] - window as real) == Elements(p)
  {
    var p := ts[..|ts| - 1];
    forall t | t in Elements(p)
      ensures t > ts[|ts| - 1] - window as real
    {
      var i :| 0 <= i < |p| && p[i] == t;
      assert ts[i] == t;
      assert ts[0] <= ts[i];
    }
  }

  /** Six requests inside one minute against a five-per-minute endpoint:
      five are allowed, the sixth is refused. */
  lemma AuthBurstOfSix(key: string, times: seq<real>)
    requires |times| == 6 && Increasing(times)
    requires times[5] - 60.0 < times[0]
    ensures Burst(map[], key, 5, 60, times).decisions == [true, true, true, true, true, false]
  {
    BurstWithinWindow(map[], key, 5, 60, times);
  }
}

=== FILE: request_logging.dfy ===
/** The request-logging middleware (backend/app/middleware/logging.py): one
    entry when a request arrives, one when it is answered or fails, and a
    security entry for rejected bearer tokens. Request ids and durations come
    from the process and the clock and are left out of the entries. */
module RequestLogging {
  import opened Wrappers
  import opened Strings
  import opened Requests

  datatype Level = Info | Warning | Error

  /** Severity order of the levels. */
  function Rank(l: Level): nat {
    match l
    case Info => 0
    case Warning => 1
    case Error => 2
  }

  datatype Entry =
    | Received(verb: string, path: string, client: string, authenticated: bool)
    | Answered(level: Level, verb: string, path: string, status: int, client: string)
    | FailedAuthentication(path: string, client: string, userAgent: string)
    | Failed(verb: string, path: string, errorName: string, message: string, client: string)

  /** What the rest of the stack did with the request. */
  datatype Downstream = Responded(status: int) | Raised(errorName: string, message: string)

  /** The entries written, in order, and what the middleware hands back. */
  datatype Logged = Logged(entries: seq<Entry>, outcome: Downstream)

  /** The peer address the middleware logs: the direct client, never the
      forwarded one. */
  function PeerHost(req: Request): (h: string)
    ensures req.client.Some? ==> h == req.client.value
    ensures req.client.None? ==> h == "unknown"
  {
    req.client.GetOr("unknown")
  }

  /** A request counts as authenticated when it carries a bearer token. */
  predicate IsAuthenticated(req: Request) {
    "authorization" in req.headers && StartsWith(req.headers["authorization"], "Bearer ")
  }

  /** Error for server errors, Warning for client errors, Info otherwise. */
  function LevelFor(status: int): (l: Level)
    ensures l == Error <==> status >= 500
    ensures l == Warning <==> 400 <= status < 500
    ensures l == Info <==> status < 400
  {
    if status >= 500 then Error else if status >= 400 then Warning else Info
  }

  /** A worse status is never logged at a milder level. */
  lemma LevelMonotone(s1: int, s2: int)
    requires s1 <= s2
    ensures Rank(LevelFor(s1)) <= Rank(LevelFor(s2))
  {
  }

  /** `dispatch`: log the arrival, run the rest of the stack, log its answer
      (and a security entry for a 401 to a bearer-token request) or its
      exception, and hand back exactly what the stack produced. */
  function Dispatch(req: Request, downstream: Downstream): (out: Logged)
    ensures out.outcome == downstream
    ensures 2 <= |out.entries| <= 3
    ensures out.entries[0] == Received(req.verb, req.path, PeerHost(req), IsAuthenticated(req))
    ensures downstream.Responded? ==>
      out.entries[1] == Answered(LevelFor(downstream.status), req.verb, req.path, downstream.status, PeerHost(req))
    ensures downstream.Responded? ==>
      |out.entries| == (if downstream.status == 401 && IsAuthenticated(req) then 3 else 2)
    ensures |out.entries| == 3 ==>
      out.entries[2] == FailedAuthentication(req.path, PeerHost(req),
                                             if "user-agent" in req.headers then req.headers["user-agent"] else "unknown")
    ensures downstream.Raised? ==>
      out.entries == [out.entries[0], Failed(req.verb, req.path, downstream.errorName, downstream.message, PeerHost(req))]
    ensures (exists i :: 0 <= i < |out.entries| && out.entries[i].FailedAuthentication?) <==>
      downstream.Responded? && downstream.status == 401 && IsAuthenticated(req)
  {
    var peer := PeerHost(req);
    var arrival := Received(req.verb, req.path, peer, IsAuthenticated(req));
    match downstream
    case Raised(name, message) =>
      Logged([arrival, Failed(req.verb, req.path, name, message, peer)], downstream)
    case Responded(status) =>
      var answer := Answered(LevelFor(status), req.verb, req.path, status, peer);
      if status == 401 && IsAuthenticated(req) then
        var agent := if "user-agent" in req.headers then req.headers["user-agent"] else "unknown";
        var entries := [arrival, answer, FailedAuthentication(req.path, peer, agent)];
        assert entries[2].FailedAuthentication?;
        Logged(entries, downstream)
      else
        Logged([arrival, answer], downstream)
  }

  /** Every logged error or warning answer is a 4xx or 5xx status, and
      every such status is logged above Info. */
  lemma AnsweredLevelMatchesStatus(req: Request, status: int)
    ensures var e := Dispatch(req, Responded(status)).entries[1];
      e.Answered? && (e.level != Info <==> status >= 400)
  {
  }

  /** A request without an `Authorization` header, or with a non-bearer one,
      never raises the security entry. */
  lemma NoBearerNoSecurityEntry(req: Request, downstream: Downstream)
    requires !IsAuthenticated(req)
    ensures forall i :: 0 <= i < |Dispatch(req, downstream).entries| ==>
      !Dispatch(req, downstream).entries[i].FailedAuthentication?
  {
  }
}

=== FILE: requests.dfy ===
/** The parts of an incoming HTTP request the two middlewares read, and the
    client-address rule both of them use. */
module Requests {
  import opened Wrappers
  import opened Strings

  /** A request as the middlewares see it. Header names are stored in lower
      case, since Starlette's header lookup ignores case. `client` is the
      direct peer address, absent when the server does not know it. */
  datatype Request = Request(
    verb: string,
    path: string,
    headers: map<string, string>,
    client: Option<string>)

  /** An error answer: status, detail text and extra response headers (an
      `HTTPException`). */
  datatype HttpError = HttpError(status: int, detail: string, headers: map<string, string>)

  /** `X-Forwarded-For` is present and non-empty (a Python truthy string). */
  predicate Forwarded(req: Request) {
    "x-forwarded-for" in req.headers && req.headers["x-forwarded-for"] != ""
  }

  /** `e` is the text of `list` before its first comma (all of it when there
      is no comma). */
  predicate FirstEntry(list: string, e: string) {
    StartsWith(list, e) && ',' !in e && (|e| == |list| || list[|e|] == ',')
  }

  /** The client address: the first comma-separated `X-Forwarded-For` entry
      with surrounding whitespace removed, else the direct peer, else
      "unknown". */
  function ClientIp(req: Request): (ip: string)
    ensures Forwarded(req) ==> ',' !in ip && Unpadded(ip)
    ensures !Forwarded(req) && req.client.Some? ==> ip == req.client.value
    ensures !Forwarded(req) && req.client.None? ==> ip == "unknown"
  {
    if Forwarded(req) then
      var first := Split(req.headers["x-forwarded-for"], ',')[0];
      var ip := Strip(first);
      assert forall k :: 0 <= k < |ip| ==> ip[k] == first[LeadingSpace(first) + k];
      ip
    else if req.client.Some? then req.client.value
    else "unknown"
  }

  /** The first entry is unique: a string has exactly one text before its
      first comma. */
  lemma FirstEntryUnique(list: string, e1: string, e2: string)
    requires FirstEntry(list, e1) && FirstEntry(list, e2)
    ensures e1 == e2
  {
    assert forall k :: 0 <= k < |e1| ==> list[k] == e1[k];
    assert forall k :: 0 <= k < |e2| ==> list[k] == e2[k];
    assert |e1| == |e2|;
  }

  /** With `X-Forwarded-For` present, the address is exactly its first entry,
      stripped. */
  lemma ClientIpForwarded(req: Request, e: string)
    requires Forwarded(req)
    requires FirstEntry(req.headers["x-forwarded-for"], e)
    ensures ClientIp(req) == Strip(e)
  {
    var list := req.headers["x-forwarded-for"];
    var first := Split(list, ',')[0];
    assert first in Split(list, ',');
    FirstEntryUnique(list, first, e);
  }

  /** Without `X-Forwarded-For` the direct peer is used, or "unknown". */
  lemma ClientIpDirectExamples(headers: map<string, string>)
    requires "x-forwarded-for" !in headers
    ensures ClientIp(Request("GET", "/", headers, Some("192.168.1.100"))) == "192.168.1.100"
    ensures ClientIp(Request("GET", "/", headers, None)) == "unknown"
  {
  }

  /** An unpadded first entry is the address itself. */
  lemma ClientIpFirstHop(req: Request, e: string)
    requires Forwarded(req)
    requires FirstEntry(req.headers["x-forwarded-for"], e)
    requires Unpadded(e)
    ensures ClientIp(req) == e
  {
    ClientIpForwarded(req, e);
    StripUnpadded(e);
  }

  /** The proxy chain "203.0.113.1, 198.51.100.1" yields its first hop,
      whatever the direct peer is. */
  lemma ClientIpProxyExample(req: Request)
    requires req.headers == map["x-forwarded-for" := "203.0.113.1, 198.51.100.1"]
    ensures ClientIp(req) == "203.0.113.1"
  {
    var list := req.headers["x-forwarded-for"];
    var e := list[..11];
    assert e == "203.0.113.1";
    ClientIpFirstHop(req, e);
  }
}

=== FILE: resume_model.dfy ===
/** The `Resume` model of backend/app/db/models/resume.py: a row of
    `resumes`, the lengths of its `varchar` columns, its two check
    constraints and the status default. */
module ResumeModel {
  import opened Wrappers
  import opened JobStatus
  import opened Tables

  /** 5 MiB. */
  const MaxFileSize := 5242880
  const MaxFilenameLength := 255
  const MaxMimeTypeLength := 100
  const MaxStatusLength := 50

  const FileSizeCheck := "resumes_file_size_check"
  const ParsingStatusCheck := "resumes_parsing_status_check"

  datatype Resume = Resume(
    userId: string,
    storagePath: string,
    originalFilename: string,
    fileSizeBytes: int,
    mimeType: string,
    parsedText: Option<string>,
    parsingStatus: string)

  predicate SizeOk(r: Resume) {
    0 < r.fileSizeBytes <= MaxFileSize
  }

  predicate StatusOk(r: Resume) {
    ValidStatus(r.parsingStatus)
  }

  /** The file name and the MIME type fit their `varchar(255)` and
      `varchar(100)` columns. */
  predicate TextsFit(r: Resume) {
    |r.originalFilename| <= MaxFilenameLength && |r.mimeType| <= MaxMimeTypeLength
  }

  function Violations(r: Resume): (names: set<string>)
    ensures FileSizeCheck in names <==> !SizeOk(r)
    ensures ParsingStatusCheck in names <==> !StatusOk(r)
    ensures names <= {FileSizeCheck, ParsingStatusCheck}
  {
    (if SizeOk(r) then {} else {FileSizeCheck})
    + (if StatusOk(r) then {} else {ParsingStatusCheck})
  }

  /** The size check's name sorts before the status check's. */
  lemma NamesOrdered()
    ensures Before(FileSizeCheck, ParsingStatusCheck)
  {
    assert FileSizeCheck[..8] == ParsingStatusCheck[..8] == "resumes_";
    BeforeAt(FileSizeCheck, ParsingStatusCheck, 8);
  }

  /** The columns the model converts, in table order: the file name, the
      size, the MIME type and the status. A value that does not fit stops
      the insert before any check is tested. */
  function Conversion(r: Resume): (e: Option<Refusal>)
    ensures e.None? <==> TextsFit(r) && FitsInteger(r.fileSizeBytes) && |r.parsingStatus| <= MaxStatusLength
    ensures e.Some? ==> e.value.ValueTooLong? || e.value.OutOfRange?
    ensures e == Some(ValueTooLong("original_filename", MaxFilenameLength)) <==> |r.originalFilename| > MaxFilenameLength
    ensures e == Some(OutOfRange("file_size_bytes")) <==>
      |r.originalFilename| <= MaxFilenameLength && !FitsInteger(r.fileSizeBytes)
    ensures e == Some(ValueTooLong("mime_type", MaxMimeTypeLength)) <==>
      |r.originalFilename| <= MaxFilenameLength && FitsInteger(r.fileSizeBytes) && |r.mimeType| > MaxMimeTypeLength
  {
    if |r.originalFilename| > MaxFilenameLength then Some(ValueTooLong("original_filename", MaxFilenameLength))
    else if !FitsInteger(r.fileSizeBytes) then Some(OutOfRange("file_size_bytes"))
    else if |r.mimeType| > MaxMimeTypeLength then Some(ValueTooLong("mime_type", MaxMimeTypeLength))
    else if |r.parsingStatus| > MaxStatusLength then Some(ValueTooLong("parsing_status", MaxStatusLength))
    else None
  }

  /** An INSERT: stored iff the texts fit their columns and both checks
      hold. A value that does not fit is reported first; a formed row that
      breaks a check is refused with the first broken check in name order. */
  function Insert(r: Resume): (res: Result<Resume, Refusal>)
    ensures res.Ok? <==> TextsFit(r) && SizeOk(r) && StatusOk(r)
    ensures res.Ok? ==> res.value == r
    ensures res.Err? && !res.error.CheckViolation? ==> Conversion(r) == Some(res.error)
    ensures res.Err? ==> (res.error.CheckViolation? <==> Conversion(r).None?)
    ensures res.Err? && res.error.CheckViolation? ==> Least(res.error.constraint, Violations(r))
  {
    NamesOrdered();
    match Conversion(r)
    case Some(e) => Err(e)
    case None =>
      if !SizeOk(r) then Err(CheckViolation(FileSizeCheck))
      else if !StatusOk(r) then Err(CheckViolation(ParsingStatusCheck))
      else Ok(r)
  }

  /** A 256-character file name is refused for its length, even when
      everything else about the row is valid. */
  lemma LongFilenameRefused(r: Resume)
    requires |r.originalFilename| == 256 && SizeOk(r) && StatusOk(r)
    ensures Insert(r) == Err(ValueTooLong("original_filename", MaxFilenameLength))
  {
  }

  /** A row as an upload creates it: not yet parsed, status `pending`. */
  function NewResume(userId: string, storagePath: string, originalFilename: string,
                     fileSizeBytes: int, mimeType: string): (r: Resume)
    ensures r.parsedText.None? && r.parsingStatus == DefaultStatus
    ensures r.fileSizeBytes == fileSizeBytes && r.userId == userId && r.storagePath == storagePath
    ensures r.originalFilename == originalFilename && r.mimeType == mimeType
  {
    Resume(userId, storagePath, originalFilename, fileSizeBytes, mimeType, None, DefaultStatus)
  }

  /** With the default status, only the size and the two texts decide. */
  lemma NewResumeAdmissible(userId: string, storagePath: string, originalFilename: string,
                            fileSizeBytes: int, mimeType: string)
    ensures var r := NewResume(userId, storagePath, originalFilename, fileSizeBytes, mimeType);
      (Insert(r).Ok? <==> TextsFit(r) && 0 < fileSizeBytes <= MaxFileSize)
      && (Insert(r).Err? && TextsFit(r) && FitsInteger(fileSizeBytes) ==> Insert(r).error == CheckViolation(FileSizeCheck))
  {
    DefaultStatusValid();
  }

  /** The size bound is inclusive above and exclusive below. */
  lemma SizeBoundaries(r: Resume)
    ensures r.fileSizeBytes == 5242880 ==> SizeOk(r)
    ensures r.fileSizeBytes == 5242881 || r.fileSizeBytes == 0 ==> !SizeOk(r)
  {
  }
}

=== FILE: security.dfy ===
/** The JWT helpers (backend/app/core/security.py). Signature checking,
    expiry and parsing belong to the JWT library and enter as a decoder
    function: it yields the token's claims, or the library's error message. */
module Security {
  import opened Wrappers

  /** The claims of a decoded token. A claim whose JSON value is null maps
      to `None`. */
  type Claims = map<string, Option<string>>

  /** HS256 decoding with the configured secret. */
  type Decoder = string -> Result<Claims, string>

  /** The `sub` claim, when present and not null. */
  function Subject(claims: Claims): (sub: Option<string>)
    ensures sub.Some? <==> "sub" in claims && claims["sub"].Some?
    ensures sub.Some? ==> sub.value == claims["sub"].value
  {
    if "sub" in claims then claims["sub"] else None
  }

  /** `verify_token_signature`: never raises; true iff decoding succeeds. */
  predicate VerifyTokenSignature(decode: Decoder, token: string) {
    decode(token).Ok?
  }

  /** `extract_user_id_from_token`: the subject of a token that decodes,
      `None` for a token that does not or that has no subject. */
  function ExtractUserId(decode: Decoder, token: string): (id: Option<string>)
    ensures decode(token).Err? ==> id.None?
    ensures decode(token).Ok? ==> id == Subject(decode(token).value)
  {
    match decode(token)
    case Ok(claims) => Subject(claims)
    case Err(_) => None
  }

  /** A token whose subject can be extracted passes signature verification. */
  lemma ExtractedImpliesVerified(decode: Decoder, token: string)
    requires ExtractUserId(decode, token).Some?
    ensures VerifyTokenSignature(decode, token)
  {
  }

  /** Decoding never looks at `sub`: a token whose claims lack it still
      verifies, and only the extraction comes back empty. */
  lemma SubjectNotRequired(decode: Decoder, token: string)
    requires decode(token).Ok? && "sub" !in decode(token).value
    ensures VerifyTokenSignature(decode, token)
    ensures ExtractUserId(decode, token) == None
  {
  }
}

=== FILE: session_model.dfy ===
/** The `InterviewSession` model of backend/app/db/models/session.py: a row
    of `interview_sessions`, the three check constraints that guard an
    insert, and the column defaults. */
module SessionModel {
  import opened Wrappers
  import opened JobStatus
  import opened Tables

  const MinJobDescription := 50
  const MaxJobDescription := 5000
  const MaxQuestions := 10
  /** `status` is a `varchar(50)`. */
  const MaxStatusLength := 50

  const StatusCheck := "sessions_status_check"
  const QuestionCountCheck := "sessions_question_count_check"
  const JdLengthCheck := "sessions_jd_length_check"

  datatype Session = Session(
    userId: string,
    resumeId: Option<string>,
    jobDescription: string,
    generatedQuestions: seq<string>,
    questionCount: int,
    status: string)

  predicate StatusOk(s: Session) {
    ValidStatus(s.status)
  }

  predicate CountOk(s: Session) {
    0 <= s.questionCount <= MaxQuestions
  }

  /** `char_length` counts characters, which are the elements of a Dafny
      string. */
  predicate JobDescriptionOk(s: Session) {
    MinJobDescription <= |s.jobDescription| <= MaxJobDescription
  }

  /** The names of the check constraints a row breaks. */
  function Violations(s: Session): (names: set<string>)
    ensures StatusCheck in names <==> !StatusOk(s)
    ensures QuestionCountCheck in names <==> !CountOk(s)
    ensures JdLengthCheck in names <==> !JobDescriptionOk(s)
    ensures names <= {StatusCheck, QuestionCountCheck, JdLengthCheck}
  {
    (if StatusOk(s) then {} else {StatusCheck})
    + (if CountOk(s) then {} else {QuestionCountCheck})
    + (if JobDescriptionOk(s) then {} else {JdLengthCheck})
  }

  /** The three names sort as job description, question count, status. */
  lemma NamesOrdered()
    ensures Before(JdLengthCheck, QuestionCountCheck)
    ensures Before(QuestionCountCheck, StatusCheck)
    ensures Before(JdLengthCheck, StatusCheck)
  {
    assert JdLengthCheck[..9] == QuestionCountCheck[..9] == StatusCheck[..9] == "sessions_";
    BeforeAt(JdLengthCheck, QuestionCountCheck, 9);
    BeforeAt(QuestionCountCheck, StatusCheck, 9);
    BeforeAt(JdLengthCheck, StatusCheck, 9);
  }

  /** A valid status is short enough for its column. */
  lemma ValidStatusFits(s: Session)
    ensures StatusOk(s) ==> |s.status| <= MaxStatusLength
  {
  }

  /** An INSERT. The question count is converted before the status, so a
      count beyond 32 bits, then a status longer than its column, stops the
      insert before any check is tested. A formed row is stored when every
      check holds and is otherwise refused with the first broken check in
      name order. */
  function Insert(s: Session): (r: Result<Session, Refusal>)
    ensures r.Ok? <==> StatusOk(s) && CountOk(s) && JobDescriptionOk(s)
    ensures r.Ok? ==> r.value == s
    ensures r.Err? && r.error.OutOfRange? ==> r.error.column == "question_count" && !FitsInteger(s.questionCount)
    ensures r.Err? && r.error.ValueTooLong? ==>
      r.error == ValueTooLong("status", MaxStatusLength) && FitsInteger(s.questionCount) && |s.status| > MaxStatusLength
    ensures r.Err? ==> (r.error.CheckViolation? <==> FitsInteger(s.questionCount) && |s.status| <= MaxStatusLength)
    ensures r.Err? && r.error.CheckViolation? ==> Least(r.error.constraint, Violations(s))
  {
    NamesOrdered();
    ValidStatusFits(s);
    if !FitsInteger(s.questionCount) then Err(OutOfRange("question_count"))
    else if |s.status| > MaxStatusLength then Err(ValueTooLong("status", MaxStatusLength))
    else if !JobDescriptionOk(s) then Err(CheckViolation(JdLengthCheck))
    else if !CountOk(s) then Err(CheckViolation(QuestionCountCheck))
    else if !StatusOk(s) then Err(CheckViolation(StatusCheck))
    else Ok(s)
  }

  /** A row that breaks two checks is refused for the one whose name sorts
      first: an invalid status and eleven questions give the count's name. */
  lemma FirstCheckReported(s: Session)
    requires s.status == "done" && s.questionCount == 11 && JobDescriptionOk(s)
    ensures Violations(s) == {StatusCheck, QuestionCountCheck}
    ensures Insert(s) == Err(CheckViolation(QuestionCountCheck))
  {
  }

  /** A row built from the required fields only. The question list is the
      server default, an empty JSON array. */
  function NewSession(userId: string, resumeId: Option<string>, jobDescription: string): (s: Session)
    ensures s.generatedQuestions == [] && s.questionCount == 0 && s.status == DefaultStatus
    ensures s.userId == userId && s.resumeId == resumeId && s.jobDescription == jobDescription
  {
    Session(userId, resumeId, jobDescription, [], 0, DefaultStatus)
  }

  /** The defaults pass their own checks, so a new row is accepted exactly
      when its job description has an admissible length. */
  lemma DefaultsAdmissible(userId: string, resumeId: Option<string>, jobDescription: string)
    ensures var s := NewSession(userId, resumeId, jobDescription);
      StatusOk(s) && CountOk(s)
      && (Insert(s).Ok? <==> MinJobDescription <= |jobDescription| <= MaxJobDescription)
      && (Insert(s).Err? ==> Insert(s).error == CheckViolation(JdLengthCheck))
  {
    DefaultStatusValid();
  }

  /** The bounds are inclusive at both ends. */
  lemma CountBounds(s: Session)
    ensures s.questionCount == 0 ==> CountOk(s)
    ensures s.questionCount == 10 ==> CountOk(s)
    ensures s.questionCount == 11 || s.questionCount == -1 ==> !CountOk(s)
    ensures |s.jobDescription| == 49 || |s.jobDescription| == 5001 ==> !JobDescriptionOk(s)
  {
  }
}

=== FILE: sidebar_nav.dfy ===
/** The dashboard sidebar (frontend/src/components/layout/sidebar-nav.tsx):
    a fixed list of five links, each highlighted by the `NavItem` rule. */
module SidebarNav {
  import opened Strings
  import opened NavItem

  datatype Link = Link(name: string, href: string)

  const Navigation: seq<Link> := [
    Link("Dashboard", "/dashboard"),
    Link("Resumes", "/dashboard/resumes"),
    Link("Sessions", "/dashboard/sessions"),
    Link("Progress", "/dashboard/progress"),
    Link("Settings", "/dashboard/settings")
  ]

  /** One rendered entry: the link and whether it is highlighted. */
  datatype Entry = Entry(link: Link, active: bool)

  function Render(pathname: string): (entries: seq<Entry>)
    ensures |entries| == |Navigation|
    ensures forall i :: 0 <= i < |entries| ==> entries[i].link == Navigation[i]
    ensures forall i :: 0 <= i < |entries| ==> (entries[i].active <==> IsActive(pathname, Navigation[i].href))
  {
    seq(|Navigation|, i requires 0 <= i < |Navigation| => Entry(Navigation[i], IsActive(pathname, Navigation[i].href)))
  }

  /** Five entries, in this order, under these names. */
  lemma FiveLinks(pathname: string)
    ensures |Render(pathname)| == 5
    ensures Render(pathname)[0].link.name == "Dashboard" && Render(pathname)[1].link.name == "Resumes"
    ensures Render(pathname)[2].link.name == "Sessions" && Render(pathname)[3].link.name == "Progress"
    ensures Render(pathname)[4].link.name == "Settings"
  {
  }

  /** Every link after the first extends the dashboard's path with a new
      segment. */
  lemma NestedUnderDashboard(i: int)
    requires 1 <= i < |Navigation|
    ensures StartsWith(Navigation[i].href, "/dashboard/")
  {
  }

  /** So wherever a later link is highlighted, the dashboard link is too. */
  lemma NestedActiveImpliesDashboard(pathname: string, i: int)
    requires 1 <= i < |Navigation| && IsActive(pathname, Navigation[i].href)
    ensures Render(pathname)[0].active
  {
    var href := Navigation[i].href;
    NestedUnderDashboard(i);
    assert pathname[..|href|] == href;
    assert pathname[..11] == href[..11] == "/dashboard" + "/";
    assert IsActive(pathname, "/dashboard");
  }

  /** On the dashboard itself only the dashboard link is highlighted. */
  lemma OnlyDashboardAtDashboard(pathname: string)
    requires pathname == "/dashboard"
    ensures Render(pathname)[0].active
    ensures forall i :: 1 <= i < |Navigation| ==> !Render(pathname)[i].active
  {
    forall i | 1 <= i < |Navigation|
      ensures !IsActive(pathname, Navigation[i].href)
    {
      ShorterNotActive(pathname, Navigation[i].href);
    }
  }

  /** On the resumes page, or anywhere below it, both the dashboard and the
      resumes links are highlighted. */
  lemma ResumesAndDashboard(below: string)
    ensures var pathname := Navigation[1].href + below;
      below == [] || below[0] == '/' ==> Render(pathname)[0].active && Render(pathname)[1].active
  {
    var pathname := Navigation[1].href + below;
    if below == [] || below[0] == '/' {
      IsActiveIffBelow(pathname, Navigation[1].href);
      NestedActiveImpliesDashboard(pathname, 1);
    }
  }
}

=== FILE: strings.dfy ===
/** The handful of string operations the backend (Python `str`) and the
    frontend (JavaScript `String`) code relies on, each defined once and
    characterised by its contract. */
module Strings {

  /** `s.startswith(prefix)` in Python, `s.startsWith(prefix)` in JavaScript. */
  predicate StartsWith(s: string, prefix: string) {
    |prefix| <= |s| && s[..|prefix|] == prefix
  }

  /** A string that starts with `a + b` starts with `a`. */
  lemma StartsWithPrefix(s: string, a: string, b: string)
    requires StartsWith(s, a + b)
    ensures StartsWith(s, a)
  {
    assert s[..|a|] == (a + b)[..|a|];
  }

  /** `part` occurs in `s` starting at offset `i`. */
  predicate OccursAt(s: string, part: string, i: int) {
    0 <= i <= |s| - |part| && s[i..i + |part|] == part
  }

  /** Python's `part in s`. */
  predicate Contains(s: string, part: string)
    decreases |s|
  {
    StartsWith(s, part) || (|s| > 0 && Contains(s[1..], part))
  }

  /** `Contains` is exactly "occurs at some offset". */
  lemma {:induction false} ContainsIffOccurs(s: string, part: string)
    ensures Contains(s, part) <==> exists i :: OccursAt(s, part, i)
    decreases |s|
  {
    if Contains(s, part) {
      if StartsWith(s, part) {
        assert OccursAt(s, part, 0);
      } else {
        ContainsIffOccurs(s[1..], part);
        var i :| OccursAt(s[1..], part, i);
        assert s[1..][i..i + |part|] == s[i + 1..i + 1 + |part|];
        assert OccursAt(s, part, i + 1);
      }
    }
    if i :| OccursAt(s, part, i) {
      if i == 0 {
        assert StartsWith(s, part);
      } else {
        assert s[1..][i - 1..i - 1 + |part|] == s[i..i + |part|];
        assert OccursAt(s[1..], part, i - 1);
        ContainsIffOccurs(s[1..], part);
      }
    }
  }

  /** Python's `str.isspace()` for one character (the Unicode whitespace set
      `str.strip()` removes). */
  predicate IsSpace(c: char) {
    var n := c as int;
    (9 <= n <= 13) || (28 <= n <= 32) || n == 0x85 || n == 0xA0 || n == 0x1680
    || (0x2000 <= n <= 0x200A) || n == 0x2028 || n == 0x2029 || n == 0x202F
    || n == 0x205F || n == 0x3000
  }

  predicate AllSpace(s: string) {
    forall k :: 0 <= k < |s| ==> IsSpace(s[k])
  }

  /** Length of the longest all-whitespace prefix of `s`. */
  function LeadingSpace(s: string): (n: nat)
    ensures n <= |s|
    ensures AllSpace(s[..n])
    ensures n < |s| ==> !IsSpace(s[n])
  {
    if |s| > 0 && IsSpace(s[0]) then
      var m := LeadingSpace(s[1..]);
      AllSpaceCons(s, m);
      m + 1
    else 0
  }

  lemma AllSpaceCons(s: string, m: nat)
    requires m < |s| && IsSpace(s[0]) && AllSpace(s[1..][..m])
    ensures AllSpace(s[..m + 1])
  {
    var t := s[..m + 1];
    forall k | 0 <= k < |t|
      ensures IsSpace(t[k])
    {
      if k > 0 {
        assert t[k] == s[1..][..m][k - 1];
      }
    }
  }

  /** Length of the longest all-whitespace suffix of `s`. */
  function TrailingSpace(s: string): (n: nat)
    ensures n <= |s|
    ensures AllSpace(s[|s| - n..])
    ensures n < |s| ==> !IsSpace(s[|s| - 1 - n])
  {
    if |s| > 0 && IsSpace(s[|s| - 1]) then
      var m := TrailingSpace(s[..|s| - 1]);
      AllSpaceSnoc(s, m);
      m + 1
    else 0
  }

  lemma AllSpaceSnoc(s: string, m: nat)
    requires m < |s| && IsSpace(s[|s| - 1])
    requires AllSpace(s[..|s| - 1][|s| - 1 - m..])
    ensures AllSpace(s[|s| - (m + 1)..])
  {
    var t := s[|s| - (m + 1)..];
    forall k | 0 <= k < |t|
      ensures IsSpace(t[k])
    {
      if k < m {
        assert t[k] == s[..|s| - 1][|s| - 1 - m..][k];
      }
    }
  }

  /** No whitespace at either end. */
  predicate Unpadded(s: string) {
    s == [] || (!IsSpace(s[0]) && !IsSpace(s[|s| - 1]))
  }

  /** Python's `s.strip()`: `s` without its whitespace prefix and suffix. */
  function Strip(s: string): (r: string)
    ensures LeadingSpace(s) + |r| <= |s|
    ensures r == s[LeadingSpace(s)..LeadingSpace(s) + |r|]
    ensures AllSpace(s[LeadingSpace(s) + |r|..])
    ensures Unpadded(r)
  {
    var i := LeadingSpace(s);
    var t := s[i..];
    var n := TrailingSpace(t);
    var r := t[..|t| - n];
    assert r == s[i..i + |r|];
    assert s[i + |r|..] == t[|t| - n..];
    assert r != [] ==> r[0] == s[i] && r[|r| - 1] == t[|t| - 1 - n];
    r
  }

  /** A string with no surrounding whitespace is its own strip. */
  lemma StripUnpadded(s: string)
    requires Unpadded(s)
    ensures Strip(s) == s
  {
    if s != [] {
      assert LeadingSpace(s) == 0;
      assert TrailingSpace(s) == 0;
    }
  }

  /** Number of occurrences of `c` in `s`. */
  function Occurrences(s: string, c: char): nat {
    if |s| == 0 then 0 else (if s[0] == c then 1 else 0) + Occurrences(s[1..], c)
  }

  /** `parts` glued back together with `sep` between neighbours. */
  function Join(parts: seq<string>, sep: char): string
    requires |parts| > 0
  {
    if |parts| == 1 then parts[0] else parts[0] + [sep] + Join(parts[1..], sep)
  }

  /** Python's `s.split(sep)` and JavaScript's `s.split(sep)` for a
      one-character separator: the pieces between separators, so one more
      piece than there are separators, empty pieces included. */
  function Split(s: string, sep: char): (parts: seq<string>)
    ensures |parts| == Occurrences(s, sep) + 1
    ensures forall i :: 0 <= i < |parts| ==> sep !in parts[i]
    ensures Join(parts, sep) == s
    ensures StartsWith(s, parts[0])
    ensures |parts[0]| < |s| ==> s[|parts[0]|] == sep
  {
    if |s| == 0 then [""]
    else
      var rest := Split(s[1..], sep);
      if s[0] == sep then
        assert Join([""] + rest, sep) == "" + [sep] + Join(rest, sep);
        [""] + rest
      else
        var parts := [[s[0]] + rest[0]] + rest[1..];
        JoinCons(s[0], rest, sep);
        assert s == [s[0]] + s[1..];
        assert s[1..][..|rest[0]|] == rest[0];
        assert s[..|parts[0]|] == [s[0]] + s[1..][..|rest[0]|];
        parts
  }

  /** Two separator-free pieces joined by the separator split back into those two. */
  lemma SplitTwo(a: string, b: string, sep: char)
    requires sep !in a && sep !in b
    ensures Split(a + [sep] + b, sep) == [a, b]
  {
    var parts := Split(a + [sep] + b, sep);
    SplitFree(b, sep);
    SplitFreePrefix(a, [sep] + b, sep);
    assert (a + [sep] + b)[|a|..] == [sep] + b;
  }

  /** A separator-free string is one piece. */
  lemma SplitFree(s: string, sep: char)
    requires sep !in s
    ensures Split(s, sep) == [s]
  {
    var parts := Split(s, sep);
    assert Occurrences(s, sep) == 0 by { OccurrencesAbsent(s, sep); }
    assert Join(parts, sep) == parts[0];
  }

  lemma {:induction false} OccurrencesAbsent(s: string, c: char)
    requires c !in s
    ensures Occurrences(s, c) == 0
  {
    if |s| > 0 {
      assert c !in s[1..];
      OccurrencesAbsent(s[1..], c);
    }
  }

  /** A separator-free prefix is glued onto the first piece of the rest. */
  lemma {:induction false} SplitFreePrefix(a: string, rest: string, sep: char)
    requires sep !in a && |rest| > 0 && rest[0] == sep
    ensures Split(a + rest, sep) == [a + Split(rest, sep)[0]] + Split(rest, sep)[1..]
  {
    if |a| == 0 {
      assert a + rest == rest;
      assert Split(rest, sep)[0] == "";
    } else {
      assert (a + rest)[1..] == a[1..] + rest;
      assert sep !in a[1..];
      SplitFreePrefix(a[1..], rest, sep);
      assert (a + rest)[0] == a[0];
      assert [a[0]] + (a[1..] + Split(rest, sep)[0]) == a + Split(rest, sep)[0];
    }
  }

  /** Separator-free pieces joined by the separator split back into
      themselves: `Split` inverts `Join`. */
  lemma {:induction false} SplitJoin(parts: seq<string>, sep: char)
    requires |parts| > 0
    requires forall i :: 0 <= i < |parts| ==> sep !in parts[i]
    ensures Split(Join(parts, sep), sep) == parts
    decreases |parts|
  {
    if |parts| == 1 {
      SplitFree(parts[0], sep);
    } else {
      var rest := Join(parts[1..], sep);
      SplitJoin(parts[1..], sep);
      assert ([sep] + rest)[1..] == rest;
      assert Split([sep] + rest, sep) == [""] + parts[1..];
      SplitFreePrefix(parts[0], [sep] + rest, sep);
      assert parts[0] + [sep] + rest == parts[0] + ([sep] + rest);
      assert parts[0] + "" == parts[0];
      assert [parts[0]] + parts[1..] == parts;
    }
  }

  /** Prepending a character to the first piece prepends it to the joined string. */
  lemma JoinCons(c: char, rest: seq<string>, sep: char)
    requires |rest| > 0
    ensures Join([[c] + rest[0]] + rest[1..], sep) == [c] + Join(rest, sep)
  {
    var parts := [[c] + rest[0]] + rest[1..];
    if |rest| > 1 {
      assert parts[1..] == rest[1..];
    }
  }

  /** JavaScript's ASCII case mapping for one character. */
  function UpperChar(c: char): (u: char)
    ensures 'a' <= c <= 'z' ==> 'A' <= u <= 'Z' && u as int == c as int - 32
    ensures !('a' <= c <= 'z') ==> u == c
  {
    if 'a' <= c <= 'z' then (c as int - 32) as char else c
  }

  /** `s.toUpperCase()` restricted to the ASCII letters. */
  function UpperAscii(s: string): (r: string)
    ensures |r| == |s|
    ensures forall i :: 0 <= i < |s| ==> !('a' <= r[i] <= 'z')
    ensures forall i :: 0 <= i < |s| && !('a' <= s[i] <= 'z') ==> r[i] == s[i]
  {
    seq(|s|, i requires 0 <= i < |s| => UpperChar(s[i]))
  }
}

=== FILE: tables.dfy ===
/** How PostgreSQL refuses an INSERT into the tables of this model. While it
    forms the row it converts every value to its column's type, column by
    column: a text longer than its `varchar(n)` or a number outside the
    32-bit `integer` range stops it there. Only a row that has been formed
    meets the check constraints, which are tested in the byte order of their
    names; the first one that fails is the one reported. */
module Tables {
  datatype Refusal =
    | ValueTooLong(column: string, limit: nat)
    | OutOfRange(column: string)
    | CheckViolation(constraint: string)

  const MinInteger := -0x8000_0000
  const MaxInteger := 0x7FFF_FFFF

  /** The value fits a PostgreSQL `integer` column. */
  predicate FitsInteger(x: int) {
    MinInteger <= x <= MaxInteger
  }

  /** `a` sorts strictly before `b`: it is a proper prefix of `b`, or it has
      the smaller character where the two first differ. */
  predicate Before(a: string, b: string) {
    (|a| < |b| && a == b[..|a|])
    || exists i :: 0 <= i < |a| && i < |b| && a[..i] == b[..i] && a[i] < b[i]
  }

  /** `name` is the first of `names` in that order. */
  predicate Least(name: string, names: set<string>) {
    name in names && forall m :: m in names && m != name ==> Before(name, m)
  }

  /** Two names that agree on their first `i` characters and differ at the
      next are ordered by that character. */
  lemma BeforeAt(a: string, b: string, i: nat)
    requires i < |a| && i < |b| && a[..i] == b[..i] && a[i] < b[i]
    ensures Before(a, b)
  {
  }
}

=== FILE: token_cache.dfy ===
/** The Redis-backed cache of validated tokens (backend/app/core/cache.py).
    The Redis server is a value passed in and handed back; whether it
    answers the first ping, and whether a later command raises, are
    parameters. The lapse of time, and so expiry, is not modelled: TTLs are
    recorded, never applied. */
module TokenCache {
  import opened Wrappers
  import opened Strings
  import opened HexDigest

  /** A JSON value as `json.dumps` sees it. `JOpaque` is a Python object the
      encoder refuses (a `uuid.UUID`, a `datetime`), named by its type. */
  datatype Json = JNull | JBool(b: bool) | JInt(i: int) | JStr(s: string) | JOpaque(typeName: string)

  /** A dict of JSON values: what the cache stores per token. */
  type Record = map<string, Json>

  /** `json.dumps` succeeds on the record. */
  predicate Serializable(r: Record) {
    forall k :: k in r ==> !r[k].JOpaque?
  }

  /** A stored string. `Serialized` is the JSON of a record. `OtherJson` is
      JSON of something other than a dict (a list, a number, a string, a
      boolean or null), of which the caller only asks whether it is truthy.
      `Garbage` is text that does not parse, the empty string among it. */
  datatype Stored = Serialized(record: Record) | OtherJson(truthy: bool) | Garbage(text: string)

  datatype Entry = Entry(value: Stored, ttl: int)

  /** The Redis server: its keys, and the keyspace hit and miss counters
      that GET advances. */
  datatype Server = Server(store: map<string, Entry>, hits: nat, misses: nat)

  /** The connection state of the cache object: not yet tried, connected,
      or given up on after a failed first connection. */
  datatype Connection = Untried | Connected | Unavailable

  const DefaultTtl := 900
  const KeyPrefix := "token_cache:"
  const UserKeyPrefix := "token_cache:user:"

  /** `_get_cache_key`. */
  function CacheKey(token: string): (k: string)
    ensures StartsWith(k, KeyPrefix) && IsHex(k[|KeyPrefix|..])
  {
    var k := KeyPrefix + Digest(token);
    assert k[|KeyPrefix|..] == Digest(token);
    k
  }

  /** Distinct tokens never share a cache entry. */
  lemma CacheKeyInjective(t1: string, t2: string)
    requires CacheKey(t1) == CacheKey(t2)
    ensures t1 == t2
  {
    var k1 := CacheKey(t1);
    assert k1[|KeyPrefix|..] == Digest(t1);
    assert CacheKey(t2)[|KeyPrefix|..] == Digest(t2);
    DigestInjective(t1, t2);
  }

  /** `_ensure_connection`: the first call pings the server and remembers the
      outcome for good; later calls change nothing. */
  function EnsureConnection(c: Connection, reachable: bool): (c': Connection)
    ensures c' != Untried
    ensures c != Untried ==> c' == c
    ensures c == Untried ==> (c' == Connected <==> reachable)
  {
    if c != Untried then c else if reachable then Connected else Unavailable
  }

  /** The connection is probed at most once: whatever later probes would
      say, the first outcome stands, even a failed one. */
  lemma ConnectionSettlesOnce(c: Connection, r1: bool, r2: bool)
    ensures EnsureConnection(EnsureConnection(c, r1), r2) == EnsureConnection(c, r1)
    ensures EnsureConnection(c, r1) == Unavailable ==> EnsureConnection(EnsureConnection(c, r1), r2) != Connected
  {
  }

  /** What a lookup returns: a record, or, in `other`, the truthiness of
      parsed JSON that is not a dict; at most one of the two. */
  datatype Got = Got(conn: Connection, server: Server, record: Option<Record>, other: Option<bool>)

  /** `get_user_from_cache`. `fault` says the GET raises. Whatever JSON the
      key holds is returned parsed; text that does not parse reads as a
      miss. */
  function GetUser(c: Connection, server: Server, reachable: bool, fault: bool, token: string): (g: Got)
    ensures g.conn == EnsureConnection(c, reachable)
    ensures g.record.Some? <==>
      g.conn == Connected && !fault && CacheKey(token) in server.store
      && server.store[CacheKey(token)].value.Serialized?
    ensures g.record.Some? ==> g.record.value == server.store[CacheKey(token)].value.record
    ensures g.other.Some? <==>
      g.conn == Connected && !fault && CacheKey(token) in server.store
      && server.store[CacheKey(token)].value.OtherJson?
    ensures g.other.Some? ==> g.other.value == server.store[CacheKey(token)].value.truthy
    ensures g.server.store == server.store
    ensures g.conn == Connected && !fault ==>
      (CacheKey(token) in server.store ==> g.server == server.(hits := server.hits + 1))
      && (CacheKey(token) !in server.store ==> g.server == server.(misses := server.misses + 1))
    ensures g.conn != Connected || fault ==> g.server == server
  {
    var conn := EnsureConnection(c, reachable);
    if conn != Connected || fault then Got(conn, server, None, None)
    else
      var key := CacheKey(token);
      if key !in server.store then Got(conn, server.(misses := server.misses + 1), None, None)
      else
        var counted := server.(hits := server.hits + 1);
        match server.store[key].value
        case Serialized(r) => Got(conn, counted, Some(r), None)
        case OtherJson(truthy) => Got(conn, counted, None, Some(truthy))
        case Garbage(_) => Got(conn, counted, None, None)
  }

  datatype Put = Put(conn: Connection, server: Server, ok: bool)

  /** `cache_user_data`: SETEX of the serialized record. It fails, leaving
      the server as it was, when there is no connection, when the record
      does not serialize, when the TTL is not positive (Redis refuses it) or
      when the command raises. */
  function PutUser(c: Connection, server: Server, reachable: bool, fault: bool,
                   token: string, record: Record, ttl: int): (p: Put)
    ensures p.conn == EnsureConnection(c, reachable)
    ensures p.ok <==> p.conn == Connected && !fault && Serializable(record) && ttl > 0
    ensures p.ok ==> p.server == server.(store := server.store[CacheKey(token) := Entry(Serialized(record), ttl)])
    ensures !p.ok ==> p.server == server
  {
    var conn := EnsureConnection(c, reachable);
    if conn != Connected || fault || !Serializable(record) || ttl <= 0 then Put(conn, server, false)
    else Put(conn, server.(store := server.store[CacheKey(token) := Entry(Serialized(record), ttl)]), true)
  }

  /** A successful put is read back by the next get of the same token. */
  lemma PutThenGet(c: Connection, server: Server, reachable: bool, token: string, record: Record, ttl: int)
    requires PutUser(c, server, reachable, false, token, record, ttl).ok
    ensures var p := PutUser(c, server, reachable, false, token, record, ttl);
      GetUser(p.conn, p.server, reachable, false, token).record == Some(record)
  {
  }

  /** A put for one token leaves every other token's lookup as it was. */
  lemma PutLeavesOtherTokens(c: Connection, server: Server, reachable: bool, fault: bool,
                             token: string, record: Record, ttl: int, other: string)
    requires other != token
    ensures var p := PutUser(c, server, reachable, fault, token, record, ttl);
      GetUser(p.conn, p.server, reachable, false, other).record
      == GetUser(p.conn, server, reachable, false, other).record
  {
    if CacheKey(other) == CacheKey(token) {
      CacheKeyInjective(other, token);
    }
  }

  datatype Invalidated = Invalidated(conn: Connection, server: Server, ok: bool)

  /** `invalidate_token`: DEL of the token's key; true iff a key was removed. */
  function InvalidateToken(c: Connection, server: Server, reachable: bool, fault: bool, token: string): (v: Invalidated)
    ensures v.conn == EnsureConnection(c, reachable)
    ensures v.ok <==> v.conn == Connected && !fault && CacheKey(token) in server.store
    ensures v.conn == Connected && !fault ==>
      v.server == server.(store := server.store - {CacheKey(token)})
    ensures v.conn != Connected || fault ==> v.server == server
  {
    var conn := EnsureConnection(c, reachable);
    if conn != Connected || fault then Invalidated(conn, server, false)
    else
      var key := CacheKey(token);
      Invalidated(conn, server.(store := server.store - {key}), key in server.store)
  }

  /** Invalidation after a put removes the entry: the next lookup misses. */
  lemma PutInvalidateGet(c: Connection, server: Server, reachable: bool, token: string, record: Record, ttl: int)
    requires PutUser(c, server, reachable, false, token, record, ttl).ok
    ensures var p := PutUser(c, server, reachable, false, token, record, ttl);
      var v := InvalidateToken(p.conn, p.server, reachable, false, token);
      v.ok && GetUser(v.conn, v.server, reachable, false, token).record == None
      && GetUser(v.conn, v.server, reachable, false, token).other == None
  {
  }

  /** The keys SCAN returns for `token_cache:user:<id>:*`, glob
      metacharacters in the id aside. */
  function UserKeys(store: map<string, Entry>, userId: string): set<string> {
    set k | k in store && StartsWith(k, UserKeyPrefix + userId + ":")
  }

  datatype Swept = Swept(conn: Connection, server: Server, count: nat)

  /** `invalidate_user_tokens`: delete every key under the user's prefix and
      report how many went. */
  function InvalidateUserTokens(c: Connection, server: Server, reachable: bool, fault: bool, userId: string): (w: Swept)
    ensures w.conn == EnsureConnection(c, reachable)
    ensures w.conn == Connected && !fault ==>
      w.count == |UserKeys(server.store, userId)|
      && w.server.store.Keys == server.store.Keys - UserKeys(server.store, userId)
      && forall k :: k in w.server.store ==> w.server.store[k] == server.store[k]
    ensures w.conn != Connected || fault ==> w.count == 0 && w.server == server
  {
    var conn := EnsureConnection(c, reachable);
    if conn != Connected || fault then Swept(conn, server, 0)
    else
      var doomed := UserKeys(server.store, userId);
      var kept := map k | k in server.store && k !in doomed :: server.store[k];
      Swept(conn, server.(store := kept), |doomed|)
  }

  /** The per-user pattern can never match a key the cache writes: after
      `token_cache:` every written key continues in hex digits, and `u` is
      not one. A per-user sweep therefore leaves every cached token in
      place. */
  lemma UserSweepMissesTokenKeys(c: Connection, server: Server, reachable: bool, fault: bool,
                                 userId: string, token: string)
    requires CacheKey(token) in server.store
    ensures var w := InvalidateUserTokens(c, server, reachable, fault, userId);
      CacheKey(token) in w.server.store && w.server.store[CacheKey(token)] == server.store[CacheKey(token)]
  {
    var k := CacheKey(token);
    var p := UserKeyPrefix + userId + ":";
    assert p[|KeyPrefix|] == 'u';
    assert |k| > |KeyPrefix| ==> IsHexDigit(k[|KeyPrefix|]) by {
      if |k| > |KeyPrefix| {
        assert k[|KeyPrefix|..][0] == k[|KeyPrefix|];
      }
    }
    assert !StartsWith(k, p);
    assert k !in UserKeys(server.store, userId);
  }

  datatype Stats =
    | StatsUnavailable
    | Available(hits: nat, misses: nat, hitRatePercent: real, total: nat)
    | StatsError

  /** `get_cache_stats`: the server's counters and the hit rate in percent
      (zero when nothing was looked up). Rounding to two decimals is not
      modelled. */
  function GetStats(c: Connection, server: Server, reachable: bool, fault: bool): (s: Stats)
    ensures s.StatsUnavailable? <==> EnsureConnection(c, reachable) != Connected
    ensures s.StatsError? <==> EnsureConnection(c, reachable) == Connected && fault
    ensures s.Available? ==>
      s.hits == server.hits && s.misses == server.misses && s.total == s.hits + s.misses
      && 0.0 <= s.hitRatePercent <= 100.0
      && (s.hitRatePercent == 0.0 <==> s.hits == 0)
      && (s.hitRatePercent == 100.0 <==> s.total > 0 && s.misses == 0)
      && (s.total > 0 ==> s.hitRatePercent * (s.total as real) == 100.0 * (s.hits as real))
  {
    if EnsureConnection(c, reachable) != Connected then StatsUnavailable
    else if fault then StatsError
    else
      var total := server.hits + server.misses;
      var rate := if total > 0 then (server.hits as real) / (total as real) * 100.0 else 0.0;
      Available(server.hits, server.misses, rate, total)
  }

  /** Every answered lookup is counted once, as a hit or as a miss. */
  lemma LookupCounted(c: Connection, server: Server, reachable: bool, token: string)
    requires EnsureConnection(c, reachable) == Connected
    ensures var g := GetUser(c, server, reachable, false, token);
      var before := GetStats(c, server, reachable, false);
      var after := GetStats(g.conn, g.server, reachable, false);
      after.total == before.total + 1
      && (g.record.Some? ==> after.hits == before.hits + 1)
  {
  }
}

=== FILE: ui_store.dfy ===
/** The `useUIStore` store (frontend/src/stores/ui-store.ts): four fields and
    six actions, each a partial update of one field. The store is a value;
    an action maps one state to the next. */
module UiStore {
  import opened Wrappers

  datatype UIState = UIState(
    sidebarOpen: bool,
    chatOpen: bool,
    isRecording: bool,
    currentSessionId: Option<string>)

  datatype Action =
    | ToggleSidebar
    | SetSidebarOpen(open: bool)
    | ToggleChat
    | SetChatOpen(open: bool)
    | SetRecording(recording: bool)
    | SetCurrentSessionId(sessionId: Option<string>)

  const Initial := UIState(true, false, false, None)

  predicate TouchesSidebar(a: Action) {
    a.ToggleSidebar? || a.SetSidebarOpen?
  }

  predicate TouchesChat(a: Action) {
    a.ToggleChat? || a.SetChatOpen?
  }

  /** `set(...)` merges the partial state, so each action changes its own
      field and keeps the other three. */
  function Apply(s: UIState, a: Action): (t: UIState)
    ensures !TouchesSidebar(a) ==> t.sidebarOpen == s.sidebarOpen
    ensures !TouchesChat(a) ==> t.chatOpen == s.chatOpen
    ensures !a.SetRecording? ==> t.isRecording == s.isRecording
    ensures !a.SetCurrentSessionId? ==> t.currentSessionId == s.currentSessionId
    ensures a.ToggleSidebar? ==> t.sidebarOpen != s.sidebarOpen
    ensures a.ToggleChat? ==> t.chatOpen != s.chatOpen
    ensures a.SetSidebarOpen? ==> t.sidebarOpen == a.open
    ensures a.SetChatOpen? ==> t.chatOpen == a.open
    ensures a.SetRecording? ==> t.isRecording == a.recording
    ensures a.SetCurrentSessionId? ==> t.currentSessionId == a.sessionId
  {
    match a
    case ToggleSidebar => s.(sidebarOpen := !s.sidebarOpen)
    case SetSidebarOpen(open) => s.(sidebarOpen := open)
    case ToggleChat => s.(chatOpen := !s.chatOpen)
    case SetChatOpen(open) => s.(chatOpen := open)
    case SetRecording(recording) => s.(isRecording := recording)
    case SetCurrentSessionId(id) => s.(currentSessionId := id)
  }

  /** A sequence of actions, first to last. */
  function Run(s: UIState, actions: seq<Action>): UIState
    decreases |actions|
  {
    if |actions| == 0 then s else Run(Apply(s, actions[0]), actions[1..])
  }

  /** The store starts with the sidebar open, the chat closed, no recording
      and no session. */
  lemma InitialState()
    ensures Initial.sidebarOpen && !Initial.chatOpen && !Initial.isRecording
    ensures Initial.currentSessionId.None?
  {
  }

  /** Toggling twice restores the whole state. */
  lemma ToggleTwice(s: UIState)
    ensures Apply(Apply(s, ToggleSidebar), ToggleSidebar) == s
    ensures Apply(Apply(s, ToggleChat), ToggleChat) == s
  {
  }

  /** Every setter is idempotent. */
  lemma SettersIdempotent(s: UIState, a: Action)
    requires !a.ToggleSidebar? && !a.ToggleChat?
    ensures Apply(Apply(s, a), a) == Apply(s, a)
  {
  }

  /** Actions on different fields commute. */
  lemma DifferentFieldsCommute(s: UIState, a: Action, b: Action)
    requires !(TouchesSidebar(a) && TouchesSidebar(b)) && !(TouchesChat(a) && TouchesChat(b))
    requires !(a.SetRecording? && b.SetRecording?)
    requires !(a.SetCurrentSessionId? && b.SetCurrentSessionId?)
    ensures Apply(Apply(s, a), b) == Apply(Apply(s, b), a)
  {
  }

  /** The number of toggles among the actions. */
  function SidebarToggles(actions: seq<Action>): nat
    decreases |actions|
  {
    if |actions| == 0 then 0
    else (if actions[0].ToggleSidebar? then 1 else 0) + SidebarToggles(actions[1..])
  }

  /** With no explicit `setSidebarOpen`, the sidebar is open after a run
      exactly when it was open before and the number of toggles is even, or
      closed and the number is odd; the chat flag, the recording flag and the
      session do not matter. */
  lemma {:induction false} SidebarParity(s: UIState, actions: seq<Action>)
    requires forall i :: 0 <= i < |actions| ==> !actions[i].SetSidebarOpen?
    ensures Run(s, actions).sidebarOpen == (if SidebarToggles(actions) % 2 == 0 then s.sidebarOpen else !s.sidebarOpen)
    decreases |actions|
  {
    if |actions| > 0 {
      assert forall i :: 0 <= i < |actions[1..]| ==> actions[1..][i] == actions[i + 1];
      SidebarParity(Apply(s, actions[0]), actions[1..]);
    }
  }

  /** Actions that do not touch the chat leave the chat flag as it was,
      however many there are. */
  lemma {:induction false} ChatUntouched(s: UIState, actions: seq<Action>)
    requires forall i :: 0 <= i < |actions| ==> !TouchesChat(actions[i])
    ensures Run(s, actions).chatOpen == s.chatOpen
    decreases |actions|
  {
    if |actions| > 0 {
      assert forall i :: 0 <= i < |actions[1..]| ==> actions[1..][i] == actions[i + 1];
      ChatUntouched(Apply(s, actions[0]), actions[1..]);
    }
  }
}

=== FILE: user_menu.dfy ===
/** The avatar initials of the user menu (frontend/src/components/layout/user-menu.tsx):
    split the name on single spaces, take each segment's first character,
    join and upper-case. An empty segment has no first character and adds
    nothing. */
module UserMenu {
  import opened Strings

  /** `segments.map(n => n[0]).join('')`. */
  function FirstChars(segments: seq<string>): (r: string)
    ensures |r| <= |segments|
    ensures segments != [] && segments[0] != [] ==> r != [] && r[0] == segments[0][0]
    ensures forall k :: 0 <= k < |r| ==> exists i :: 0 <= i < |segments| && segments[i] != [] && r[k] == segments[i][0]
    decreases |segments|
  {
    if |segments| == 0 then ""
    else
      var rest := FirstChars(segments[1..]);
      var head := if segments[0] == [] then "" else [segments[0][0]];
      assert forall k :: 0 <= k < |rest| ==> exists i :: 0 <= i < |segments| && segments[i] != [] && rest[k] == segments[i][0] by {
        forall k | 0 <= k < |rest|
          ensures exists i :: 0 <= i < |segments| && segments[i] != [] && rest[k] == segments[i][0]
        {
          var i :| 0 <= i < |segments[1..]| && segments[1..][i] != [] && rest[k] == segments[1..][i][0];
          assert segments[i + 1] == segments[1..][i];
        }
      }
      assert forall k :: 0 <= k < |head + rest| && k >= |head| ==> (head + rest)[k] == rest[k - |head|];
      head + rest
  }

  function Initials(name: string): (r: string)
    ensures |r| <= Occurrences(name, ' ') + 1
    ensures forall k :: 0 <= k < |r| ==> !('a' <= r[k] <= 'z') && r[k] != ' '
    ensures name != [] && name[0] != ' ' ==> r != [] && r[0] == UpperChar(name[0])
  {
    var segments := Split(name, ' ');
    assert name != [] && name[0] != ' ' ==> segments[0] != [] && segments[0][0] == name[0];
    var firsts := FirstChars(segments);
    forall k | 0 <= k < |firsts|
      ensures firsts[k] != ' '
    {
      var i :| 0 <= i < |segments| && segments[i] != [] && firsts[k] == segments[i][0];
    }
    UpperAscii(firsts)
  }

  /** An empty segment, as between two adjacent spaces, adds nothing. */
  lemma {:induction false} EmptySegmentsIgnored(before: seq<string>, after: seq<string>)
    ensures FirstChars(before + [""] + after) == FirstChars(before + after)
    decreases |before|
  {
    if |before| == 0 {
      assert before + [""] + after == [""] + after;
      assert ([""] + after)[1..] == after;
      assert before + after == after;
    } else {
      assert (before + [""] + after)[1..] == before[1..] + [""] + after;
      assert (before + after)[1..] == before[1..] + after;
      EmptySegmentsIgnored(before[1..], after);
    }
  }

  /** The initials of two lists of segments are those of each, in order. */
  lemma {:induction false} FirstCharsAppend(a: seq<string>, b: seq<string>)
    ensures FirstChars(a + b) == FirstChars(a) + FirstChars(b)
    decreases |a|
  {
    if |a| == 0 {
      assert a + b == b;
    } else {
      assert (a + b)[1..] == a[1..] + b;
      FirstCharsAppend(a[1..], b);
    }
  }

  /** One segment gives its first character, or nothing when it is empty.
      With `FirstCharsAppend` this fixes `FirstChars` on every list. */
  lemma FirstCharsOne(s: string)
    ensures FirstChars([s]) == (if s == [] then "" else [s[0]])
  {
  }

  /** Non-empty segments give their first characters, one each, in order. */
  lemma {:induction false} FirstCharsOfWords(words: seq<string>)
    requires forall i :: 0 <= i < |words| ==> words[i] != []
    ensures FirstChars(words) == seq(|words|, i requires 0 <= i < |words| => words[i][0])
    decreases |words|
  {
    if |words| > 0 {
      FirstCharsOfWords(words[1..]);
      assert words == [words[0]] + words[1..];
      FirstCharsAppend([words[0]], words[1..]);
      FirstCharsOne(words[0]);
    }
  }

  /** A name of words separated by single spaces gives the upper-cased
      first letter of every word, in order. */
  lemma InitialsOfWords(words: seq<string>)
    requires |words| > 0
    requires forall i :: 0 <= i < |words| ==> words[i] != [] && ' ' !in words[i]
    ensures Initials(Join(words, ' ')) == UpperAscii(seq(|words|, i requires 0 <= i < |words| => words[i][0]))
  {
    SplitJoin(words, ' ');
    FirstCharsOfWords(words);
  }

  /** A first and a last name give their two first letters, upper-cased. */
  lemma TwoNames(first: string, last: string)
    requires first != [] && last != [] && ' ' !in first && ' ' !in last
    ensures Initials(first + " " + last) == UpperAscii([first[0], last[0]])
  {
    var words := [first, last];
    assert Join(words, ' ') == first + " " + last by {
      assert Join(words[1..], ' ') == last;
    }
    InitialsOfWords(words);
    assert seq(|words|, i requires 0 <= i < |words| => words[i][0]) == [first[0], last[0]];
  }

  /** The menu's placeholder user. */
  lemma JohnDoe()
    ensures Initials("John Doe") == "JD"
  {
    TwoNames("John", "Doe");
    assert "John" + " " + "Doe" == "John Doe";
  }
}

=== FILE: user_schemas.dfy ===
/** The user request and response schemas (backend/app/schemas/user.py) as
    validators over a JSON body. E-mail and URL checking belong to the
    validation library and enter as normalisers; fields outside the schema
    are ignored, as the schemas' default configuration does. */
module UserSchemas {
  import opened Wrappers
  import opened Strings
  import opened Users

  /** One field of an incoming JSON body: a number written without a
      fraction is a `Number`, one written with a fraction or an exponent a
      `Float`. */
  datatype Field = Absent | Null | Text(s: string) | Number(n: int) | Float(x: real) | Bool(b: bool)

  type Body = map<string, Field>

  /** A syntax check on a string. */
  type Syntax = string -> bool

  /** A check supplied by the validation library that also normalises: the
      text the field holds once accepted, or `None` when it is refused.
      `EmailStr` and `HttpUrl` both work this way (the e-mail's domain is
      lower-cased, a URL gains its canonical form). */
  type Normalizer = string -> Option<string>

  const Providers: set<string> := {"google", "github"}
  const MaxLength := 255

  function FieldOf(b: Body, k: string): Field {
    if k in b then b[k] else Absent
  }

  predicate FitsColumn(s: string) {
    |s| <= MaxLength
  }

  predicate IsProvider(s: string) {
    s in Providers
  }

  function Accepts(norm: Normalizer): Syntax {
    s => norm(s).Some?
  }

  /** Text the normaliser leaves as it is: the form an accepted value has. */
  predicate Normal(norm: Normalizer, s: string) {
    norm(s) == Some(s)
  }

  /** Normalising twice gives what normalising once gave. */
  ghost predicate Settled(norm: Normalizer) {
    forall s :: norm(s).Some? ==> Normal(norm, norm(s).value)
  }

  /** A required string field: present, a string, and accepted by `ok`. */
  predicate RequiredOk(f: Field, ok: Syntax) {
    f.Text? && ok(f.s)
  }

  /** An optional string field: absent, null, or a string accepted by `ok`. */
  predicate OptionalOk(f: Field, ok: Syntax) {
    f.Absent? || f.Null? || (f.Text? && ok(f.s))
  }

  function OptionalValue(f: Field): Option<string> {
    if f.Text? then Some(f.s) else None
  }

  /** An optional field after normalisation; `None` when it was left out,
      null, or refused. */
  function OptionalNormal(f: Field, norm: Normalizer): Option<string> {
    if f.Text? then norm(f.s) else None
  }

  /** A validated `UserCreate`. */
  datatype UserCreate = UserCreate(
    email: string,
    name: Option<string>,
    avatarUrl: Option<string>,
    oauthProvider: string,
    oauthId: string)

  /** The constraints of `UserBase` and `UserCreate` on a built value: the
      e-mail and the avatar are in their normal forms. */
  predicate ValidCreate(u: UserCreate, emailOf: Normalizer, urlOf: Normalizer) {
    Normal(emailOf, u.email)
    && (u.name.Some? ==> FitsColumn(u.name.value))
    && (u.avatarUrl.Some? ==> Normal(urlOf, u.avatarUrl.value))
    && IsProvider(u.oauthProvider)
    && FitsColumn(u.oauthId)
  }

  const CreateFields: set<string> := {"email", "name", "avatar_url", "oauth_provider", "oauth_id"}

  /** Whether the body's field `k` passes its `UserCreate` rule. */
  predicate CreateFieldOk(b: Body, k: string, emailOf: Normalizer, urlOf: Normalizer) {
    match k
    case "email" => RequiredOk(FieldOf(b, k), Accepts(emailOf))
    case "name" => OptionalOk(FieldOf(b, k), FitsColumn)
    case "avatar_url" => OptionalOk(FieldOf(b, k), Accepts(urlOf))
    case "oauth_provider" => RequiredOk(FieldOf(b, k), IsProvider)
    case "oauth_id" => RequiredOk(FieldOf(b, k), FitsColumn)
    case _ => true
  }

  /** `UserCreate(**body)`: the value, or the names of the fields that
      failed. The e-mail and avatar are kept in the library's normal form,
      which is what the upsert then looks up and stores. */
  function ParseUserCreate(b: Body, emailOf: Normalizer, urlOf: Normalizer): (r: Result<UserCreate, set<string>>)
    ensures r.Ok? <==> forall k :: k in CreateFields ==> CreateFieldOk(b, k, emailOf, urlOf)
    ensures r.Ok? ==>
      FieldOf(b, "email").Text? && emailOf(FieldOf(b, "email").s) == Some(r.value.email)
      && r.value.name == OptionalValue(FieldOf(b, "name"))
      && r.value.avatarUrl == OptionalNormal(FieldOf(b, "avatar_url"), urlOf)
      && FieldOf(b, "oauth_provider") == Text(r.value.oauthProvider)
      && FieldOf(b, "oauth_id") == Text(r.value.oauthId)
    ensures r.Ok? && Settled(emailOf) && Settled(urlOf) ==> ValidCreate(r.value, emailOf, urlOf)
    ensures r.Err? ==> r.error != {} && forall k :: k in r.error <==> k in CreateFields && !CreateFieldOk(b, k, emailOf, urlOf)
  {
    var failed := set k | k in CreateFields && !CreateFieldOk(b, k, emailOf, urlOf);
    if failed != {} then Err(failed)
    else
      assert forall k :: k in CreateFields ==> k !in failed;
      assert CreateFieldOk(b, "email", emailOf, urlOf) && CreateFieldOk(b, "name", emailOf, urlOf)
        && CreateFieldOk(b, "avatar_url", emailOf, urlOf) && CreateFieldOk(b, "oauth_provider", emailOf, urlOf)
        && CreateFieldOk(b, "oauth_id", emailOf, urlOf);
      Ok(UserCreate(emailOf(FieldOf(b, "email").s).value, OptionalValue(FieldOf(b, "name")),
                    OptionalNormal(FieldOf(b, "avatar_url"), urlOf), FieldOf(b, "oauth_provider").s,
                    FieldOf(b, "oauth_id").s))
  }

  /** Two bodies whose e-mails normalise alike give the same address, so the
      upsert's lookup by e-mail finds the same row for both spellings. */
  lemma SpellingsShareAddress(b1: Body, b2: Body, emailOf: Normalizer, urlOf: Normalizer)
    requires ParseUserCreate(b1, emailOf, urlOf).Ok? && ParseUserCreate(b2, emailOf, urlOf).Ok?
    requires emailOf(FieldOf(b1, "email").s) == emailOf(FieldOf(b2, "email").s)
    ensures ParseUserCreate(b1, emailOf, urlOf).value.email == ParseUserCreate(b2, emailOf, urlOf).value.email
  {
  }

  function OptionalField(v: Option<string>): Field {
    match v
    case Some(s) => Text(s)
    case None => Null
  }

  /** The JSON body a client sends for a value. */
  function Dump(u: UserCreate): Body {
    map["email" := Text(u.email), "name" := OptionalField(u.name), "avatar_url" := OptionalField(u.avatarUrl),
        "oauth_provider" := Text(u.oauthProvider), "oauth_id" := Text(u.oauthId)]
  }

  /** Every valid value survives the trip through its JSON body. */
  lemma ParseDump(u: UserCreate, emailOf: Normalizer, urlOf: Normalizer)
    requires ValidCreate(u, emailOf, urlOf)
    ensures ParseUserCreate(Dump(u), emailOf, urlOf) == Ok(u)
  {
    var b := Dump(u);
    assert OptionalValue(FieldOf(b, "name")) == u.name;
    assert OptionalNormal(FieldOf(b, "avatar_url"), urlOf) == u.avatarUrl;
    forall k | k in CreateFields
      ensures CreateFieldOk(b, k, emailOf, urlOf)
    {
    }
  }

  /** A provider other than google or github is refused, whatever else the
      body holds. */
  lemma OtherProviderRejected(b: Body, emailOf: Normalizer, urlOf: Normalizer)
    requires FieldOf(b, "oauth_provider") == Text("facebook")
    ensures var r := ParseUserCreate(b, emailOf, urlOf);
      r.Err? && "oauth_provider" in r.error
  {
    assert !CreateFieldOk(b, "oauth_provider", emailOf, urlOf);
  }

  /** A body with only an e-mail lacks both OAuth fields. */
  lemma EmailOnlyRejected(email: string, emailOf: Normalizer, urlOf: Normalizer)
    ensures var r := ParseUserCreate(map["email" := Text(email)], emailOf, urlOf);
      r.Err? && "oauth_provider" in r.error && "oauth_id" in r.error
  {
    var b := map["email" := Text(email)];
    assert !CreateFieldOk(b, "oauth_provider", emailOf, urlOf);
    assert !CreateFieldOk(b, "oauth_id", emailOf, urlOf);
  }

  /** Name and avatar may be left out; they become `None`, and the e-mail
      is kept in its normal form. */
  lemma OptionalFieldsDefaultToNone(email: string, provider: string, oauthId: string, emailOf: Normalizer, urlOf: Normalizer)
    requires emailOf(email).Some? && provider in Providers && |oauthId| <= MaxLength
    ensures var r := ParseUserCreate(map["email" := Text(email), "oauth_provider" := Text(provider),
                                         "oauth_id" := Text(oauthId)], emailOf, urlOf);
      r == Ok(UserCreate(emailOf(email).value, None, None, provider, oauthId))
  {
    var b := map["email" := Text(email), "oauth_provider" := Text(provider), "oauth_id" := Text(oauthId)];
    forall k | k in CreateFields
      ensures CreateFieldOk(b, k, emailOf, urlOf)
    {
    }
  }

  predicate IsDigit(c: char) {
    '0' <= c <= '9'
  }

  predicate AllDigits(s: string) {
    forall i :: 0 <= i < |s| ==> IsDigit(s[i])
  }

  /** The value of a run of decimal digits, most significant first. */
  function DigitsValue(s: string): nat
    requires AllDigits(s)
  {
    if |s| == 0 then 0 else 10 * DigitsValue(s[..|s| - 1]) + (s[|s| - 1] as int - '0' as int)
  }

  /** The decimal digits of `n`, without leading zeros. */
  function Digits(n: nat): (s: string)
    ensures |s| > 0 && AllDigits(s) && DigitsValue(s) == n
  {
    var d := [(n % 10 + '0' as int) as char];
    if n < 10 then d
    else
      var t := Digits(n / 10);
      assert (t + d)[..|t + d| - 1] == t;
      t + d
  }

  /** `str(n)` for an integer. */
  function IntText(n: int): string {
    if n < 0 then "-" + Digits(-n) else Digits(n)
  }

  /** An optional sign and at least one decimal digit, read as an integer. */
  function ReadSigned(s: string): Option<int> {
    if |s| > 1 && (s[0] == '-' || s[0] == '+') && AllDigits(s[1..]) then
      var v: int := DigitsValue(s[1..]);
      Some(if s[0] == '-' then -v else v)
    else if |s| > 0 && AllDigits(s) then Some(DigitsValue(s))
    else None
  }

  /** The position of the first `.` in `s`, or `|s|` when there is none. */
  function DotAt(s: string): (i: nat)
    ensures i <= |s|
    ensures i < |s| ==> s[i] == '.'
    ensures forall k :: 0 <= k < i ==> s[k] != '.'
  {
    if |s| == 0 || s[0] == '.' then 0 else 1 + DotAt(s[1..])
  }

  /** A decimal point followed only by zeros is dropped, with the zeros: the
      library reads `5.` and `5.00` as `5`. */
  function DropDecimalZeros(s: string): string {
    var i := DotAt(s);
    if i < |s| && forall k :: i < k < |s| ==> s[k] == '0' then s[..i] else s
  }

  /** The library's integer syntax: the sign and digits once any decimal
      zeros are dropped. */
  function ReadInt(s: string): Option<int> {
    ReadSigned(DropDecimalZeros(s))
  }

  /** The library's reading of text as an integer: surrounding white space
      is stripped, then the integer syntax is read. */
  function IntOfText(t: string): Option<int> {
    ReadInt(Strip(t))
  }

  predicate AllZeros(z: string) {
    forall k :: 0 <= k < |z| ==> z[k] == '0'
  }

  /** Dot-free text keeps its value under `DropDecimalZeros`, and loses a
      trailing point and zeros. */
  lemma DropDecimalZerosOf(t: string, z: string)
    requires forall k :: 0 <= k < |t| ==> t[k] != '.'
    requires AllZeros(z)
    ensures DropDecimalZeros(t) == t
    ensures DropDecimalZeros(t + "." + z) == t
  {
    var s := t + "." + z;
    var i := DotAt(s);
    assert s[|t|] == '.';
    assert i == |t|;
    forall k | i < k < |s|
      ensures s[k] == '0'
    {
      assert s[k] == z[k - |t| - 1];
    }
    assert s[..i] == t;
  }

  /** Integer text holds no decimal point. */
  lemma IntTextNoDot(n: int)
    ensures forall k :: 0 <= k < |IntText(n)| ==> IntText(n)[k] != '.'
  {
    var t := IntText(n);
    var s := Digits(if n < 0 then -n else n);
    forall k | 0 <= k < |t|
      ensures t[k] != '.'
    {
      if n < 0 && k > 0 {
        assert t[k] == s[k - 1];
      }
    }
  }

  lemma ReadSignedText(n: int)
    ensures ReadSigned(IntText(n)) == Some(n)
  {
    if n < 0 {
      assert IntText(n)[1..] == Digits(-n);
    }
  }

  lemma ReadIntText(n: int)
    ensures ReadInt(IntText(n)) == Some(n)
  {
    IntTextNoDot(n);
    DropDecimalZerosOf(IntText(n), "");
    ReadSignedText(n);
  }

  /** Integer text begins and ends with a digit or a minus sign, never with
      white space. */
  lemma IntTextUnpadded(n: int)
    ensures |IntText(n)| > 0 && !IsSpace(IntText(n)[0]) && !IsSpace(IntText(n)[|IntText(n)| - 1])
  {
    var t := IntText(n);
    var s := Digits(if n < 0 then -n else n);
    assert t[|t| - 1] == s[|s| - 1];
    assert IsDigit(t[|t| - 1]);
    assert t[0] == '-' || IsDigit(t[0]);
  }

  /** The integer text of any integer, padded with white space or not, reads
      back as that integer. */
  lemma IntTextRoundTrip(n: int, pad: string)
    requires AllSpace(pad)
    ensures IntOfText(IntText(n)) == Some(n)
    ensures IntOfText(pad + IntText(n) + pad) == Some(n)
  {
    IntTextUnpadded(n);
    StripUnpadded(IntText(n));
    StripPadded(pad, IntText(n));
    ReadIntText(n);
  }

  /** The integer text of any integer with a decimal point and any run of
      zeros appended (`5.`, `5.0`, `5.000`) reads back as that integer. */
  lemma DecimalZerosRoundTrip(n: int, z: string)
    requires AllZeros(z)
    ensures IntOfText(IntText(n) + "." + z) == Some(n)
  {
    var t := IntText(n) + "." + z;
    IntTextUnpadded(n);
    assert t[0] == IntText(n)[0];
    assert t[|t| - 1] == '.' || t[|t| - 1] == '0';
    StripUnpadded(t);
    IntTextNoDot(n);
    DropDecimalZerosOf(IntText(n), z);
    ReadSignedText(n);
  }

  /** Stripping removes equal white space from both ends of text that has
      none of its own at either end. */
  lemma StripPadded(pad: string, t: string)
    requires AllSpace(pad) && |t| > 0 && !IsSpace(t[0]) && !IsSpace(t[|t| - 1])
    ensures Strip(pad + t + pad) == t
  {
    var u := pad + t + pad;
    assert u == pad + (t + pad);
    LeadingSpaceOf(pad, t + pad);
    assert u[|pad|..] == t + pad;
    TrailingSpaceOf(t, pad);
  }

  lemma {:induction false} LeadingSpaceOf(pad: string, rest: string)
    requires AllSpace(pad) && |rest| > 0 && !IsSpace(rest[0])
    ensures LeadingSpace(pad + rest) == |pad|
  {
    if |pad| > 0 {
      assert (pad + rest)[1..] == pad[1..] + rest;
      LeadingSpaceOf(pad[1..], rest);
    }
  }

  lemma {:induction false} TrailingSpaceOf(rest: string, pad: string)
    requires AllSpace(pad) && |rest| > 0 && !IsSpace(rest[|rest| - 1])
    ensures TrailingSpace(rest + pad) == |pad|
  {
    if |pad| > 0 {
      assert (rest + pad)[..|rest + pad| - 1] == rest + pad[..|pad| - 1];
      TrailingSpaceOf(rest, pad[..|pad| - 1]);
    }
  }

  /** pydantic's lax integer: an integer; a boolean as 0 or 1; a float with
      no fractional part; integer text. */
  function LaxInt(f: Field): (r: Option<int>)
    ensures f.Number? ==> r == Some(f.n)
    ensures f.Bool? ==> r == Some(if f.b then 1 else 0)
    ensures f.Float? ==> (r.Some? <==> f.x == f.x.Floor as real) && (r.Some? ==> r.value as real == f.x)
    ensures f.Text? ==> r == IntOfText(f.s)
    ensures f.Absent? || f.Null? ==> r.None?
  {
    match f
    case Number(n) => Some(n)
    case Bool(b) => Some(if b then 1 else 0)
    case Float(x) => if x == x.Floor as real then Some(x.Floor) else None
    case Text(s) => IntOfText(s)
    case _ => None
  }

  /** A validated `TokenPayload`. */
  datatype TokenPayload = TokenPayload(sub: string, exp: int, iat: int)

  /** `TokenPayload(**claims)`: `sub` must be a string, `exp` and `iat`
      integers in the lax sense, all three present. */
  function ParseTokenPayload(b: Body): (r: Result<TokenPayload, set<string>>)
    ensures r.Ok? <==>
      FieldOf(b, "sub").Text? && LaxInt(FieldOf(b, "exp")).Some? && LaxInt(FieldOf(b, "iat")).Some?
    ensures r.Ok? ==>
      Text(r.value.sub) == FieldOf(b, "sub")
      && Some(r.value.exp) == LaxInt(FieldOf(b, "exp")) && Some(r.value.iat) == LaxInt(FieldOf(b, "iat"))
    ensures r.Err? ==>
      ("sub" in r.error <==> !FieldOf(b, "sub").Text?)
      && ("exp" in r.error <==> LaxInt(FieldOf(b, "exp")).None?)
      && ("iat" in r.error <==> LaxInt(FieldOf(b, "iat")).None?)
  {
    var exp := LaxInt(FieldOf(b, "exp"));
    var iat := LaxInt(FieldOf(b, "iat"));
    var failed := (if FieldOf(b, "sub").Text? then {} else {"sub"})
      + (if exp.Some? then {} else {"exp"})
      + (if iat.Some? then {} else {"iat"});
    if failed == {} then Ok(TokenPayload(FieldOf(b, "sub").s, exp.value, iat.value))
    else Err(failed)
  }

  /** The claims a token carries for a payload. */
  function DumpPayload(p: TokenPayload): Body {
    map["sub" := Text(p.sub), "exp" := Number(p.exp), "iat" := Number(p.iat)]
  }

  /** Every payload survives the trip through its claims, and equally when
      the timestamps travel as text or as whole floats. */
  lemma ParseDumpPayload(p: TokenPayload)
    ensures ParseTokenPayload(DumpPayload(p)) == Ok(p)
    ensures ParseTokenPayload(map["sub" := Text(p.sub), "exp" := Text(IntText(p.exp)), "iat" := Text(IntText(p.iat))]) == Ok(p)
    ensures ParseTokenPayload(map["sub" := Text(p.sub), "exp" := Float(p.exp as real), "iat" := Number(p.iat)]) == Ok(p)
  {
    ParsedFrom(DumpPayload(p), p);
    TextClaimsParse(p);
    var b := map["sub" := Text(p.sub), "exp" := Float(p.exp as real), "iat" := Number(p.iat)];
    assert LaxInt(FieldOf(b, "exp")) == Some(p.exp);
    ParsedFrom(b, p);
  }

  lemma TextClaimsParse(p: TokenPayload)
    ensures ParseTokenPayload(map["sub" := Text(p.sub), "exp" := Text(IntText(p.exp)), "iat" := Text(IntText(p.iat))]) == Ok(p)
  {
    IntTextRoundTrip(p.exp, "");
    IntTextRoundTrip(p.iat, "");
    TextTimestampsParse(p, IntText(p.exp), IntText(p.iat));
  }

  /** Timestamps sent as text with decimal zeros (`"1700000000.0"`, `"5."`)
      are accepted as the integers they spell. */
  lemma DecimalZeroTimestampsAccepted(p: TokenPayload)
    ensures ParseTokenPayload(map["sub" := Text(p.sub), "exp" := Text(IntText(p.exp) + ".0"),
                                  "iat" := Text(IntText(p.iat) + ".")]) == Ok(p)
  {
    DecimalZerosRoundTrip(p.exp, "0");
    DecimalZerosRoundTrip(p.iat, "");
    assert IntText(p.exp) + ".0" == IntText(p.exp) + "." + "0";
    assert IntText(p.iat) + "." == IntText(p.iat) + "." + "";
    TextTimestampsParse(p, IntText(p.exp) + ".0", IntText(p.iat) + ".");
  }

  lemma TextTimestampsParse(p: TokenPayload, exp: string, iat: string)
    requires IntOfText(exp) == Some(p.exp) && IntOfText(iat) == Some(p.iat)
    ensures ParseTokenPayload(map["sub" := Text(p.sub), "exp" := Text(exp), "iat" := Text(iat)]) == Ok(p)
  {
    var b := map["sub" := Text(p.sub), "exp" := Text(exp), "iat" := Text(iat)];
    assert FieldOf(b, "exp") == Text(exp) && FieldOf(b, "iat") == Text(iat);
    ParsedFrom(b, p);
  }

  /** Claims whose three fields read as the payload's parse to it. */
  lemma ParsedFrom(b: Body, p: TokenPayload)
    requires FieldOf(b, "sub") == Text(p.sub)
    requires LaxInt(FieldOf(b, "exp")) == Some(p.exp) && LaxInt(FieldOf(b, "iat")) == Some(p.iat)
    ensures ParseTokenPayload(b) == Ok(p)
  {
  }

  /** A timestamp with a fractional part is refused. */
  lemma FractionalTimestampRejected(p: TokenPayload)
    ensures var r := ParseTokenPayload(DumpPayload(p)["exp" := Float(p.exp as real + 0.5)]);
      r.Err? && r.error == {"exp"}
  {
    var x := p.exp as real + 0.5;
    assert x.Floor == p.exp;
  }

  /** A payload with only a subject is refused for its two timestamps. */
  lemma SubjectOnlyPayloadRejected(sub: string)
    ensures ParseTokenPayload(map["sub" := Text(sub)]) == Err({"exp", "iat"})
  {
    var r := ParseTokenPayload(map["sub" := Text(sub)]);
    assert "exp" in r.error && "iat" in r.error && "sub" !in r.error;
    assert r.error == {"exp", "iat"};
  }

  /** The API view of a user. The id is carried as its canonical text, so
      the id serializer (UUID or text to text) is the identity here. */
  datatype UserResponse = UserResponse(
    id: string,
    email: string,
    name: Option<string>,
    avatarUrl: Option<string>,
    oauthProvider: string,
    createdAt: string,
    updatedAt: string)

  /** `UserResponse.model_validate(row)`: the row's fields must meet the
      response schema, whose provider rule is the same literal pair; the
      e-mail and avatar come out in normal form. */
  function ValidateResponse(u: User, emailOf: Normalizer, urlOf: Normalizer): (r: Result<UserResponse, set<string>>)
    ensures r.Ok? <==>
      emailOf(u.email).Some? && (u.name.Some? ==> FitsColumn(u.name.value))
      && (u.avatarUrl.Some? ==> urlOf(u.avatarUrl.value).Some?) && IsProvider(u.oauthProvider)
    ensures r.Ok? ==>
      Some(r.value.email) == emailOf(u.email)
      && r.value.avatarUrl == (if u.avatarUrl.Some? then urlOf(u.avatarUrl.value) else None)
      && r.value == UserResponse(u.id, r.value.email, u.name, r.value.avatarUrl, u.oauthProvider, u.createdAt, u.updatedAt)
    ensures r.Err? ==> ("oauth_provider" in r.error <==> !IsProvider(u.oauthProvider))
  {
    var failed := (if emailOf(u.email).Some? then {} else {"email"})
      + (if u.name.None? || FitsColumn(u.name.value) then {} else {"name"})
      + (if u.avatarUrl.None? || urlOf(u.avatarUrl.value).Some? then {} else {"avatar_url"})
      + (if IsProvider(u.oauthProvider) then {} else {"oauth_provider"});
    if failed == {} then
      var avatar := if u.avatarUrl.Some? then urlOf(u.avatarUrl.value) else None;
      Ok(UserResponse(u.id, emailOf(u.email).value, u.name, avatar, u.oauthProvider, u.createdAt, u.updatedAt))
    else Err(failed)
  }

  /** A row built from a valid `UserCreate` always passes the response
      schema, and its fields come back exactly as stored. */
  lemma CreatedRowValidates(c: UserCreate, id: string, now: string, emailOf: Normalizer, urlOf: Normalizer)
    requires ValidCreate(c, emailOf, urlOf)
    ensures ValidateResponse(User(id, c.email, c.name, c.avatarUrl, c.oauthProvider, c.oauthId, now, now), emailOf, urlOf)
      == Ok(UserResponse(id, c.email, c.name, c.avatarUrl, c.oauthProvider, now, now))
  {
  }
}

=== FILE: user_upsert.dfy ===
/** `create_or_get_user` (backend/app/api/v1/users.py): the upsert by e-mail
    run during sign-in. The database is the `users` table value; the id a
    new row would get, the clock reading, and a database failure are
    parameters. */
module UserUpsert {
  import opened Wrappers
  import opened Users
  import opened UserSchemas
  import opened Requests

  /** The table afterwards, the answer, and whether a commit happened. */
  datatype Upserted = Upserted(table: Table, response: Result<UserResponse, HttpError>, committed: bool)

  function Failure(reason: string): HttpError {
    HttpError(500, "Failed to create or retrieve user: " + reason, map[])
  }

  /** The incoming name replaces the stored one only when it is a non-empty
      string that differs. */
  predicate NameChanges(e: User, data: UserCreate) {
    data.name.Some? && data.name.value != "" && e.name != data.name
  }

  /** The incoming avatar replaces the stored one only when one was sent and
      it differs. */
  predicate AvatarChanges(e: User, data: UserCreate) {
    data.avatarUrl.Some? && e.avatarUrl != data.avatarUrl
  }

  /** The existing row after the conditional updates. */
  function Refreshed(e: User, data: UserCreate, now: string): (u: User)
    ensures u.id == e.id && u.email == e.email && u.createdAt == e.createdAt
    ensures u.oauthProvider == e.oauthProvider && u.oauthId == e.oauthId
    ensures u.name == (if NameChanges(e, data) then data.name else e.name)
    ensures u.avatarUrl == (if AvatarChanges(e, data) then data.avatarUrl else e.avatarUrl)
    ensures u.updatedAt == (if NameChanges(e, data) || AvatarChanges(e, data) then now else e.updatedAt)
  {
    var named := if NameChanges(e, data) then e.(name := data.name) else e;
    var pictured := if AvatarChanges(e, data) then named.(avatarUrl := data.avatarUrl) else named;
    if NameChanges(e, data) || AvatarChanges(e, data) then pictured.(updatedAt := now) else pictured
  }

  function Answer(u: User, emailOf: Normalizer, urlOf: Normalizer): Result<UserResponse, HttpError> {
    match ValidateResponse(u, emailOf, urlOf)
    case Ok(resp) => Ok(resp)
    case Err(_) => Err(Failure("response validation failed"))
  }

  /** The upsert. `dbError` is the message of a failing query or commit,
      which is rolled back. A failed response validation also answers 500,
      but after any commit, which the rollback cannot undo. */
  function CreateOrGetUser(t: Table, data: UserCreate, freshId: string, now: string,
                           dbError: Option<string>, emailOf: Normalizer, urlOf: Normalizer): (r: Upserted)
    ensures dbError.Some? ==> r == Upserted(t, Err(Failure(dbError.value)), false)
    ensures dbError.None? && FindByEmail(t, data.email).Some? ==>
      var e := FindByEmail(t, data.email).value;
      var changed := NameChanges(e, data) || AvatarChanges(e, data);
      r.committed == changed
      && (changed ==> |r.table| == |t| && Refreshed(e, data, now) in r.table)
      && (!changed ==> r.table == t)
      && r.response == Answer(Refreshed(e, data, now), emailOf, urlOf)
    ensures dbError.None? && FindByEmail(t, data.email).None? ==>
      var u := User(freshId, data.email, data.name, data.avatarUrl, data.oauthProvider, data.oauthId, now, now);
      (FindById(t, freshId).Some? ==> r == Upserted(t, Err(Failure("duplicate key value violates unique constraint")), false))
      && (FindById(t, freshId).None? ==> r.table == t + [u] && r.committed && r.response == Answer(u, emailOf, urlOf))
  {
    if dbError.Some? then Upserted(t, Err(Failure(dbError.value)), false)
    else
      match EmailIndex(t, data.email)
      case Some(i) =>
        var e := t[i];
        var u := Refreshed(e, data, now);
        if NameChanges(e, data) || AvatarChanges(e, data) then
          assert t[i := u][i] == u;
          Upserted(t[i := u], Answer(u, emailOf, urlOf), true)
        else
          Upserted(t, Answer(u, emailOf, urlOf), false)
      case None =>
        if FindById(t, freshId).Some? then
          Upserted(t, Err(Failure("duplicate key value violates unique constraint")), false)
        else
          var u := User(freshId, data.email, data.name, data.avatarUrl, data.oauthProvider, data.oauthId, now, now);
          Upserted(t + [u], Answer(u, emailOf, urlOf), true)
  }

  /** The table grows by at most one row, and by one exactly when a new
      user was created. */
  lemma GrowsByAtMostOne(t: Table, data: UserCreate, freshId: string, now: string,
                         dbError: Option<string>, emailOf: Normalizer, urlOf: Normalizer)
    ensures var r := CreateOrGetUser(t, data, freshId, now, dbError, emailOf, urlOf);
      |t| <= |r.table| <= |t| + 1
      && (|r.table| == |t| + 1 <==> dbError.None? && FindByEmail(t, data.email).None? && FindById(t, freshId).None?)
  {
  }

  /** The unique constraints on e-mail and id survive the upsert. */
  lemma KeepsWellKeyed(t: Table, data: UserCreate, freshId: string, now: string,
                       dbError: Option<string>, emailOf: Normalizer, urlOf: Normalizer)
    requires WellKeyed(t)
    ensures WellKeyed(CreateOrGetUser(t, data, freshId, now, dbError, emailOf, urlOf).table)
  {
    var r := CreateOrGetUser(t, data, freshId, now, dbError, emailOf, urlOf);
    if dbError.None? {
      match EmailIndex(t, data.email)
      case Some(i) =>
        var u := Refreshed(t[i], data, now);
        assert forall j :: 0 <= j < |t| ==> t[i := u][j].email == t[j].email && t[i := u][j].id == t[j].id;
      case None =>
        if FindById(t, freshId).None? {
          var n := t + [User(freshId, data.email, data.name, data.avatarUrl, data.oauthProvider, data.oauthId, now, now)];
          assert forall j :: 0 <= j < |t| ==> n[j] == t[j];
        }
    }
  }

  /** An existing user keeps its identity: id, e-mail, provider, provider id
      and creation time, in the same row. */
  lemma ExistingKeepsIdentity(t: Table, data: UserCreate, freshId: string, now: string,
                              emailOf: Normalizer, urlOf: Normalizer, i: nat)
    requires WellKeyed(t) && i < |t| && t[i].email == data.email
    ensures var r := CreateOrGetUser(t, data, freshId, now, None, emailOf, urlOf);
      |r.table| == |t|
      && r.table[i].id == t[i].id && r.table[i].email == t[i].email
      && r.table[i].oauthProvider == t[i].oauthProvider && r.table[i].oauthId == t[i].oauthId
      && r.table[i].createdAt == t[i].createdAt
      && (forall j :: 0 <= j < |t| && j != i ==> r.table[j] == t[j])
  {
    FindByEmailUnique(t, i);
    var k := EmailIndex(t, data.email);
    assert k.Some? && t[k.value].email == t[i].email;
    assert k.value == i;
  }

  /** Signing in twice with the same data changes nothing the second time:
      no commit, the same table, the same answer. */
  lemma SecondCallIsQuiet(t: Table, data: UserCreate, id1: string, id2: string, now1: string, now2: string,
                          emailOf: Normalizer, urlOf: Normalizer)
    requires WellKeyed(t)
    requires CreateOrGetUser(t, data, id1, now1, None, emailOf, urlOf).response.Ok?
    ensures var r1 := CreateOrGetUser(t, data, id1, now1, None, emailOf, urlOf);
      var r2 := CreateOrGetUser(r1.table, data, id2, now2, None, emailOf, urlOf);
      r2.table == r1.table && !r2.committed && r2.response == r1.response
  {
    var r1 := CreateOrGetUser(t, data, id1, now1, None, emailOf, urlOf);
    KeepsWellKeyed(t, data, id1, now1, None, emailOf, urlOf);
    var i :| 0 <= i < |r1.table| && r1.table[i].email == data.email && r1.table[i] == RowAfter(t, data, id1, now1)
      by { RowAfterPlaced(t, data, id1, now1, emailOf, urlOf); }
    FindByEmailUnique(r1.table, i);
    var e := r1.table[i];
    assert !NameChanges(e, data) && !AvatarChanges(e, data);
    assert Refreshed(e, data, now2) == e;
  }

  /** The row holding `data.email` after a successful first call. */
  function RowAfter(t: Table, data: UserCreate, freshId: string, now: string): User {
    match FindByEmail(t, data.email)
    case Some(e) => Refreshed(e, data, now)
    case None => User(freshId, data.email, data.name, data.avatarUrl, data.oauthProvider, data.oauthId, now, now)
  }

  lemma RowAfterPlaced(t: Table, data: UserCreate, freshId: string, now: string, emailOf: Normalizer, urlOf: Normalizer)
    requires CreateOrGetUser(t, data, freshId, now, None, emailOf, urlOf).response.Ok?
    ensures var r := CreateOrGetUser(t, data, freshId, now, None, emailOf, urlOf);
      exists i :: 0 <= i < |r.table| && r.table[i].email == data.email && r.table[i] == RowAfter(t, data, freshId, now)
  {
    var r := CreateOrGetUser(t, data, freshId, now, None, emailOf, urlOf);
    match EmailIndex(t, data.email)
    case Some(i) =>
      var u := Refreshed(t[i], data, now);
      if NameChanges(t[i], data) || AvatarChanges(t[i], data) {
        assert r.table[i] == u;
      } else {
        assert r.table[i] == t[i] == u;
      }
    case None =>
      assert r.table[|t|] == RowAfter(t, data, freshId, now);
  }
}

=== FILE: users.dfy ===
/** The `users` table (backend/app/db/models/user.py) as a sequence of rows,
    with the two lookups the backend performs: by primary key and by the
    unique email. Timestamps are kept as their ISO-8601 text. */
module Users {
  import opened Wrappers

  datatype User = User(
    id: string,
    email: string,
    name: Option<string>,
    avatarUrl: Option<string>,
    oauthProvider: string,
    oauthId: string,
    createdAt: string,
    updatedAt: string)

  type Table = seq<User>

  /** The table's unique constraints: on the email column and on the
      primary key. */
  predicate WellKeyed(t: Table) {
    (forall i, j :: 0 <= i < j < |t| ==> t[i].email != t[j].email)
    && (forall i, j :: 0 <= i < j < |t| ==> t[i].id != t[j].id)
  }

  /** Position of the row with this email, if any. */
  function EmailIndex(t: Table, email: string): (i: Option<nat>)
    ensures i.Some? ==> i.value < |t| && t[i.value].email == email
    ensures i.None? <==> forall j :: 0 <= j < |t| ==> t[j].email != email
  {
    if |t| == 0 then None
    else if t[|t| - 1].email == email then Some(|t| - 1)
    else EmailIndex(t[..|t| - 1], email)
  }

  /** `select(User).where(User.email == email)`, one row at most. */
  function FindByEmail(t: Table, email: string): (u: Option<User>)
    ensures u.Some? <==> exists j :: 0 <= j < |t| && t[j].email == email
    ensures u.Some? ==> u.value in t && u.value.email == email
  {
    match EmailIndex(t, email)
    case Some(i) => Some(t[i])
    case None => None
  }

  /** `session.get(User, id)`. */
  function FindById(t: Table, id: string): (u: Option<User>)
    ensures u.Some? <==> exists j :: 0 <= j < |t| && t[j].id == id
    ensures u.Some? ==> u.value in t && u.value.id == id
  {
    if |t| == 0 then None
    else if t[|t| - 1].id == id then Some(t[|t| - 1])
    else FindById(t[..|t| - 1], id)
  }

  /** In a well-keyed table the email lookup finds the one row with that
      email, wherever it sits. */
  lemma FindByEmailUnique(t: Table, j: nat)
    requires WellKeyed(t) && j < |t|
    ensures FindByEmail(t, t[j].email) == Some(t[j])
  {
    var i := EmailIndex(t, t[j].email);
    assert i.Some?;
    assert i.value == j;
  }
}

=== FILE: wrappers.dfy ===
/** Failure-carrying datatypes shared by the backend modules: `Option` for
    Python's `X | None`, `Result` for a value or the error a call raises. */
module Wrappers {

  datatype Option<+T> = None | Some(value: T) {

    /** The value, or `default` when there is none. */
    function GetOr(default: T): T {
      match this
      case Some(v) => v
      case None => default
    }
  }

  datatype Result<+R, +E> = Ok(value: R) | Err(error: E)
}
